=== FILE: README.md ===
# Shader program parser

This project is a Dafny model of the shader program preprocessor of the AnKi engine, `ShaderProgramParser`. The preprocessor reads one annotated shader template and the files it includes. From the template it collects:
- mutators: named compile-time switches, each with a finite value list;
- inputs: uniform-block values, textures, samplers and specialization constants;
- mutation rewrite rules;
- the code of each shader stage.

From that parsed model it produces one *variant* per mutation vector. A variant holds the source of every stage, the inputs that are active under the mutation's `#define` values, the uniform-block layout, the texture and sampler bindings, and whether the block goes into push constants.

The model follows the source's own split:

- `common.dfy`: 32-bit widths, error kinds, shader stages and data types with their spellings.
- `text.dfy`: the line tokenizer, `tokenIsComment`, integer reading and printing, and line splitting.
- `model.dfy`: `ShaderProgramParserMutator`, `ShaderProgramParserInput` with its classification predicates, and `MutationRewrite::Record` with `operator!=`. It also states the invariants the parser keeps on them.
- `rewrite.dfy`: what `rewriteMutation` computes, its properties, and the engine test's three rules.
- `pragmas.dfy`: the decision each `#include` / `#pragma anki ...` handler makes from its tokens, as pure functions returning the declared entity or an error.
- `conditions.dfy`: the active-input analyzer. It evaluates `#if`, `#ifdef`, `#ifndef`, `#else` and `#endif` over the `#define` header, understanding `==`, `>`, `<`, `&&` and `||`.
- `layout.dfy`: uniform-block placement, texture and sampler binding numbering, and the push-constant decision.
- `variant.dfy`: the class `ShaderProgramParserVariant` with its guarded accessors.
- `parser.dfy`: the class `ShaderProgramParser`.
  - Its fields are the parse state.
  - Its handlers update the state in place. Each is proved against a pure transition function over a `ParserState` snapshot, and each keeps the state invariant `StateValid`.
  - Reading a file is proved equal to a pure fold over its lines (`FileStep`, `LinesStep`, `LineStep`, `IncludeStep`) that follows `#include` one level deeper, up to depth 8.
  - `RewriteMutation` works in place on an array.
  - `GenerateVariant` fills a variant object. Every field it sets is tied to a specification function of the parsed state and the mutation.
- `includes.dfy`: properties of the whole read of a program: a file under `#pragma once` is read once, and include chains are cut at depth 8.
- `headers.dfy`: what the `#define` header of a variant does to the active-input analysis.

The file system is the map `files` from file name to text. A parse failure carries the file name and the 1-based number of the offending line. Three failures belong to no line and carry line 0: the main file missing, a stage still open after the last line, and instanced inputs without an instance-count mutator.

## Model

| member | source | states |
|---|---|---|
| ParserModel.MutatorHasValue | src/anki/shader_compiler/ShaderProgramParser.h:315 | reports exactly whether the value is one of the mutator's declared values |
| ParserModel.AtMostOneInstanceCount | src/anki/shader_compiler/ShaderProgramParser.h:47-50 | in a valid mutator list at most one mutator is the instance-count mutator |
| ParserModel.Input.ConstantQuery | src/anki/shader_compiler/ShaderProgramParser.h:86-93 | `isConstant` with its out-parameter: the id returned is the stored spec-constant id, and the input is constant exactly when that id is not MAX_U32 |
| ParserModel.TextureRangeIsTextureKinds | src/anki/shader_compiler/ShaderProgramParser.h:95-99 | an input is a texture exactly when its type lies in the texture range of the enumeration, i.e. is one of the seven texture kinds |
| ParserModel.ClassificationPartition | src/anki/shader_compiler/ShaderProgramParser.h:101-109 | texture and sampler never both hold; an input is in the uniform block exactly when it is none of constant, texture, sampler |
| ParserModel.ConstantIdsSequential | src/anki/shader_compiler/ShaderProgramParser.h:112-116 | in a valid input list, spec-constant ids grow strictly with declaration order and stay below the parser's counter |
| ParserModel.RecordsDiffer | src/anki/shader_compiler/ShaderProgramParser.h:250-254 | `Record::operator!=` is exactly the negation of field-wise equality |
| Rewriting.ApplyRecords | src/anki/shader_compiler/ShaderProgramParser.h:208-210 | applying a rule keeps the mutation's length |
| Rewriting.ApplyFirstRule | src/anki/shader_compiler/ShaderProgramParser.h:208-210 | keeps the mutation's length, and a mutation reported as not rewritten is unchanged |
| Rewriting.ApplyRecordsAt | src/anki/shader_compiler/ShaderProgramParser.h:208-210 | after applying a rule, each position it names holds its to-value and every other position is unchanged |
| Rewriting.FirstMatchingRuleApplies | src/anki/shader_compiler/ShaderProgramParser.h:208-210 | "rewritten" holds iff some rule matches; the result is then the first matching rule applied, with no earlier rule matching; otherwise the mutation is unchanged |
| Rewriting.RewriteKeepsMutationValid | src/anki/shader_compiler/ShaderProgramParser.h:208-210 | rewriting a valid mutation gives a valid mutation (one declared value per mutator) |
| Rewriting.ChangedOnlyWhenRewritten | src/anki/shader_compiler/ShaderProgramParser.h:209 | a changed mutation is reported rewritten; a reported rewrite comes from the first matching rule, and the mutation changed exactly when that rule changes some value |
| Rewriting.RewriteImageNoLarger | src/anki/shader_compiler/ShaderProgramParser.h:208 | rewriting a set of mutation vectors never yields more distinct vectors than the set had |
| Rewriting.TestRulesValid | tests/shader_compiler/ShaderProgramCompiler.cpp:12-18 | the test's three rules are well formed against its mutators LOD, PASS and DIFFUSE_TEX |
| Rewriting.TestRulesCollapseDiffuse | tests/shader_compiler/ShaderProgramCompiler.cpp:18 | for every LOD, (PASS 3, DIFFUSE_TEX 1) is rewritten to (PASS 2, DIFFUSE_TEX 0) |
| Rewriting.TestRulesFixedPoint | tests/shader_compiler/ShaderProgramCompiler.cpp:16-18 | (PASS 2, DIFFUSE_TEX 0) is left alone and reported as not rewritten |
| Common.ShaderTypeIndex | src/anki/shader_compiler/ShaderProgramParser.h:135-138 | every stage indexes inside the per-stage source array |
| Common.ShaderTypeNameRoundTrip | src/anki/shader_compiler/ShaderProgramParser.h:187 | the stage keywords of `start` and the stages correspond one to one |
| Common.DataTypeFromName | src/anki/shader_compiler/ShaderProgramParser.h:186 | a recognised type name names a real type whose spelling is that name |
| Common.DataTypeNameRecognised | src/anki/shader_compiler/ShaderProgramParser.h:186 | every type other than NONE is recognised from its own spelling |
| Text.TokenizeLine | src/anki/shader_compiler/ShaderProgramParser.h:308 | the tokenizer loop computes the whitespace-separated tokens of the line |
| Text.TokensShape | src/anki/shader_compiler/ShaderProgramParser.h:308 | every token is non-empty and blank-free, and the tokens hold exactly the line's non-blank characters in order |
| Text.TokensOfJoin | src/anki/shader_compiler/ShaderProgramParser.h:308 | tokenizing tokens joined by single spaces gives them back |
| Text.TokenIsComment | src/anki/shader_compiler/ShaderProgramParser.h:310-313 | a token is a comment exactly when it starts with `//` or `/*`, so tokens shorter than two characters never are |
| Text.StripComments | src/anki/shader_compiler/ShaderProgramParser.h:294 | the kept tokens are a prefix of the line's tokens, contain no comment token, and stop only at a comment token |
| Text.ParseFormatRoundTrip | src/anki/shader_compiler/ShaderProgramParser.h:213-214 | a value printed into a `#define` line reads back as the same integer |
| Text.SplitLinesJoin | src/anki/shader_compiler/ShaderProgramParser.h:293 | the lines of a file joined with newlines give the file's text back |
| Pragmas.IncludeTarget | src/anki/shader_compiler/ShaderProgramParser.h:181 | `#include` takes exactly one argument, `"path"` or `<path>`, with a non-empty path; both forms are accepted |
| Pragmas.ParseValues | src/anki/shader_compiler/ShaderProgramParser.h:183 | the values are read exactly when every token is an integer in the signed 32-bit range, and each value is its token's integer |
| Pragmas.MutatorDirective | src/anki/shader_compiler/ShaderProgramParser.h:297-298 | the errors for no name, no value, a repeated name and a second instanced mutator; acceptance iff values parse and strictly increase; the new mutator keeps the list valid |
| Pragmas.InputDirective | src/anki/shader_compiler/ShaderProgramParser.h:299 | wrong arity and `const instanced` are rejected; a line of the right shape with a known type, a fresh name and room in the 128-input table is accepted; an accepted input has the named type and name, the next index, a spec-constant id iff `const`, instancing iff `instanced`, and keeps the input list valid |
| Pragmas.InputDirectiveRejects | src/anki/shader_compiler/ShaderProgramParser.h:299 | on a well-formed line: an unknown type, a repeated name, or a full table (128 inputs) is rejected with that error |
| Pragmas.AppendInputKeepsValid | src/anki/shader_compiler/ShaderProgramParser.h:286 | appending an input with the next index, a fresh name and the counter's spec-constant id keeps dense indices, unique names and sequential ids, and advances the counter |
| Pragmas.StartDirective | src/anki/shader_compiler/ShaderProgramParser.h:300 | `start` inside a stage is a nesting error; an accepted stage is the named one and keeps compute apart from the graphics stages; a well-formed compatible `start` is accepted |
| Pragmas.DescriptorSetDirective | src/anki/shader_compiler/ShaderProgramParser.h:302-303 | the set is the line's number; once declared, only the same number is accepted, and a different one is a redeclaration |
| Pragmas.FindTo | src/anki/shader_compiler/ShaderProgramParser.h:184-185 | finds the first `to` token, or reports that there is none |
| Pragmas.ParseAssignments | src/anki/shader_compiler/ShaderProgramParser.h:184-185 | a side of a rule reads two tokens per assignment; every failure is a malformed rule |
| Pragmas.ParseAssignmentsMeaning | src/anki/shader_compiler/ShaderProgramParser.h:184-185 | assignment j is a declared mutator named by token 2j with one of its values read from token 2j+1, and no mutator repeats |
| Pragmas.BuildRecords | src/anki/shader_compiler/ShaderProgramParser.h:240-257 | records are in strictly increasing mutator order, and each pairs a from-value and a to-value that the two sides give the same mutator |
| Pragmas.BuildRecordsCovers | src/anki/shader_compiler/ShaderProgramParser.h:184-185 | every mutator named by the rule gets a record |
| Pragmas.SameRecords | src/anki/shader_compiler/ShaderProgramParser.h:250-254 | two record lists compared with `operator!=` are equal exactly when they are identical |
| Pragmas.RewriteDirective | src/anki/shader_compiler/ShaderProgramParser.h:304-305 | a line without `to` is rejected; an accepted rule is new and keeps the rule list valid; every failure is a malformed rule |
| Pragmas.RewriteDirectiveAccepts | src/anki/shader_compiler/ShaderProgramParser.h:184-185 | once `to` is found and both sides parse, the rule is accepted exactly when its left side is not empty, both sides name the same mutators and the rule is not yet declared |
| Pragmas.RewriteDirectiveMeaning | src/anki/shader_compiler/ShaderProgramParser.h:184-185 | an accepted rule's sides name the same mutators; its records come from those sides and cover every named mutator |
| Pragmas.BuiltRuleValid | src/anki/shader_compiler/ShaderProgramParser.h:240-257 | records built from two valid sides are non-empty and each names a declared mutator and two of its values |
| Pragmas.NewRuleKeepsValid | src/anki/shader_compiler/ShaderProgramParser.h:280 | appending a valid rule that is not yet declared keeps the rule list valid and duplicate-free |
| Conditions.SplitOnRoundTrip | src/anki/shader_compiler/ShaderProgramParser.h:307 | splitting a guard at `&&` or `\|\|` loses nothing, and no part holds the separator |
| Conditions.ParseAtomRoundTrip | src/anki/shader_compiler/ShaderProgramParser.h:307 | every atom of the supported subset (one operand, or `A op B` with op among `==`, `>`, `<`), written as tokens, parses back as itself |
| Conditions.ParseDisjunction | src/anki/shader_compiler/ShaderProgramParser.h:307 | a guard parses exactly when every `&&`-chain parses, one chain per `\|\|` operand |
| Conditions.EvalConjunction | src/anki/shader_compiler/ShaderProgramParser.h:307 | an `&&`-chain evaluates when every atom does, and is true exactly when all are |
| Conditions.EvalCond | src/anki/shader_compiler/ShaderProgramParser.h:307 | a `\|\|`-chain evaluates when every chain does, and is true exactly when some chain is |
| Conditions.ClassifyDefineLine | src/anki/shader_compiler/ShaderProgramParser.h:213-214 | a `#define NAME value` line written into the header reads back as that definition |
| Conditions.ClassifyMarkerLine | src/anki/shader_compiler/ShaderProgramParser.h:299 | the marker line left where an input is declared reads back as that input's marker |
| Conditions.Step | src/anki/shader_compiler/ShaderProgramParser.h:307 | every failing directive is an unsupported conditional; in a dead region nothing is defined and no input becomes active |
| Conditions.AnalyzeSource | src/anki/shader_compiler/ShaderProgramParser.h:307 | the mask of one stage source has one bit per possible input (128); which bits are set is stated by AnalyzeSourceExact |
| Conditions.AnalyzeSourceExact | src/anki/shader_compiler/ShaderProgramParser.h:307 | bit i of a successful analysis is set exactly when input i is declared and the scan reaches its marker line while the enclosing conditionals are all live |
| Conditions.ActiveIffReached | src/anki/shader_compiler/ShaderProgramParser.h:307 | a name is active after scanning a run of directives exactly when it was active before or some marker for it is reached in a live region |
| Conditions.ActiveGrows | src/anki/shader_compiler/ShaderProgramParser.h:307 | scanning never deactivates a name: the active set only grows |
| Conditions.LiveMarkerActive | src/anki/shader_compiler/ShaderProgramParser.h:307 | a marker met in a live region makes its input active in any successful scan of what follows |
| Conditions.AnalyzeSourceSound | src/anki/shader_compiler/ShaderProgramParser.h:307 | an input is active in the analysis of a source only when it is declared and the source holds its marker |
| Conditions.FindActiveInputVars | src/anki/shader_compiler/ShaderProgramParser.h:307 | the line-by-line scan computes the analysis of the whole source |
| Conditions.ActiveOnlyFromMarkers | src/anki/shader_compiler/ShaderProgramParser.h:307 | an input becomes active only through a marker for it in the source |
| Conditions.GuardFalseSkips | src/anki/shader_compiler/ShaderProgramParser.h:191 | a guard (`#if`, `#ifdef`, `#ifndef`) that is false skips its body up to the matching `#endif`, for any body whose own conditionals are balanced: nothing in it is defined or activated |
| Conditions.GuardTrueEnters | src/anki/shader_compiler/ShaderProgramParser.h:191 | a guard that is true runs its balanced body, nested conditionals included, as if it were unguarded |
| Conditions.RunDeadBody | src/anki/shader_compiler/ShaderProgramParser.h:191 | a balanced region inside a dead branch changes neither the macros nor the active inputs |
| Conditions.RunLiftedBody | src/anki/shader_compiler/ShaderProgramParser.h:191 | a balanced region under a live frame runs as it would without that frame, and the matching `#endif` closes exactly that frame |
| Conditions.DiffuseTextureGuard | tests/shader_compiler/ShaderProgramCompiler.cpp:38-40 | under `DIFFUSE_TEX` 1 the guarded texture's marker is reached; under 0 it is skipped |
| Headers.HeaderEnvValues | src/anki/shader_compiler/ShaderProgramParser.h:213-214 | after the `#define` header of a variant, exactly the mutators are defined, each with its value in the mutation |
| Headers.RunDefines | src/anki/shader_compiler/ShaderProgramParser.h:213-214 | the header's lines read back as the mutators' definitions, and scanning them sets those macros in order |
| Headers.GuardedMarkerInactive | src/anki/shader_compiler/ShaderProgramParser.h:191 | in a source whose guard directly follows the `#define` header, an input whose marker lies only inside a guard that the mutation makes false (around any balanced lines) is not active |
| Headers.GuardedMarkerActive | src/anki/shader_compiler/ShaderProgramParser.h:191 | in a source whose guard directly follows the `#define` header, an input (of a table within the 128-input limit) whose marker is the first line of a balanced body under a guard that the mutation makes true is active |
| Layout.AlignUp | src/anki/shader_compiler/ShaderProgramParser.h:170 | the offset is the first multiple of the alignment at or after the current end |
| Layout.BlockLayoutPlaces | src/anki/shader_compiler/ShaderProgramParser.h:145-149 | exactly the active uniform-block inputs get a block info; it is aligned for the type, has the type's size and lies inside the block; the rest are unset |
| Layout.BlockLayoutDisjoint | src/anki/shader_compiler/ShaderProgramParser.h:170 | placed inputs occupy disjoint byte ranges in declaration order |
| Layout.BlockSizeZero | src/anki/shader_compiler/ShaderProgramParser.h:172 | the block size is 0 exactly when no active input lives in the block |
| Layout.BindingsShape | src/anki/shader_compiler/ShaderProgramParser.h:151-155 | exactly the active textures and samplers get a binding ≥ 0; the others get -1; the bindings handed out are exactly 0 to count-1 |
| Layout.BindingsIncreasing | src/anki/shader_compiler/ShaderProgramParser.h:171 | bindings grow with declaration order, so no two inputs share one |
| Layout.UboInputUnbound | src/anki/shader_compiler/ShaderProgramParser.h:106-109 | a uniform-block input never receives a texture or sampler binding |
| Layout.PushConstants | src/anki/shader_compiler/ShaderProgramParser.h:173 | a block over the budget is an overflow error; otherwise push constants are used exactly when the block is non-empty |
| Layout.PushConstantBudgetBoundary | tests/shader_compiler/ShaderProgramCompiler.cpp:90 | with the 128-byte budget, two 4x4 matrices fill it exactly and one more float overflows it |
| Variants.ShaderProgramParserVariant.constructor | src/anki/shader_compiler/ShaderProgramParser.h:172-174 | a fresh variant has block size 0, no push constants and an all-false active-input mask |
| Variants.ShaderProgramParserVariant.Fill | src/anki/shader_compiler/ShaderProgramParser.h:169-174 | stores one generation's sources, mask, block infos, bindings, size and push-constant flag; the variant's invariant then says only active inputs hold a binding or a block place, every place lies inside the block, and push constants imply a non-empty block |
| Variants.ShaderProgramParserVariant.IsInputActive | src/anki/shader_compiler/ShaderProgramParser.h:140-143 | the input's mask bit; an input that is not active has neither a binding nor a place in the block |
| Variants.ShaderProgramParserVariant.GetBlockInfo | src/anki/shader_compiler/ShaderProgramParser.h:145-149 | defined only for an active uniform-block input; its stored block info |
| Variants.ShaderProgramParserVariant.GetBinding | src/anki/shader_compiler/ShaderProgramParser.h:151-155 | defined only for a texture or sampler with a stored binding ≥ 0; that binding, unchanged by the conversion to unsigned |
| Variants.ShaderProgramParserVariant.GetBlockSize | src/anki/shader_compiler/ShaderProgramParser.h:157-160 | the block size, which every placed input's byte range ends within |
| Variants.ShaderProgramParserVariant.UsesPushConstants | src/anki/shader_compiler/ShaderProgramParser.h:162-165 | push constants are used only for a block that holds something |
| Parser.InitialState | src/anki/shader_compiler/ShaderProgramParser.h:282-286 | the parser starts outside any stage, with no stage types, set 0, no instanced mutator, counter 0 and no declarations |
| Parser.InitialStateValid | src/anki/shader_compiler/ShaderProgramParser.h:282-286 | the initial state satisfies the parser's invariant |
| Parser.WithLine | src/anki/shader_compiler/ShaderProgramParser.h:271-272 | a plain line only extends the buffers and keeps the invariant |
| Parser.WithMember | src/anki/shader_compiler/ShaderProgramParser.h:273 | a struct member line only extends the buffers and keeps the invariant |
| Parser.MutatorStepKeepsValid | src/anki/shader_compiler/ShaderProgramParser.h:297-298 | an accepted mutator keeps the invariant, and the new state only extends the old |
| Parser.AddInputKeepsValid | src/anki/shader_compiler/ShaderProgramParser.h:291 | recording an input keeps the invariant, including "an instanced input was found" iff some input is instanced |
| Parser.InputStepKeepsValid | src/anki/shader_compiler/ShaderProgramParser.h:299 | an accepted input keeps the invariant and the counter within 32 bits, and the new state only extends the old |
| Parser.Finish | src/anki/shader_compiler/ShaderProgramParser.h:274-276 | joining the buffers into sources keeps the invariant |
| Parser.CombineMasksOk | src/anki/shader_compiler/ShaderProgramParser.h:213-214 | the variant's mask exists exactly when every stage's source is analysed without error |
| Parser.CombineMasksFirstError | src/anki/shader_compiler/ShaderProgramParser.h:213-214 | when some stage fails, the error is that of the first failing stage |
| Parser.CombineMasksUnion | src/anki/shader_compiler/ShaderProgramParser.h:213-214 | an input is active in the variant exactly when it is active in the analysis of some stage's source |
| Parser.CombineMasksSound | src/anki/shader_compiler/ShaderProgramParser.h:213-214 | an active bit belongs to a declared input whose marker appears in the source of some stage |
| Parser.RuleMatches | src/anki/shader_compiler/ShaderProgramParser.h:210 | the loop over a rule's records reports exactly whether the rule matches the array |
| Parser.ApplyRecordsInPlace | src/anki/shader_compiler/ShaderProgramParser.h:210 | the array afterwards is the rule applied to its old contents |
| Parser.ApplyFirstRuleInPlace | src/anki/shader_compiler/ShaderProgramParser.h:208-210 | the array and flag afterwards are the first matching rule applied to the old contents, or the contents unchanged and false |
| Parser.StageSources | src/anki/shader_compiler/ShaderProgramParser.h:169 | one source per stage: the assembled source for a stage the program has, empty otherwise |
| Parser.StageMasks | src/anki/shader_compiler/ShaderProgramParser.h:213-214 | the loop over the stages computes the variant's active-input mask, or the first stage's analysis error |
| Parser.PlaceInputs | src/anki/shader_compiler/ShaderProgramParser.h:170-172 | the loop computes the block infos and block size of the layout |
| Parser.BindInputs | src/anki/shader_compiler/ShaderProgramParser.h:171 | the loop computes the bindings of the numbering |
| Parser.ShaderProgramParser.constructor | src/anki/shader_compiler/ShaderProgramParser.h:195-201 | a new parser is in the initial state and valid, with the given file name, files and push-constant budget |
| Parser.ShaderProgramParser.PushLine | src/anki/shader_compiler/ShaderProgramParser.h:271-272 | a line goes to the code inside a stage and to the globals outside one |
| Parser.ShaderProgramParser.RecordInput | src/anki/shader_compiler/ShaderProgramParser.h:279 | the input is appended, the spec-constant counter advances for a constant, and the instanced flag is updated |
| Parser.ShaderProgramParser.PushStructMember | src/anki/shader_compiler/ShaderProgramParser.h:273 | a uniform-block input adds its member line to the struct buffer |
| Parser.ShaderProgramParser.AppendMutator | src/anki/shader_compiler/ShaderProgramParser.h:278 | the mutator is appended, and the instanced index moves to it when it drives instancing |
| Parser.ShaderProgramParser.OpenStage | src/anki/shader_compiler/ShaderProgramParser.h:282-283 | enters the stage, records its type and opens its guard in the code |
| Parser.ShaderProgramParser.CloseStage | src/anki/shader_compiler/ShaderProgramParser.h:283 | leaves the stage and closes its guard in the code |
| Parser.ShaderProgramParser.SetDescriptorSet | src/anki/shader_compiler/ShaderProgramParser.h:284 | stores the descriptor set and marks it declared |
| Parser.ShaderProgramParser.AppendRewrite | src/anki/shader_compiler/ShaderProgramParser.h:280 | the rule is appended |
| Parser.ShaderProgramParser.AddOnceFile | src/anki/shader_compiler/ShaderProgramParser.h:182 | the file joins the set of files parsed under `#pragma once` |
| Parser.ShaderProgramParser.JoinSources | src/anki/shader_compiler/ShaderProgramParser.h:274-276 | each buffer becomes one newline-joined source |
| Parser.ShaderProgramParser.ParsePragmaMutator | src/anki/shader_compiler/ShaderProgramParser.h:297-298 | fails with the decision's error and no change, or declares the decided mutator; keeps the invariant |
| Parser.ShaderProgramParser.ParsePragmaInput | src/anki/shader_compiler/ShaderProgramParser.h:299 | fails with the decision's error and no change, or records the input, its struct member and its marker; keeps the invariant |
| Parser.ShaderProgramParser.ParsePragmaStart | src/anki/shader_compiler/ShaderProgramParser.h:300 | fails with no change, or enters the decided stage; keeps the invariant |
| Parser.ShaderProgramParser.ParsePragmaEnd | src/anki/shader_compiler/ShaderProgramParser.h:301 | `end` outside a stage is a nesting error, with arguments it is malformed, otherwise it leaves the stage |
| Parser.ShaderProgramParser.ParsePragmaDescriptorSet | src/anki/shader_compiler/ShaderProgramParser.h:302-303 | fails with no change, or sets the decided set |
| Parser.ShaderProgramParser.ParsePragmaRewriteMutation | src/anki/shader_compiler/ShaderProgramParser.h:304-305 | fails with no change, or appends the decided rule; keeps the invariant |
| Parser.ShaderProgramParser.ParsePragmaAnki | src/anki/shader_compiler/ShaderProgramParser.h:183-189 | each directive name yields its handler's outcome (`mutator`, `input`, `start`/`end`/`descriptor_set`, `rewrite_mutation`); a missing or unknown name is malformed, with no change |
| Parser.ShaderProgramParser.ParseFile | src/anki/shader_compiler/ShaderProgramParser.h:293 | the outcome and new state are the fold `FileStep`: a file parsed under `#pragma once` is skipped, a missing file is not found, otherwise its lines are read in order up to the first failure |
| Parser.ShaderProgramParser.ParseLine | src/anki/shader_compiler/ShaderProgramParser.h:294 | one line advances the fold over the file's lines: a failure is the fold's outcome, otherwise the fold continues from the new state with the updated `#pragma once` flag |
| Parser.ShaderProgramParser.ParseInclude | src/anki/shader_compiler/ShaderProgramParser.h:295-296 | the outcome is `IncludeStep`: a malformed include, one deeper than 8 or a missing file fail with no change; otherwise the target file is read by the fold one level deeper |
| Parser.ShaderProgramParser.Parse | src/anki/shader_compiler/ShaderProgramParser.h:206 | the outcome is `ParseProgram`, the fold over the main file from the initial state; on success no stage is left open, an instance-count mutator exists iff some input is instanced, and the sources are the joined buffers |
| Parser.LineStepExtends | src/anki/shader_compiler/ShaderProgramParser.h:294 | reading a line only extends the parse state: declarations and buffers are kept, never removed |
| Parser.FileStepExtends | src/anki/shader_compiler/ShaderProgramParser.h:293 | reading a file, includes included, only extends the parse state |
| Parser.LineStepKeepsValid | src/anki/shader_compiler/ShaderProgramParser.h:294 | reading one line, an `#include` line with its file included, keeps the parser's invariant, so the fold's refusal of an invalid state is never taken |
| Parser.FileStepKeepsValid | src/anki/shader_compiler/ShaderProgramParser.h:293 | reading a file, includes included, keeps the parser's invariant |
| Parser.LinesStepAdvance | src/anki/shader_compiler/ShaderProgramParser.h:294 | the fold over a file's lines takes one line's outcome and, unless it failed, continues from the state that line leaves |
| Includes.LinesStepMarksOnce | src/anki/shader_compiler/ShaderProgramParser.h:182 | a file read without failure that holds a `#pragma once` line ends up in the set of files parsed under `#pragma once` |
| Includes.OnceFileReadOnce | src/anki/shader_compiler/ShaderProgramParser.h:182 | after a `#pragma once` file was read, including it again at any depth reads nothing and changes nothing |
| Includes.PragmaOnceLineStep | src/anki/shader_compiler/ShaderProgramParser.h:294 | the first `#pragma once` line of a file marks the file as read under `#pragma once`; a line after it fails with DuplicatePragmaOnce at that line, with the state unchanged |
| Includes.OnceThenSecondFails | src/anki/shader_compiler/ShaderProgramParser.h:294 | once a file's `#pragma once` has been met, a later `#pragma once` line in it means the file is not read without failure |
| Includes.TwoPragmaOnceFails | src/anki/shader_compiler/ShaderProgramParser.h:294 | lines still to read that hold two `#pragma once` lines are not read without failure, whatever came before |
| Includes.FileTwoPragmaOnceFails | src/anki/shader_compiler/ShaderProgramParser.h:294 | a file that is read (not skipped under an earlier `#pragma once`) and holds two `#pragma once` lines does not parse |
| Includes.IncludeLineReads | src/anki/shader_compiler/ShaderProgramParser.h:181 | `#include "n"` is one line whose target is `n` |
| Includes.IncludeChainDepth | src/anki/shader_compiler/ShaderProgramParser.h:265 | in a chain of files each including the next, reading file k at depth d succeeds exactly when the chain's end is at most at depth 8, and otherwise fails with `IncludeTooDeep` on the file at depth 8 |
| Includes.IncludeDepthLimit | src/anki/shader_compiler/ShaderProgramParser.h:265 | a main file starting an include chain parses when the chain is at most 8 includes deep and fails with `IncludeTooDeep` when it is deeper |
| Parser.ShaderProgramParser.RewriteMutation | src/anki/shader_compiler/ShaderProgramParser.h:208-210 | the array and flag afterwards are the first matching rule applied to the old contents, or the contents unchanged and false; the parsed model is untouched |
| Parser.ShaderProgramParser.CheckMutation | src/anki/shader_compiler/ShaderProgramParser.h:213-214 | the mutation is accepted exactly when it has one declared value per mutator |
| Parser.ShaderProgramParser.GenerateVariant | src/anki/shader_compiler/ShaderProgramParser.h:213-214 | an invalid mutation fails and leaves the variant alone; success iff analysis and push-constant budget succeed; every variant field then equals its specification |

## Left out

- ShaderProgramParser.cpp is not part of this model. The handler bodies follow the grammar in the header's doc comment and the documented behaviour of the parser. The exact text the parser emits is an abstraction: the stage guard lines, the input marker line, the struct member lines and the `#define` header.
- `ShaderProgramFilesystemInterface` is the immutable map `files`. Reading a file cannot fail in other ways.
- Shading-language compilation, the backend version and GPU vendor arguments, allocators, destructors and the getters `getMutators`, `getInputs`, `getShaderTypes` and `getDescritproSet` are not modelled. The getters are the class's fields.
- Concurrent use of `rewriteMutation` and `generateVariant` is not modelled. Both are proved to leave the parsed model unchanged.
- The tokenizer splits at blanks only. A quoted string containing blanks is not one token.
- The active-input analyzer understands only `==`, `>`, `<`, `&&` and `||`, plus `#ifdef`, `#ifndef`, `#else` and `#endif`. `#elif`, parentheses and `!` are unsupported conditionals. A `#define` whose value is not an integer is plain text to the analyzer. `#undef` is plain text to the analyzer too, so after `#undef M` an `#ifdef M` still takes its true branch. A name that no `#define` has given a value makes a live `#if` an unsupported conditional (`UnsupportedConditional`) instead of reading as 0, so an `#if` on a macro that only another stage defines fails the analysis of the whole variant. Directives and operators are recognised only as whole blank-separated tokens, and a macro counts only once a `#define` gives it a value. This has three consequences: (1) a directive written with a blank after `#` (`# if 0` … `# endif`) is plain text, so its guard is ignored and a marker inside it makes its input active; (2) an operator written without blanks around it (`#if A==1`, `#if A&&B`) is read as one operand named `A==1` or `A&&B`, which no `#define` gives a value, so a live guard of this shape fails the analysis with `UnsupportedConditional`; (3) `#define X` with no value is plain text, so a later `#ifdef X` takes its false branch and skips the markers in it, `#ifndef X` takes its true branch, and `#if X` fails as in (2).
- `ShaderVariableBlockInfo` is reduced to an offset and a size; the array size and strides are not modelled.
- The packing rule is a std140-like table: scalars 4, two-vectors 8, three- and four-vectors 16, matrices 16.
- The 16-bit width of stored bindings is not modelled. Bindings are integers below 128.
- Bindings are numbered per variant among its active textures and samplers.
- Applying `rewriteMutation` repeatedly up to a fixed point is not modelled as a loop. One call is modelled, and for the engine test's rules the rewritten vector is shown to be a fixed point.
- The size of the raw mutation space, the product of the value-list lengths, is not computed. Only the bound that rewriting never increases the number of distinct vectors is proved.
- Parser.ShaderProgramParser.ParsePragmaMutator: a mutator declared when the list already holds MAX_U32 - 1 mutators is rejected as a malformed pragma. This bound keeps the instanced-mutator index a 32-bit value with MAX_U32 as "none".
- Parser.ShaderProgramParser.Parse: the check that an instance-count mutator exists exactly when some input is instanced is made once after the last line, with the error `InstancedInputWithoutMutator`.
- The type spellings that `input` accepts (`I32`, `Vec4`, `Mat4`, `texture2D`, `sampler` and the rest in `common.dfy`) are an abstraction: the header only declares that a type name is read, and the table of names lives in code that is not part of this model.
- Parser.WithMember: every uniform-block input's member line goes into the struct buffer without a guard, so the struct text of each variant lists inactive members too, while `BlockLayout` places only the active ones. The per-variant struct text is produced in ShaderProgramParser.cpp, which is not part of this model; only the placement is modelled.
- Pragmas.RewriteDirective: also refuses a rule whose records equal those of a rule already declared, with `MalformedRewriteRule`. The header's `Record::operator!=` (lines 250-254) exists only to compare records of rules, and this comparison is the model's reading of its use.
- Headers.GuardedMarkerInactive: the guard follows the `#define` header directly. The stage macro line and the globals that the parser places between them in a stage source are not covered by this lemma.
- Headers.GuardedMarkerActive: the same placement as GuardedMarkerInactive, and the marker must be the first line of the guarded body. A marker deeper in the body is covered by Conditions.AnalyzeSourceExact, which needs the scan to reach it live.

=== FILE: common.dfy ===
/** Types shared by every part of the shader program parser model: integer widths,
    the error kinds, shader stages and shader variable data types. */
module Common {

  /** The largest 32-bit unsigned value; the parser uses it as "not set". */
  const MAX_U32: int := 0xFFFF_FFFF
  type U32 = x: int | 0 <= x <= MAX_U32

  /** Mutator values are signed 32-bit integers. */
  const MIN_MUTATOR_VALUE: int := -0x8000_0000
  const MAX_MUTATOR_VALUE: int := 0x7FFF_FFFF
  type MutatorValue = x: int | MIN_MUTATOR_VALUE <= x <= MAX_MUTATOR_VALUE

  /** Capacity of the variant's active-input bit set. */
  const MAX_SHADER_PROGRAM_INPUT_VARIABLES: nat := 128

  /** Includes nest at most this deep; the top-level file is at depth 0. */
  const MAX_INCLUDE_DEPTH: nat := 8

  datatype Option<T> = None | Some(value: T)

  /** Every way parsing or variant generation can fail. */
  datatype ErrorKind =
    | IncludeNotFound
    | IncludeTooDeep
    | DuplicatePragmaOnce
    | MalformedPragma
    | DuplicateMutatorName
    | InvalidMutatorValues
    | InstancedMutatorRedeclared
    | DuplicateInputName
    | ConflictingInputQualifiers
    | UnknownDataType
    | TooManyInputs
    | InstancedInputWithoutMutator
    | StageNestingError
    | DescriptorSetRedeclared
    | MalformedRewriteRule
    | InvalidMutation
    | UnsupportedConditional
    | PushConstantsOverflow

  datatype Result<T> = Ok(value: T) | Err(kind: ErrorKind) {
    predicate IsFailure() { Err? }
    function PropagateFailure<U>(): Result<U>
      requires Err?
    {
      Err(kind)
    }
    function Extract(): T
      requires Ok?
    {
      value
    }
  }

  /** Outcome of a parser step; a failure names the file and the 1-based line. */
  datatype Status = Success | Failed(kind: ErrorKind, file: string, line: nat)

  // ---------------------------------------------------------------------------
  // Shader stages

  datatype ShaderType =
    | Vertex
    | TessellationControl
    | TessellationEvaluation
    | Geometry
    | Fragment
    | Compute

  const SHADER_TYPE_COUNT: nat := 6

  /** Position of a stage in the per-stage arrays. */
  function ShaderTypeIndex(t: ShaderType): (i: nat)
    ensures i < SHADER_TYPE_COUNT
  {
    match t
    case Vertex => 0
    case TessellationControl => 1
    case TessellationEvaluation => 2
    case Geometry => 3
    case Fragment => 4
    case Compute => 5
  }

  /** The stage keyword of `#pragma anki start`. */
  function ShaderTypeName(t: ShaderType): string
  {
    match t
    case Vertex => "vert"
    case TessellationControl => "tessc"
    case TessellationEvaluation => "tesse"
    case Geometry => "geom"
    case Fragment => "frag"
    case Compute => "comp"
  }

  function ShaderTypeFromName(s: string): Option<ShaderType>
  {
    if s == "vert" then Some(Vertex)
    else if s == "tessc" then Some(TessellationControl)
    else if s == "tesse" then Some(TessellationEvaluation)
    else if s == "geom" then Some(Geometry)
    else if s == "frag" then Some(Fragment)
    else if s == "comp" then Some(Compute)
    else None
  }

  /** Stage keywords and stages correspond one to one. */
  lemma ShaderTypeNameRoundTrip(t: ShaderType, s: string)
    ensures ShaderTypeFromName(ShaderTypeName(t)) == Some(t)
    ensures ShaderTypeFromName(s) == Some(t) ==> ShaderTypeName(t) == s
  {
  }

  /** The macro that selects a stage's code in the assembled source. */
  function StageMacro(t: ShaderType): string
  {
    match t
    case Vertex => "ANKI_VERTEX_SHADER"
    case TessellationControl => "ANKI_TESSELLATION_CONTROL_SHADER"
    case TessellationEvaluation => "ANKI_TESSELLATION_EVALUATION_SHADER"
    case Geometry => "ANKI_GEOMETRY_SHADER"
    case Fragment => "ANKI_FRAGMENT_SHADER"
    case Compute => "ANKI_COMPUTE_SHADER"
  }

  // ---------------------------------------------------------------------------
  // Shader variable data types

  datatype ShaderVariableDataType =
    | NONE
    | INT | IVEC2 | IVEC3 | IVEC4
    | UINT | UVEC2 | UVEC3 | UVEC4
    | FLOAT | VEC2 | VEC3 | VEC4
    | MAT3 | MAT4
    | TEXTURE_1D | TEXTURE_1D_ARRAY | TEXTURE_2D | TEXTURE_2D_ARRAY
    | TEXTURE_3D | TEXTURE_CUBE | TEXTURE_CUBE_ARRAY
    | SAMPLER
  {
    /** Position in the enumeration; the texture kinds form one contiguous range. */
    function Ordinal(): nat
    {
      match this
      case NONE => 0
      case INT => 1
      case IVEC2 => 2
      case IVEC3 => 3
      case IVEC4 => 4
      case UINT => 5
      case UVEC2 => 6
      case UVEC3 => 7
      case UVEC4 => 8
      case FLOAT => 9
      case VEC2 => 10
      case VEC3 => 11
      case VEC4 => 12
      case MAT3 => 13
      case MAT4 => 14
      case TEXTURE_1D => 15
      case TEXTURE_1D_ARRAY => 16
      case TEXTURE_2D => 17
      case TEXTURE_2D_ARRAY => 18
      case TEXTURE_3D => 19
      case TEXTURE_CUBE => 20
      case TEXTURE_CUBE_ARRAY => 21
      case SAMPLER => 22
    }
  }

  const TEXTURE_FIRST: ShaderVariableDataType := TEXTURE_1D
  const TEXTURE_LAST: ShaderVariableDataType := TEXTURE_CUBE_ARRAY

  /** The spelling of a type in `#pragma anki input`. */
  function DataTypeName(t: ShaderVariableDataType): string
  {
    match t
    case NONE => ""
    case INT => "I32"
    case IVEC2 => "IVec2"
    case IVEC3 => "IVec3"
    case IVEC4 => "IVec4"
    case UINT => "U32"
    case UVEC2 => "UVec2"
    case UVEC3 => "UVec3"
    case UVEC4 => "UVec4"
    case FLOAT => "F32"
    case VEC2 => "Vec2"
    case VEC3 => "Vec3"
    case VEC4 => "Vec4"
    case MAT3 => "Mat3"
    case MAT4 => "Mat4"
    case TEXTURE_1D => "texture1D"
    case TEXTURE_1D_ARRAY => "texture1DArray"
    case TEXTURE_2D => "texture2D"
    case TEXTURE_2D_ARRAY => "texture2DArray"
    case TEXTURE_3D => "texture3D"
    case TEXTURE_CUBE => "textureCube"
    case TEXTURE_CUBE_ARRAY => "textureCubeArray"
    case SAMPLER => "sampler"
  }

  /** Signed and unsigned integer scalars and vectors. */
  function IntegerTypeFromName(s: string): (r: Option<ShaderVariableDataType>)
    ensures r.Some? ==> DataTypeName(r.value) == s
  {
    if s == "I32" then Some(INT)
    else if s == "IVec2" then Some(IVEC2)
    else if s == "IVec3" then Some(IVEC3)
    else if s == "IVec4" then Some(IVEC4)
    else if s == "U32" then Some(UINT)
    else if s == "UVec2" then Some(UVEC2)
    else if s == "UVec3" then Some(UVEC3)
    else if s == "UVec4" then Some(UVEC4)
    else None
  }

  /** Float scalars, vectors and matrices. */
  function FloatTypeFromName(s: string): (r: Option<ShaderVariableDataType>)
    ensures r.Some? ==> DataTypeName(r.value) == s
  {
    if s == "F32" then Some(FLOAT)
    else if s == "Vec2" then Some(VEC2)
    else if s == "Vec3" then Some(VEC3)
    else if s == "Vec4" then Some(VEC4)
    else if s == "Mat3" then Some(MAT3)
    else if s == "Mat4" then Some(MAT4)
    else None
  }

  /** Textures and the sampler. */
  function OpaqueTypeFromName(s: string): (r: Option<ShaderVariableDataType>)
    ensures r.Some? ==> DataTypeName(r.value) == s
  {
    if s == "texture1D" then Some(TEXTURE_1D)
    else if s == "texture1DArray" then Some(TEXTURE_1D_ARRAY)
    else if s == "texture2D" then Some(TEXTURE_2D)
    else if s == "texture2DArray" then Some(TEXTURE_2D_ARRAY)
    else if s == "texture3D" then Some(TEXTURE_3D)
    else if s == "textureCube" then Some(TEXTURE_CUBE)
    else if s == "textureCubeArray" then Some(TEXTURE_CUBE_ARRAY)
    else if s == "sampler" then Some(SAMPLER)
    else None
  }

  /** The type a spelling in `#pragma anki input` names, if any. */
  function DataTypeFromName(s: string): (r: Option<ShaderVariableDataType>)
    ensures r.Some? ==> r.value != NONE && DataTypeName(r.value) == s
  {
    if |s| == 0 then None
    else if s[0] == 'I' || s[0] == 'U' then IntegerTypeFromName(s)
    else if s[0] == 'F' || s[0] == 'V' || s[0] == 'M' then FloatTypeFromName(s)
    else OpaqueTypeFromName(s)
  }

  /** Every declarable type is recognised by its own spelling. */
  lemma DataTypeNameRecognised(t: ShaderVariableDataType)
    requires t != NONE
    ensures DataTypeFromName(DataTypeName(t)) == Some(t)
  {
    if t == INT || t == IVEC2 || t == IVEC3 || t == IVEC4 || t == UINT || t == UVEC2 || t == UVEC3 || t == UVEC4 {
      IntegerNameRecognised(t);
    } else if t == FLOAT || t == VEC2 || t == VEC3 || t == VEC4 || t == MAT3 || t == MAT4 {
      FloatNameRecognised(t);
    } else {
      OpaqueNameRecognised(t);
    }
  }

  lemma IntegerNameRecognised(t: ShaderVariableDataType)
    requires t == INT || t == IVEC2 || t == IVEC3 || t == IVEC4 || t == UINT || t == UVEC2 || t == UVEC3 || t == UVEC4
    ensures DataTypeFromName(DataTypeName(t)) == Some(t)
  {
    match t
    case INT =>
    case IVEC2 =>
    case IVEC3 =>
    case IVEC4 =>
    case UINT =>
    case UVEC2 =>
    case UVEC3 =>
    case UVEC4 =>
  }

  lemma FloatNameRecognised(t: ShaderVariableDataType)
    requires t == FLOAT || t == VEC2 || t == VEC3 || t == VEC4 || t == MAT3 || t == MAT4
    ensures DataTypeFromName(DataTypeName(t)) == Some(t)
  {
    match t
    case FLOAT =>
    case VEC2 =>
    case VEC3 =>
    case VEC4 =>
    case MAT3 =>
    case MAT4 =>
  }

  lemma OpaqueNameRecognised(t: ShaderVariableDataType)
    requires t.TEXTURE_1D? || t.TEXTURE_1D_ARRAY? || t.TEXTURE_2D? || t.TEXTURE_2D_ARRAY? || t.TEXTURE_3D?
      || t.TEXTURE_CUBE? || t.TEXTURE_CUBE_ARRAY? || t.SAMPLER?
    ensures DataTypeFromName(DataTypeName(t)) == Some(t)
  {
    match t
    case TEXTURE_1D =>
    case TEXTURE_1D_ARRAY =>
    case TEXTURE_2D =>
    case TEXTURE_2D_ARRAY =>
    case TEXTURE_3D =>
    case TEXTURE_CUBE =>
    case TEXTURE_CUBE_ARRAY =>
    case SAMPLER =>
  }
}

=== FILE: conditions.dfy ===
/** The active-input analyzer: a small conditional-compilation evaluator that finds which
    input declarations survive the `#if` guards of an assembled source under the
    `#define` values of one mutation. Only `==`, `>`, `<`, `&&` and `||` over integer
    names and literals are understood, with `#ifdef`, `#ifndef`, `#else` and `#endif`. */
module Conditions {
  import opened Common
  import opened Text
  import opened ParserModel

  /** The line the parser leaves where an input is declared; the analyzer looks for it. */
  const INPUT_MARKER: string := "_anki_input_present"

  // ---------------------------------------------------------------------------
  // Guard expressions

  datatype Operand = Name(name: string) | Literal(value: int)
  datatype CmpOp = Eq | Gt | Lt
  datatype Atom = Compare(lhs: Operand, op: CmpOp, rhs: Operand) | Truth(operand: Operand)

  /** A guard in disjunctive form: `||` of `&&`-chains of atoms. */
  type Cond = seq<seq<Atom>>

  /** Splits `ts` at every occurrence of `sep`. */
  function SplitOn(ts: seq<string>, sep: string): (r: seq<seq<string>>)
    ensures |r| > 0
    decreases |ts|
  {
    if ts == [] then [[]]
    else
      var tail := SplitOn(ts[1..], sep);
      if ts[0] == sep then [[]] + tail
      else [[ts[0]] + tail[0]] + tail[1..]
  }

  /** Joins parts with `sep` between neighbours. */
  function JoinOn(parts: seq<seq<string>>, sep: string): seq<string>
  {
    if parts == [] then []
    else if |parts| == 1 then parts[0]
    else parts[0] + [sep] + JoinOn(parts[1..], sep)
  }

  /** Splitting loses nothing: the parts joined again give the tokens back, and no part
      holds the separator. */
  lemma {:induction false} SplitOnRoundTrip(ts: seq<string>, sep: string)
    ensures JoinOn(SplitOn(ts, sep), sep) == ts
    ensures forall k :: 0 <= k < |SplitOn(ts, sep)| ==> sep !in SplitOn(ts, sep)[k]
    decreases |ts|
  {
    if ts != [] {
      var tail := SplitOn(ts[1..], sep);
      SplitOnRoundTrip(ts[1..], sep);
      var parts := SplitOn(ts, sep);
      if ts[0] == sep {
        assert parts == [[]] + tail;
        assert parts[1..] == tail;
        assert JoinOn(parts, sep) == [] + [sep] + JoinOn(tail, sep);
        assert ts == [sep] + ts[1..];
        forall k | 0 <= k < |parts|
          ensures sep !in parts[k]
        {
          if k > 0 {
            assert parts[k] == tail[k - 1];
          }
        }
      } else {
        assert parts == [[ts[0]] + tail[0]] + tail[1..];
        if |tail| == 1 {
          assert JoinOn(tail, sep) == tail[0];
          assert JoinOn(parts, sep) == [ts[0]] + tail[0];
        } else {
          assert parts[1..] == tail[1..];
          assert JoinOn(tail, sep) == tail[0] + [sep] + JoinOn(tail[1..], sep);
          assert JoinOn(parts, sep) == ([ts[0]] + tail[0]) + [sep] + JoinOn(tail[1..], sep);
        }
        assert ts == [ts[0]] + ts[1..];
        forall k | 0 <= k < |parts|
          ensures sep !in parts[k]
        {
          if k == 0 {
            assert sep !in tail[0];
          } else {
            assert parts[k] == tail[k];
          }
        }
      }
    }
  }

  function OperandOf(t: string): Operand
  {
    match ParseInt(t)
    case Some(v) => Literal(v)
    case None => Name(t)
  }

  function CmpOpOf(t: string): Option<CmpOp>
  {
    if t == "==" then Some(Eq) else if t == ">" then Some(Gt) else if t == "<" then Some(Lt) else None
  }

  /** One comparison `A op B`, or a single operand that holds when non-zero. */
  function ParseAtom(ts: seq<string>): (r: Option<Atom>)
    ensures r.Some? ==>
      || (|ts| == 1 && r.value == Truth(OperandOf(ts[0])))
      || (|ts| == 3 && CmpOpOf(ts[1]).Some? && r.value == Compare(OperandOf(ts[0]), CmpOpOf(ts[1]).value, OperandOf(ts[2])))
    ensures r.None? <==> !(|ts| == 1 || (|ts| == 3 && CmpOpOf(ts[1]).Some?))
  {
    if |ts| == 1 then Some(Truth(OperandOf(ts[0])))
    else if |ts| == 3 && CmpOpOf(ts[1]).Some? then Some(Compare(OperandOf(ts[0]), CmpOpOf(ts[1]).value, OperandOf(ts[2])))
    else None
  }

  /** How an operand is written in a guard. */
  function OperandToken(o: Operand): string
  {
    match o
    case Literal(v) => FormatInt(v)
    case Name(n) => n
  }

  function CmpOpToken(op: CmpOp): string
  {
    match op
    case Eq => "=="
    case Gt => ">"
    case Lt => "<"
  }

  /** The tokens of an atom as written in a guard. */
  function AtomTokens(a: Atom): seq<string>
  {
    match a
    case Truth(o) => [OperandToken(o)]
    case Compare(l, op, r) => [OperandToken(l), CmpOpToken(op), OperandToken(r)]
  }

  /** A macro name is an operand that does not read as a number. */
  predicate NamedAsName(o: Operand)
  {
    o.Name? ==> ParseInt(o.name).None?
  }

  lemma OperandRoundTrip(o: Operand)
    requires NamedAsName(o)
    ensures OperandOf(OperandToken(o)) == o
  {
    if o.Literal? {
      ParseFormatRoundTrip(o.value);
    }
  }

  /** Every atom of the supported subset, written out, reads back as itself. */
  lemma ParseAtomRoundTrip(a: Atom)
    requires a.Truth? ==> NamedAsName(a.operand)
    requires a.Compare? ==> NamedAsName(a.lhs) && NamedAsName(a.rhs)
    ensures ParseAtom(AtomTokens(a)) == Some(a)
  {
    match a
    case Truth(o) =>
      OperandRoundTrip(o);
    case Compare(l, op, r) =>
      OperandRoundTrip(l);
      OperandRoundTrip(r);
      assert CmpOpOf(CmpOpToken(op)) == Some(op);
  }

  function ParseConjunction(chunks: seq<seq<string>>): (r: Option<seq<Atom>>)
    ensures r.Some? <==> forall k :: 0 <= k < |chunks| ==> ParseAtom(chunks[k]).Some?
    ensures r.Some? ==> |r.value| == |chunks| && forall k :: 0 <= k < |chunks| ==> ParseAtom(chunks[k]) == Some(r.value[k])
  {
    if chunks == [] then Some([])
    else match (ParseAtom(chunks[0]), ParseConjunction(chunks[1..]))
      case (Some(a), Some(rest)) => Some([a] + rest)
      case _ => None
  }

  function ParseDisjunction(chunks: seq<seq<string>>): (r: Option<Cond>)
    ensures r.Some? <==> forall k :: 0 <= k < |chunks| ==> ParseConjunction(SplitOn(chunks[k], "&&")).Some?
    ensures r.Some? ==>
      && |r.value| == |chunks|
      && forall k :: 0 <= k < |chunks| ==> ParseConjunction(SplitOn(chunks[k], "&&")) == Some(r.value[k])
  {
    if chunks == [] then Some([])
    else match (ParseConjunction(SplitOn(chunks[0], "&&")), ParseDisjunction(chunks[1..]))
      case (Some(c), Some(rest)) => Some([c] + rest)
      case _ => None
  }

  /** The guard of an `#if` line, or None when it leaves the supported subset. */
  function ParseCond(ts: seq<string>): Option<Cond>
  {
    ParseDisjunction(SplitOn(ts, "||"))
  }

  function OperandValue(o: Operand, env: map<string, int>): Option<int>
  {
    match o
    case Literal(v) => Some(v)
    case Name(n) => if n in env then Some(env[n]) else None
  }

  function EvalAtom(a: Atom, env: map<string, int>): Option<bool>
  {
    match a
    case Truth(o) =>
      (match OperandValue(o, env)
       case None => None
       case Some(v) => Some(v != 0))
    case Compare(l, op, r) =>
      (match (OperandValue(l, env), OperandValue(r, env))
       case (Some(x), Some(y)) =>
         Some(match op case Eq => x == y case Gt => x > y case Lt => x < y)
       case _ => None)
  }

  /** An `&&`-chain: every atom must evaluate; true when all are true. */
  function EvalConjunction(c: seq<Atom>, env: map<string, int>): (r: Option<bool>)
    ensures r.Some? <==> forall k :: 0 <= k < |c| ==> EvalAtom(c[k], env).Some?
    ensures r == Some(true) <==> forall k :: 0 <= k < |c| ==> EvalAtom(c[k], env) == Some(true)
  {
    if c == [] then Some(true)
    else match (EvalAtom(c[0], env), EvalConjunction(c[1..], env))
      case (Some(x), Some(y)) =>
        assert forall k :: 1 <= k < |c| ==> c[k] == c[1..][k - 1];
        Some(x && y)
      case _ => None
  }

  /** A `||`-chain: every chain must evaluate; true when some chain is true. */
  function EvalCond(d: Cond, env: map<string, int>): (r: Option<bool>)
    ensures r.Some? <==> forall k :: 0 <= k < |d| ==> EvalConjunction(d[k], env).Some?
    ensures r.Some? ==> (r.value <==> exists k :: 0 <= k < |d| && EvalConjunction(d[k], env) == Some(true))
  {
    if d == [] then Some(false)
    else match (EvalConjunction(d[0], env), EvalCond(d[1..], env))
      case (Some(x), Some(y)) =>
        assert forall k :: 1 <= k < |d| ==> d[k] == d[1..][k - 1];
        if x then
          Some(true)
        else
          assert forall k :: 1 <= k < |d| ==> d[k] == d[1..][k - 1];
          Some(y)
      case _ => None
  }

  // ---------------------------------------------------------------------------
  // Lines as directives

  datatype Directive =
    | If(cond: Option<Cond>)
    | IfDef(name: string)
    | IfNDef(name: string)
    | Else
    | EndIf
    | Define(name: string, value: int)
    | Marker(name: string)
    | Unsupported
    | Text

  /** What a line means to the analyzer, read from its tokens before any comment. */
  function ClassifyTokens(ts: seq<string>): Directive
  {
    if ts == [] then Text
    else if ts[0] == "#if" then If(ParseCond(ts[1..]))
    else if ts[0] == "#ifdef" then (if |ts| == 2 then IfDef(ts[1]) else Unsupported)
    else if ts[0] == "#ifndef" then (if |ts| == 2 then IfNDef(ts[1]) else Unsupported)
    else if ts[0] == "#else" then (if |ts| == 1 then Else else Unsupported)
    else if ts[0] == "#endif" then (if |ts| == 1 then EndIf else Unsupported)
    else if ts[0] == "#elif" then Unsupported
    else if ts[0] == "#define" && |ts| == 3 && ParseInt(ts[2]).Some? then Define(ts[1], ParseInt(ts[2]).value)
    else if |ts| == 3 && ts[0] == "#pragma" && ts[1] == INPUT_MARKER then Marker(ts[2])
    else Text
  }

  function Classify(line: string): Directive
  {
    ClassifyTokens(StripComments(Tokens(line)))
  }

  /** The header line that gives a mutator its value in one variant. */
  function DefineLine(name: string, value: int): string
  {
    Join(["#define", name, FormatInt(value)], ' ')
  }

  /** The line that marks where an input is declared. */
  function MarkerLine(name: string): string
  {
    Join(["#pragma", INPUT_MARKER, name], ' ')
  }

  lemma FormatIntIsToken(v: int)
    ensures IsToken(FormatInt(v)) && !TokenIsComment(FormatInt(v))
  {
    var s := FormatInt(v);
    if v < 0 {
      assert s == "-" + FormatNat(-v);
      assert forall i :: 1 <= i < |s| ==> s[i] == FormatNat(-v)[i - 1];
    }
  }

  /** A define line the generator writes reads back as the same define. */
  lemma ClassifyDefineLine(name: string, value: int)
    requires IsToken(name) && !TokenIsComment(name)
    ensures Classify(DefineLine(name, value)) == Define(name, value)
  {
    var ts := ["#define", name, FormatInt(value)];
    FormatIntIsToken(value);
    TokensOfJoin(ts);
    assert StripComments(ts) == ts by {
      assert StripComments(ts[2..]) == ts[2..];
      assert StripComments(ts[1..]) == [ts[1]] + ts[2..];
    }
    ParseFormatRoundTrip(value);
  }

  /** A marker line the parser writes reads back as the marker of the same input. */
  lemma ClassifyMarkerLine(name: string)
    requires IsToken(name) && !TokenIsComment(name)
    ensures Classify(MarkerLine(name)) == Marker(name)
  {
    var ts := ["#pragma", INPUT_MARKER, name];
    TokensOfJoin(ts);
    assert StripComments(ts) == ts by {
      assert StripComments(ts[2..]) == ts[2..];
      assert StripComments(ts[1..]) == [ts[1]] + ts[2..];
    }
  }

  // ---------------------------------------------------------------------------
  // The scan

  /** One open conditional: whether its enclosing region is live, whether its current
      branch is live, and whether `#else` was seen. */
  datatype Frame = Frame(parentLive: bool, live: bool, seenElse: bool)

  datatype ScanState = ScanState(env: map<string, int>, frames: seq<Frame>, active: set<string>)

  predicate Live(st: ScanState)
  {
    st.frames == [] || st.frames[|st.frames| - 1].live
  }

  function Push(st: ScanState, live: bool): ScanState
  {
    st.(frames := st.frames + [Frame(Live(st), Live(st) && live, false)])
  }

  /** The effect of one directive. */
  function Step(d: Directive, st: ScanState): (r: Result<ScanState>)
    ensures r.Err? ==> r.kind == UnsupportedConditional
    ensures r.Ok? && !Live(st) ==> r.value.active == st.active && r.value.env == st.env
  {
    match d
    case If(c) =>
      if !Live(st) then Ok(Push(st, false))
      else if c.None? then Err(UnsupportedConditional)
      else
        (match EvalCond(c.value, st.env)
         case None => Err(UnsupportedConditional)
         case Some(b) => Ok(Push(st, b)))
    case IfDef(n) => Ok(Push(st, n in st.env))
    case IfNDef(n) => Ok(Push(st, n !in st.env))
    case Else =>
      if st.frames == [] || st.frames[|st.frames| - 1].seenElse then Err(UnsupportedConditional)
      else
        var top := st.frames[|st.frames| - 1];
        Ok(st.(frames := st.frames[..|st.frames| - 1] + [Frame(top.parentLive, top.parentLive && !top.live, true)]))
    case EndIf =>
      if st.frames == [] then Err(UnsupportedConditional)
      else Ok(st.(frames := st.frames[..|st.frames| - 1]))
    case Define(n, v) => if Live(st) then Ok(st.(env := st.env[n := v])) else Ok(st)
    case Marker(n) => if Live(st) then Ok(st.(active := st.active + {n})) else Ok(st)
    case Unsupported => Err(UnsupportedConditional)
    case Text => Ok(st)
  }

  /** The names whose markers are reached, or an error for an unsupported or unbalanced
      conditional. */
  function Run(ds: seq<Directive>, st: ScanState): Result<set<string>>
  {
    if ds == [] then
      (if st.frames == [] then Ok(st.active) else Err(UnsupportedConditional))
    else match Step(ds[0], st)
      case Err(e) => Err(e)
      case Ok(st') => Run(ds[1..], st')
  }

  const InitialScan: ScanState := ScanState(map[], [], {})

  function ClassifyAll(lines: seq<string>): (r: seq<Directive>)
    ensures |r| == |lines| && forall k :: 0 <= k < |lines| ==> r[k] == Classify(lines[k])
  {
    seq(|lines|, k requires 0 <= k < |lines| => Classify(lines[k]))
  }

  lemma ClassifyAllAppend(a: seq<string>, b: seq<string>)
    ensures ClassifyAll(a + b) == ClassifyAll(a) + ClassifyAll(b)
  {
    var l := ClassifyAll(a + b);
    var r := ClassifyAll(a) + ClassifyAll(b);
    assert |l| == |r|;
    forall k | 0 <= k < |l|
      ensures l[k] == r[k]
    {
      if k < |a| {
        assert (a + b)[k] == a[k];
      } else {
        assert (a + b)[k] == b[k - |a|];
      }
    }
  }

  /** Bit `i` is set when input `i`'s marker was reached. */
  function ActiveMask(active: set<string>, ins: seq<Input>): (r: seq<bool>)
    ensures |r| == MAX_SHADER_PROGRAM_INPUT_VARIABLES
    ensures forall i :: 0 <= i < |r| ==> (r[i] <==> i < |ins| && ins[i].name in active)
  {
    seq(MAX_SHADER_PROGRAM_INPUT_VARIABLES, i requires 0 <= i < MAX_SHADER_PROGRAM_INPUT_VARIABLES =>
      i < |ins| && ins[i].name in active)
  }

  /** The active-input mask of one assembled source. */
  function AnalyzeSource(source: string, ins: seq<Input>): (r: Result<seq<bool>>)
    ensures r.Ok? ==> |r.value| == MAX_SHADER_PROGRAM_INPUT_VARIABLES
  {
    match Run(ClassifyAll(SplitLines(source)), InitialScan)
    case Err(e) => Err(e)
    case Ok(active) => Ok(ActiveMask(active, ins))
  }

  /** `findActiveInputVars`: scans the source line by line. */
  method FindActiveInputVars(source: string, ins: seq<Input>) returns (r: Result<seq<bool>>)
    ensures r == AnalyzeSource(source, ins)
  {
    var lines := SplitLines(source);
    ghost var ds := ClassifyAll(lines);
    var st := InitialScan;
    var i := 0;
    while i < |lines|
      invariant 0 <= i <= |lines|
      invariant Run(ds[i..], st) == Run(ds, InitialScan)
    {
      var tokens := TokenizeLine(lines[i]);
      var d := ClassifyTokens(StripComments(tokens));
      assert ds[i..][0] == d && ds[i..][1..] == ds[i + 1..];
      var next := Step(d, st);
      if next.Err? {
        return Err(next.kind);
      }
      st := next.value;
      i := i + 1;
    }
    if st.frames != [] {
      return Err(UnsupportedConditional);
    }
    return Ok(ActiveMask(st.active, ins));
  }

  // ---------------------------------------------------------------------------
  // Properties of the scan

  /** A name becomes active only through a marker directive for it. */
  lemma {:induction false} ActiveOnlyFromMarkers(ds: seq<Directive>, st: ScanState, n: string)
    requires Run(ds, st).Ok? && n in Run(ds, st).value
    ensures n in st.active || Marker(n) in ds
  {
    if ds != [] {
      var st' := Step(ds[0], st).value;
      ActiveOnlyFromMarkers(ds[1..], st', n);
      if n in st'.active && n !in st.active {
        assert ds[0] == Marker(n);
      }
      if Marker(n) in ds[1..] {
        assert Marker(n) in ds;
      }
    }
  }

  /** A declared input whose name the scan of a source makes active has its bit set. */
  lemma ReachedNameActive(source: string, ins: seq<Input>, i: nat)
    requires i < |ins| <= MAX_SHADER_PROGRAM_INPUT_VARIABLES
    requires var r := Run(ClassifyAll(SplitLines(source)), InitialScan); r.Ok? ==> ins[i].name in r.value
    ensures AnalyzeSource(source, ins).Ok? ==> i < |AnalyzeSource(source, ins).value| && AnalyzeSource(source, ins).value[i]
  {
    var r := Run(ClassifyAll(SplitLines(source)), InitialScan);
    if r.Ok? {
      var mask := ActiveMask(r.value, ins);
      assert mask[i];
      assert AnalyzeSource(source, ins) == Ok(mask);
    }
  }

  /** Reached names stay reached: the scan only adds to the active names. */
  lemma {:induction false} ActiveGrows(ds: seq<Directive>, st: ScanState)
    ensures Run(ds, st).Ok? ==> st.active <= Run(ds, st).value
  {
    if ds != [] && Step(ds[0], st).Ok? {
      ActiveGrows(ds[1..], Step(ds[0], st).value);
    }
  }

  /** A marker met in a live region makes its name active, whatever follows it. */
  lemma LiveMarkerActive(n: string, ds: seq<Directive>, st: ScanState)
    requires Live(st)
    ensures Run([Marker(n)] + ds, st).Ok? ==> n in Run([Marker(n)] + ds, st).value
  {
    RunCons(Marker(n), ds, st);
    ActiveGrows(ds, st.(active := st.active + {n}));
  }

  /** The scan state after the directives `ds`, or the first error. */
  function Scan(ds: seq<Directive>, st: ScanState): Result<ScanState>
  {
    if ds == [] then Ok(st)
    else match Step(ds[0], st)
      case Err(e) => Err(e)
      case Ok(st') => Scan(ds[1..], st')
  }

  /** Directive `k` of `ds` is the marker of `n`, and the scan reaches it in a live
      region. */
  predicate ReachedAt(ds: seq<Directive>, st: ScanState, n: string, k: nat)
  {
    k < |ds| && ds[k] == Marker(n) && Scan(ds[..k], st).Ok? && Live(Scan(ds[..k], st).value)
  }

  /** The marker at `k + 1` is reached from `st` exactly when it is reached from the state
      after the first directive at `k`. */
  lemma ReachedAtShift(ds: seq<Directive>, st: ScanState, st': ScanState, n: string, k: nat)
    requires ds != [] && Step(ds[0], st) == Ok(st')
    ensures ReachedAt(ds, st, n, k + 1) <==> ReachedAt(ds[1..], st', n, k)
  {
    if k + 1 < |ds| {
      assert ds[..k + 1][1..] == ds[1..][..k];
    }
  }

  /** Only a marker changes the active names, and only in a live region. */
  lemma StepActive(d: Directive, st: ScanState, n: string)
    requires Step(d, st).Ok?
    ensures n in Step(d, st).value.active <==> n in st.active || (d == Marker(n) && Live(st))
  {
  }

  /** The names a successful scan makes active are those active before and those whose
      marker it reaches in a live region. */
  lemma {:induction false} ActiveIffReached(ds: seq<Directive>, st: ScanState, n: string)
    requires Run(ds, st).Ok?
    ensures n in Run(ds, st).value <==>
      n in st.active || exists k: nat :: ReachedAt(ds, st, n, k)
  {
    if ds == [] {
      assert forall k: nat :: !ReachedAt(ds, st, n, k);
    } else {
      var st' := Step(ds[0], st).value;
      ActiveIffReached(ds[1..], st', n);
      StepActive(ds[0], st, n);
      if exists k: nat :: ReachedAt(ds[1..], st', n, k) {
        var k: nat :| ReachedAt(ds[1..], st', n, k);
        ReachedAtShift(ds, st, st', n, k);
      }
      if exists k: nat :: ReachedAt(ds, st, n, k) {
        var k: nat :| ReachedAt(ds, st, n, k);
        if k > 0 {
          ReachedAtShift(ds, st, st', n, k - 1);
        } else {
          assert ds[..0] == [];
        }
      }
      if ds[0] == Marker(n) && Live(st) {
        assert ds[..0] == [];
        assert ReachedAt(ds, st, n, 0);
      }
    }
  }

  /** The meaning of the mask: bit `i` of a source's analysis is set exactly when input
      `i` is declared and the scan reaches its marker in a live region. */
  lemma AnalyzeSourceExact(source: string, ins: seq<Input>, i: nat)
    requires AnalyzeSource(source, ins).Ok? && i < MAX_SHADER_PROGRAM_INPUT_VARIABLES
    ensures AnalyzeSource(source, ins).value[i] <==>
      i < |ins| && exists k: nat :: ReachedAt(ClassifyAll(SplitLines(source)), InitialScan, ins[i].name, k)
  {
    if i < |ins| {
      ActiveIffReached(ClassifyAll(SplitLines(source)), InitialScan, ins[i].name);
    }
  }

  /** An input is active in the analysis of a source only when it is declared and the
      source holds its marker. */
  lemma AnalyzeSourceSound(source: string, ins: seq<Input>, i: nat)
    requires AnalyzeSource(source, ins).Ok? && i < MAX_SHADER_PROGRAM_INPUT_VARIABLES
    requires AnalyzeSource(source, ins).value[i]
    ensures i < |ins| && Marker(ins[i].name) in ClassifyAll(SplitLines(source))
  {
    var ds := ClassifyAll(SplitLines(source));
    ActiveOnlyFromMarkers(ds, InitialScan, ins[i].name);
  }

  lemma RunCons(d: Directive, ds: seq<Directive>, st: ScanState)
    ensures Step(d, st).Err? ==> Run([d] + ds, st) == Err(Step(d, st).kind)
    ensures Step(d, st).Ok? ==> Run([d] + ds, st) == Run(ds, Step(d, st).value)
  {
    assert ([d] + ds)[1..] == ds;
  }

  /** `#endif` closes the innermost frame. */
  lemma EndIfPops(rest: seq<Directive>, st: ScanState, f: Frame)
    ensures Run([EndIf] + rest, st.(frames := st.frames + [f])) == Run(rest, st)
  {
    RunCons(EndIf, rest, st.(frames := st.frames + [f]));
    assert (st.frames + [f])[..|st.frames|] == st.frames;
  }

  /** Directives that open and close their own conditionals properly, never closing one
      they did not open: `open` holds, per conditional still open, whether its `#else`
      was seen. */
  predicate Nested(ds: seq<Directive>, open: seq<bool>)
    decreases |ds|
  {
    if ds == [] then open == []
    else match ds[0]
      case If(_) => Nested(ds[1..], open + [false])
      case IfDef(_) => Nested(ds[1..], open + [false])
      case IfNDef(_) => Nested(ds[1..], open + [false])
      case Else => open != [] && !open[|open| - 1] && Nested(ds[1..], open[..|open| - 1] + [true])
      case EndIf => open != [] && Nested(ds[1..], open[..|open| - 1])
      case Unsupported => false
      case _ => Nested(ds[1..], open)
  }

  /** A well-nested region: every conditional it opens, it closes, with at most one
      `#else` each, and it has no unsupported directive. */
  predicate Balanced(body: seq<Directive>)
  {
    Nested(body, [])
  }

  /** The conditionals still open after `d`, when `d` keeps the nesting. */
  function NextOpen(d: Directive, open: seq<bool>): seq<bool>
  {
    match d
    case If(_) => open + [false]
    case IfDef(_) => open + [false]
    case IfNDef(_) => open + [false]
    case Else => if open == [] then [] else open[..|open| - 1] + [true]
    case EndIf => if open == [] then [] else open[..|open| - 1]
    case _ => open
  }

  lemma NestedStep(ds: seq<Directive>, open: seq<bool>)
    requires ds != [] && Nested(ds, open)
    ensures Nested(ds[1..], NextOpen(ds[0], open))
    ensures !ds[0].Unsupported?
    ensures ds[0].Else? ==> open != [] && !open[|open| - 1]
    ensures ds[0].EndIf? ==> open != []
  {
  }

  /** Frames `p` on of `st` are dead and record the open conditionals `open`, above a
      dead frame at `p - 1`. */
  predicate DeadAbove(st: ScanState, p: nat, open: seq<bool>)
  {
    && 0 < p && p + |open| == |st.frames| && !st.frames[p - 1].live
    && forall j :: 0 <= j < |open| ==> st.frames[p + j] == Frame(false, false, open[j])
  }

  /** One directive of a nested region, in a dead branch, keeps the branch dead and the
      frames below it. */
  lemma DeadStep(d: Directive, open: seq<bool>, st: ScanState, p: nat)
    requires DeadAbove(st, p, open) && !d.Unsupported?
    requires d.Else? ==> open != [] && !open[|open| - 1]
    requires d.EndIf? ==> open != []
    ensures Step(d, st).Ok?
    ensures DeadAbove(Step(d, st).value, p, NextOpen(d, open))
    ensures Step(d, st).value.frames[..p] == st.frames[..p]
    ensures Step(d, st).value.(frames := st.frames) == st
  {
    var n := |st.frames|;
    assert !Live(st) by {
      assert st.frames != [];
      if |open| > 0 {
        assert st.frames[n - 1] == st.frames[p + (|open| - 1)] == Frame(false, false, open[|open| - 1]);
      } else {
        assert st.frames[n - 1] == st.frames[p - 1];
      }
      assert !st.frames[n - 1].live;
    }
    var st' := Step(d, st).value;
    if d.Else? {
      assert st.frames[n - 1] == st.frames[p + (|open| - 1)];
      assert st'.frames == st.frames[..n - 1] + [Frame(false, false, true)];
    }
  }

  /** Running a balanced region in a dead branch changes nothing: the state's own frames
      above position `p` are the region's open conditionals, all dead. */
  lemma {:induction false} RunDeadBody(ds: seq<Directive>, open: seq<bool>, st: ScanState, p: nat,
                                       rest: seq<Directive>)
    requires Nested(ds, open) && DeadAbove(st, p, open)
    ensures Run(ds + rest, st) == Run(rest, st.(frames := st.frames[..p]))
    decreases |ds|
  {
    if ds == [] {
      assert ds + rest == rest && st.frames[..p] == st.frames;
    } else {
      assert ds + rest == [ds[0]] + (ds[1..] + rest);
      RunCons(ds[0], ds[1..] + rest, st);
      NestedStep(ds, open);
      DeadStep(ds[0], open, st, p);
      var st' := Step(ds[0], st).value;
      RunDeadBody(ds[1..], NextOpen(ds[0], open), st', p, rest);
      assert st'.(frames := st'.frames[..p]) == st.(frames := st.frames[..p]);
    }
  }

  /** `st` with frame `f` slipped in at position `p`. */
  function Lift(st: ScanState, p: nat, f: Frame): ScanState
    requires p <= |st.frames|
  {
    st.(frames := st.frames[..p] + [f] + st.frames[p..])
  }

  /** Liveness does not see a live frame slipped in above a live one. */
  lemma LiftLive(st: ScanState, p: nat, f: Frame)
    requires p <= |st.frames| && f.live && (p == 0 || st.frames[p - 1].live)
    ensures Live(Lift(st, p, f)) == Live(st)
  {
    var n := |st.frames|;
    if p < n {
      assert Lift(st, p, f).frames[n] == st.frames[n - 1];
    }
  }

  lemma PushLift(st: ScanState, p: nat, f: Frame, b: bool)
    requires p <= |st.frames| && f.live && (p == 0 || st.frames[p - 1].live)
    ensures Push(Lift(st, p, f), b) == Lift(Push(st, b), p, f)
    ensures Push(st, b).frames[..p] == st.frames[..p]
  {
    LiftLive(st, p, f);
    var fr := Frame(Live(st), Live(st) && b, false);
    var pushed := st.frames + [fr];
    assert pushed[..p] == st.frames[..p];
    assert pushed[p..] == st.frames[p..] + [fr];
  }

  lemma ElseLift(st: ScanState, p: nat, f: Frame)
    requires p < |st.frames| && f.live && (p == 0 || st.frames[p - 1].live)
    ensures Step(Else, Lift(st, p, f)).Err? <==> Step(Else, st).Err?
    ensures Step(Else, st).Ok? ==>
      && Step(Else, st).value.frames[..p] == st.frames[..p]
      && Step(Else, Lift(st, p, f)).value == Lift(Step(Else, st).value, p, f)
  {
    var n := |st.frames|;
    var l := Lift(st, p, f);
    var top := st.frames[n - 1];
    assert l.frames[n] == top;
    if !top.seenElse {
      var top' := Frame(top.parentLive, top.parentLive && !top.live, true);
      assert l.frames[..n] + [top'] == st.frames[..p] + [f] + (st.frames[p..n - 1] + [top']);
      assert (st.frames[..n - 1] + [top'])[..p] == st.frames[..p];
      assert (st.frames[..n - 1] + [top'])[p..] == st.frames[p..n - 1] + [top'];
    }
  }

  lemma EndIfLift(st: ScanState, p: nat, f: Frame)
    requires p < |st.frames|
    ensures Step(EndIf, Lift(st, p, f)) == Ok(Lift(Step(EndIf, st).value, p, f))
    ensures Step(EndIf, st).Ok? && Step(EndIf, st).value.frames[..p] == st.frames[..p]
  {
    var n := |st.frames|;
    assert Lift(st, p, f).frames[..n] == st.frames[..p] + [f] + st.frames[p..n - 1];
    assert st.frames[..n - 1][..p] == st.frames[..p];
    assert st.frames[..n - 1][p..] == st.frames[p..n - 1];
  }

  /** One directive does the same with or without a live frame slipped in below the frames
      it touches. */
  lemma StepLift(d: Directive, st: ScanState, p: nat, f: Frame)
    requires p <= |st.frames| && f.live && (p == 0 || st.frames[p - 1].live)
    requires p == |st.frames| ==> !d.Else? && !d.EndIf?
    ensures Step(d, Lift(st, p, f)).Err? <==> Step(d, st).Err?
    ensures Step(d, st).Ok? ==>
      && p <= |Step(d, st).value.frames|
      && st.frames[..p] == Step(d, st).value.frames[..p]
      && Step(d, Lift(st, p, f)).value == Lift(Step(d, st).value, p, f)
  {
    LiftLive(st, p, f);
    match d
    case Else => ElseLift(st, p, f);
    case EndIf => EndIfLift(st, p, f);
    case If(_) => PushLift(st, p, f, false); PushLift(st, p, f, true);
    case IfDef(n) => PushLift(st, p, f, n in st.env);
    case IfNDef(n) => PushLift(st, p, f, n !in st.env);
    case _ =>
  }

  /** Running a balanced region above a live frame slipped in at `p`, then closing that
      frame, is running the region without the frame. */
  lemma {:induction false} RunLiftedBody(ds: seq<Directive>, open: seq<bool>, st: ScanState, p: nat, f: Frame,
                                         rest: seq<Directive>)
    requires Nested(ds, open)
    requires p + |open| == |st.frames| && f.live && (p == 0 || st.frames[p - 1].live)
    ensures Run(ds + [EndIf] + rest, Lift(st, p, f)) == Run(ds + rest, st)
    decreases |ds|
  {
    if ds == [] {
      assert ds + [EndIf] + rest == [EndIf] + rest && ds + rest == rest;
      assert Lift(st, p, f) == st.(frames := st.frames + [f]);
      EndIfPops(rest, st, f);
    } else {
      var d := ds[0];
      assert ds + [EndIf] + rest == [d] + (ds[1..] + [EndIf] + rest);
      assert ds + rest == [d] + (ds[1..] + rest);
      StepLift(d, st, p, f);
      RunCons(d, ds[1..] + [EndIf] + rest, Lift(st, p, f));
      RunCons(d, ds[1..] + rest, st);
      if Step(d, st).Ok? {
        var st' := Step(d, st).value;
        var n := |open|;
        match d
        case If(_) => RunLiftedBody(ds[1..], open + [false], st', p, f, rest);
        case IfDef(_) => RunLiftedBody(ds[1..], open + [false], st', p, f, rest);
        case IfNDef(_) => RunLiftedBody(ds[1..], open + [false], st', p, f, rest);
        case Else => RunLiftedBody(ds[1..], open[..n - 1] + [true], st', p, f, rest);
        case EndIf => RunLiftedBody(ds[1..], open[..n - 1], st', p, f, rest);
        case Define(_, _) => RunLiftedBody(ds[1..], open, st', p, f, rest);
        case Marker(_) => RunLiftedBody(ds[1..], open, st', p, f, rest);
        case Text => RunLiftedBody(ds[1..], open, st', p, f, rest);
      }
    }
  }

  /** A guard (`#if`, `#ifdef` or `#ifndef`) that is false skips its balanced body up to
      the matching `#endif`: nothing in it is defined and none of its inputs becomes
      active. */
  lemma GuardFalseSkips(g: Directive, body: seq<Directive>, rest: seq<Directive>, st: ScanState)
    requires Live(st) && Balanced(body) && Step(g, st) == Ok(Push(st, false))
    ensures Run([g] + body + [EndIf] + rest, st) == Run(rest, st)
  {
    var f := Frame(true, false, false);
    var pushed := Push(st, false);
    assert pushed == st.(frames := st.frames + [f]);
    assert [g] + body + [EndIf] + rest == [g] + (body + ([EndIf] + rest));
    RunCons(g, body + ([EndIf] + rest), st);
    assert DeadAbove(pushed, |st.frames| + 1, []);
    RunDeadBody(body, [], pushed, |st.frames| + 1, [EndIf] + rest);
    assert pushed.frames[..|st.frames| + 1] == pushed.frames;
    EndIfPops(rest, st, f);
  }

  /** A guard that is true runs its balanced body as if it were unguarded. */
  lemma GuardTrueEnters(g: Directive, body: seq<Directive>, rest: seq<Directive>, st: ScanState)
    requires Live(st) && Balanced(body) && Step(g, st) == Ok(Push(st, true))
    ensures Run([g] + body + [EndIf] + rest, st) == Run(body + rest, st)
  {
    var f := Frame(true, true, false);
    var p := |st.frames|;
    assert Push(st, true) == Lift(st, p, f);
    assert [g] + body + [EndIf] + rest == [g] + (body + [EndIf] + rest);
    RunCons(g, body + [EndIf] + rest, st);
    assert p == 0 || st.frames[p - 1].live;
    RunLiftedBody(body, [], st, p, f, rest);
  }

  /** The `DIFFUSE_TEX == 1` guard of the test program: under the value 1 the guarded
      texture's marker is reached, under the value 0 it is not. */
  lemma DiffuseTextureGuard(v: int, rest: seq<Directive>)
    requires v == 0 || v == 1
    ensures var guard := [[Compare(Name("DIFFUSE_TEX"), Eq, Literal(1))]];
      var st := InitialScan.(env := map["DIFFUSE_TEX" := v]);
      Run([If(Some(guard)), Marker("u_diffuseTex"), EndIf] + rest, st)
        == Run(if v == 1 then [Marker("u_diffuseTex")] + rest else rest, st)
  {
    var guard := [[Compare(Name("DIFFUSE_TEX"), Eq, Literal(1))]];
    var st := InitialScan.(env := map["DIFFUSE_TEX" := v]);
    var body := [Marker("u_diffuseTex")];
    assert [If(Some(guard)), Marker("u_diffuseTex"), EndIf] + rest == [If(Some(guard))] + body + [EndIf] + rest;
    assert EvalAtom(guard[0][0], st.env) == Some(v == 1);
    assert EvalConjunction(guard[0], st.env) == Some(v == 1);
    assert EvalCond(guard, st.env) == Some(v == 1);
    if v == 1 {
      GuardTrueEnters(If(Some(guard)), body, rest, st);
    } else {
      GuardFalseSkips(If(Some(guard)), body, rest, st);
    }
  }
}

=== FILE: headers.dfy ===
/** What the mutator header of a variant's source does to the conditional scan: a
    guard that is false under the variant's mutator values hides the inputs declared
    inside it. */
module Headers {
  import opened Common
  import opened Text
  import opened ParserModel
  import opened Conditions
  import opened Parser

  /** The macros defined by the `#define` lines for `ms` read in order, over `env`. */
  function DefinesEnv(env: map<string, int>, ms: seq<Mutator>, mutation: seq<MutatorValue>): map<string, int>
    requires |mutation| == |ms|
    decreases |ms|
  {
    if ms == [] then env
    else DefinesEnv(env[ms[0].name := mutation[0]], ms[1..], mutation[1..])
  }

  /** The macros in scope right after the mutator header of a variant. */
  function HeaderEnv(ms: seq<Mutator>, mutation: seq<MutatorValue>): map<string, int>
    requires |mutation| == |ms|
  {
    DefinesEnv(map[], ms, mutation)
  }

  predicate DistinctNames(ms: seq<Mutator>)
  {
    forall i, j :: 0 <= i < j < |ms| ==> ms[i].name != ms[j].name
  }

  /** A name the header does not define keeps what it had. */
  lemma {:induction false} DefinesEnvKeeps(env: map<string, int>, ms: seq<Mutator>, mutation: seq<MutatorValue>,
                                           n: string)
    requires |mutation| == |ms| && forall k :: 0 <= k < |ms| ==> ms[k].name != n
    ensures n in DefinesEnv(env, ms, mutation) <==> n in env
    ensures n in env ==> DefinesEnv(env, ms, mutation)[n] == env[n]
    decreases |ms|
  {
    if ms != [] {
      assert ms[0].name != n;
      forall k | 0 <= k < |ms| - 1
        ensures ms[1..][k].name != n
      {
        assert ms[1..][k] == ms[k + 1];
      }
      DefinesEnvKeeps(env[ms[0].name := mutation[0]], ms[1..], mutation[1..], n);
    }
  }

  /** Reading the header defines mutator `i` with its value in the variant. */
  lemma {:induction false} DefinesEnvValue(env: map<string, int>, ms: seq<Mutator>, mutation: seq<MutatorValue>,
                                           i: nat)
    requires |mutation| == |ms| && DistinctNames(ms) && i < |ms|
    ensures ms[i].name in DefinesEnv(env, ms, mutation)
    ensures DefinesEnv(env, ms, mutation)[ms[i].name] == mutation[i]
    decreases |ms|
  {
    var env' := env[ms[0].name := mutation[0]];
    if i > 0 {
      assert ms[1..][i - 1] == ms[i];
      DefinesEnvValue(env', ms[1..], mutation[1..], i - 1);
    } else {
      forall k | 0 <= k < |ms| - 1
        ensures ms[1..][k].name != ms[0].name
      {
        assert ms[1..][k] == ms[k + 1];
      }
      DefinesEnvKeeps(env', ms[1..], mutation[1..], ms[0].name);
    }
  }

  /** Reading the header adds no macro other than the mutators. */
  lemma {:induction false} DefinesEnvDomain(env: map<string, int>, ms: seq<Mutator>, mutation: seq<MutatorValue>,
                                            n: string)
    requires |mutation| == |ms|
    ensures n in DefinesEnv(env, ms, mutation) <==> n in env || exists k :: 0 <= k < |ms| && ms[k].name == n
    decreases |ms|
  {
    if ms != [] {
      DefinesEnvDomain(env[ms[0].name := mutation[0]], ms[1..], mutation[1..], n);
      if exists k :: 0 <= k < |ms| - 1 && ms[1..][k].name == n {
        var k :| 0 <= k < |ms| - 1 && ms[1..][k].name == n;
        assert ms[k + 1].name == n;
      }
      if exists k :: 0 <= k < |ms| && ms[k].name == n {
        var k :| 0 <= k < |ms| && ms[k].name == n;
        if k > 0 {
          assert ms[1..][k - 1].name == n;
        }
      }
    }
  }

  /** The header of a variant defines exactly the mutators, each with its value. */
  lemma HeaderEnvValues(ms: seq<Mutator>, mutation: seq<MutatorValue>)
    requires |mutation| == |ms| && DistinctNames(ms)
    ensures forall i :: 0 <= i < |ms| ==>
      ms[i].name in HeaderEnv(ms, mutation) && HeaderEnv(ms, mutation)[ms[i].name] == mutation[i]
    ensures forall n :: n in HeaderEnv(ms, mutation) <==> exists i :: 0 <= i < |ms| && ms[i].name == n
  {
    forall i | 0 <= i < |ms|
      ensures ms[i].name in HeaderEnv(ms, mutation) && HeaderEnv(ms, mutation)[ms[i].name] == mutation[i]
    {
      DefinesEnvValue(map[], ms, mutation, i);
    }
    forall n
      ensures n in HeaderEnv(ms, mutation) <==> exists i :: 0 <= i < |ms| && ms[i].name == n
    {
      DefinesEnvDomain(map[], ms, mutation, n);
    }
  }

  /** A name the generator can write in a `#define` line. */
  predicate MacroName(n: string)
  {
    IsToken(n) && !TokenIsComment(n) && '\n' !in n
  }

  /** The header is the first mutator's line followed by the others' header. */
  lemma DefinesHead(ms: seq<Mutator>, mutation: seq<MutatorValue>)
    requires |mutation| == |ms| && |ms| > 0
    ensures MutatorDefines(ms, mutation) ==
      [DefineLine(ms[0].name, mutation[0])] + MutatorDefines(ms[1..], mutation[1..])
  {
  }

  /** A header line on its own classifies as its definition. */
  lemma ClassifyDefineAlone(name: string, value: int)
    requires MacroName(name)
    ensures ClassifyAll([DefineLine(name, value)]) == [Define(name, value)]
  {
    ClassifyDefineLine(name, value);
  }

  /** The header lines classify as the defines, and running them sets the macros. */
  lemma {:induction false} RunDefines(ms: seq<Mutator>, mutation: seq<MutatorValue>, rest: seq<Directive>,
                                      st: ScanState)
    requires |mutation| == |ms| && forall i :: 0 <= i < |ms| ==> MacroName(ms[i].name)
    requires Live(st)
    ensures Run(ClassifyAll(MutatorDefines(ms, mutation)) + rest, st) ==
      Run(rest, st.(env := DefinesEnv(st.env, ms, mutation)))
    decreases |ms|
  {
    if ms == [] {
      assert ClassifyAll(MutatorDefines(ms, mutation)) + rest == rest;
    } else {
      DefinesHead(ms, mutation);
      var d := Define(ms[0].name, mutation[0]);
      ClassifyDefineAlone(ms[0].name, mutation[0]);
      ClassifyAllAppend([DefineLine(ms[0].name, mutation[0])], MutatorDefines(ms[1..], mutation[1..]));
      var tail := ClassifyAll(MutatorDefines(ms[1..], mutation[1..]));
      assert ClassifyAll(MutatorDefines(ms, mutation)) + rest == [d] + (tail + rest);
      var st' := st.(env := st.env[ms[0].name := mutation[0]]);
      assert Step(d, st) == Ok(st');
      RunCons(d, tail + rest, st);
      RunDefines(ms[1..], mutation[1..], rest, st');
    }
  }

  /** No header line holds a line break. */
  lemma HeaderOneLineEach(ms: seq<Mutator>, mutation: seq<MutatorValue>)
    requires |mutation| == |ms| && forall i :: 0 <= i < |ms| ==> MacroName(ms[i].name)
    ensures forall l :: l in MutatorDefines(ms, mutation) ==> '\n' !in l
  {
    forall i | 0 <= i < |ms|
      ensures '\n' !in DefineLine(ms[i].name, mutation[i])
    {
      FormatIntOneLine(mutation[i]);
      JoinAvoids(["#define", ms[i].name, FormatInt(mutation[i])], ' ', '\n');
    }
  }

  /** The lines of a header followed by other lines, none with a line break, read back
      as those lines, and classify as the header's defines followed by the others'
      directives. */
  lemma HeaderSourceLines(ms: seq<Mutator>, mutation: seq<MutatorValue>, more: seq<string>)
    requires |mutation| == |ms| && forall k :: 0 <= k < |ms| ==> MacroName(ms[k].name)
    requires forall k :: 0 <= k < |more| ==> '\n' !in more[k]
    requires more != []
    ensures ClassifyAll(SplitLines(Join(MutatorDefines(ms, mutation) + more, '\n'))) ==
      ClassifyAll(MutatorDefines(ms, mutation)) + ClassifyAll(more)
  {
    var header := MutatorDefines(ms, mutation);
    var lines := header + more;
    HeaderOneLineEach(ms, mutation);
    forall l | l in lines
      ensures '\n' !in l
    {
      if l !in header {
        var k :| 0 <= k < |more| && more[k] == l;
      }
    }
    SplitJoinLines(lines);
    ClassifyAllAppend(MutatorDefines(ms, mutation), more);
  }

  /** Under the header, a false guard skips its balanced body. */
  lemma HeaderGuardRun(ms: seq<Mutator>, mutation: seq<MutatorValue>, g: Directive, body: seq<Directive>,
                       rest: seq<Directive>)
    requires |mutation| == |ms| && forall k :: 0 <= k < |ms| ==> MacroName(ms[k].name)
    requires g.If? && g.cond.Some? && EvalCond(g.cond.value, HeaderEnv(ms, mutation)) == Some(false)
    requires Balanced(body)
    ensures Run(ClassifyAll(MutatorDefines(ms, mutation)) + ([g] + body + [EndIf] + rest), InitialScan) ==
      Run(rest, ScanState(HeaderEnv(ms, mutation), [], {}))
  {
    RunDefines(ms, mutation, [g] + body + [EndIf] + rest, InitialScan);
    var st0 := ScanState(HeaderEnv(ms, mutation), [], {});
    assert InitialScan.(env := DefinesEnv(InitialScan.env, ms, mutation)) == st0;
    assert Step(g, st0) == Ok(Push(st0, false));
    GuardFalseSkips(g, body, rest, st0);
  }

  /** Under the header, a true guard runs its balanced body as if unguarded. */
  lemma HeaderGuardTrueRun(ms: seq<Mutator>, mutation: seq<MutatorValue>, g: Directive, body: seq<Directive>,
                           rest: seq<Directive>)
    requires |mutation| == |ms| && forall k :: 0 <= k < |ms| ==> MacroName(ms[k].name)
    requires g.If? && g.cond.Some? && EvalCond(g.cond.value, HeaderEnv(ms, mutation)) == Some(true)
    requires Balanced(body)
    ensures Run(ClassifyAll(MutatorDefines(ms, mutation)) + ([g] + body + [EndIf] + rest), InitialScan) ==
      Run(body + rest, ScanState(HeaderEnv(ms, mutation), [], {}))
  {
    RunDefines(ms, mutation, [g] + body + [EndIf] + rest, InitialScan);
    var st0 := ScanState(HeaderEnv(ms, mutation), [], {});
    assert InitialScan.(env := DefinesEnv(InitialScan.env, ms, mutation)) == st0;
    assert Step(g, st0) == Ok(Push(st0, true));
    GuardTrueEnters(g, body, rest, st0);
  }

  lemma ClassifyEndIf()
    ensures Classify("#endif") == EndIf
  {
    TokensOfJoin(["#endif"]);
  }

  /** A guard, its body, `#endif` and the lines after it classify piece by piece. */
  lemma GuardedDirectives(guard: string, body: seq<string>, rest: seq<string>)
    ensures ClassifyAll([guard] + body + ["#endif"] + rest) ==
      [Classify(guard)] + ClassifyAll(body) + [EndIf] + ClassifyAll(rest)
  {
    ClassifyEndIf();
    var a := [guard] + body;
    var b := ["#endif"] + rest;
    assert [guard] + body + ["#endif"] + rest == a + b;
    ClassifyAllAppend(a, b);
    ClassifyAllAppend([guard], body);
    ClassifyAllAppend(["#endif"], rest);
    assert ClassifyAll([guard]) == [Classify(guard)];
    assert ClassifyAll(["#endif"]) == [EndIf];
  }

  /** A guard, its body, `#endif` and the lines after it hold no line break when none of
      the given lines does. */
  lemma GuardedLinesOneLine(guard: string, body: seq<string>, rest: seq<string>)
    requires '\n' !in guard
    requires forall k :: 0 <= k < |body| ==> '\n' !in body[k]
    requires forall k :: 0 <= k < |rest| ==> '\n' !in rest[k]
    ensures var more := [guard] + body + ["#endif"] + rest;
      forall k :: 0 <= k < |more| ==> '\n' !in more[k]
  {
    var more := [guard] + body + ["#endif"] + rest;
    forall k | 0 <= k < |more|
      ensures '\n' !in more[k]
    {
      if k == 0 {
      } else if k <= |body| {
        assert more[k] == body[k - 1];
      } else if k == |body| + 1 {
      } else {
        assert more[k] == rest[k - |body| - 2];
      }
    }
  }

  /** The lines of a source made of the header, a guard, its body, `#endif` and more lines
      are read back as such and classify piece by piece. */
  lemma GuardedSourceDirectives(ms: seq<Mutator>, mutation: seq<MutatorValue>, guard: string,
                                body: seq<string>, rest: seq<string>)
    requires |mutation| == |ms| && forall k :: 0 <= k < |ms| ==> MacroName(ms[k].name)
    requires '\n' !in guard
    requires forall k :: 0 <= k < |body| ==> '\n' !in body[k]
    requires forall k :: 0 <= k < |rest| ==> '\n' !in rest[k]
    ensures ClassifyAll(SplitLines(Join(MutatorDefines(ms, mutation) + [guard] + body + ["#endif"] + rest, '\n'))) ==
      ClassifyAll(MutatorDefines(ms, mutation)) + ([Classify(guard)] + ClassifyAll(body) + [EndIf] + ClassifyAll(rest))
  {
    var more := [guard] + body + ["#endif"] + rest;
    assert MutatorDefines(ms, mutation) + [guard] + body + ["#endif"] + rest == MutatorDefines(ms, mutation) + more;
    GuardedLinesOneLine(guard, body, rest);
    HeaderSourceLines(ms, mutation, more);
    GuardedDirectives(guard, body, rest);
  }

  /** In the source of a variant, an input whose marker sits only inside a guard that the
      variant's mutator values make false is not active, whatever the guarded lines
      hold as long as their own conditionals are balanced. */
  lemma GuardedMarkerInactive(ms: seq<Mutator>, mutation: seq<MutatorValue>, guard: string,
                              body: seq<string>, rest: seq<string>, ins: seq<Input>, i: nat)
    requires |mutation| == |ms| && forall k :: 0 <= k < |ms| ==> MacroName(ms[k].name)
    requires '\n' !in guard
    requires forall k :: 0 <= k < |body| ==> '\n' !in body[k]
    requires forall k :: 0 <= k < |rest| ==> '\n' !in rest[k]
    requires Classify(guard).If? && Classify(guard).cond.Some?
    requires EvalCond(Classify(guard).cond.value, HeaderEnv(ms, mutation)) == Some(false)
    requires Balanced(ClassifyAll(body))
    requires i < |ins| && Marker(ins[i].name) !in ClassifyAll(rest)
    ensures var r := AnalyzeSource(Join(MutatorDefines(ms, mutation) + [guard] + body + ["#endif"] + rest, '\n'), ins);
      r.Ok? && i < |r.value| ==> !r.value[i]
  {
    GuardedSourceDirectives(ms, mutation, guard, body, rest);
    HeaderGuardRun(ms, mutation, Classify(guard), ClassifyAll(body), ClassifyAll(rest));
    var st0 := ScanState(HeaderEnv(ms, mutation), [], {});
    var r := Run(ClassifyAll(rest), st0);
    if r.Ok? && ins[i].name in r.value {
      ActiveOnlyFromMarkers(ClassifyAll(rest), st0, ins[i].name);
    }
  }

  /** Directives that start with a marker, scanned in a live region, make its name
      active. */
  lemma MarkerFirstActive(n: string, body: seq<Directive>, rest: seq<Directive>, st: ScanState)
    requires Live(st) && body != [] && body[0] == Marker(n)
    ensures Run(body + rest, st).Ok? ==> n in Run(body + rest, st).value
  {
    assert body + rest == [Marker(n)] + (body[1..] + rest);
    LiveMarkerActive(n, body[1..] + rest, st);
  }

  /** Under the header, a true guard whose body starts with a marker makes that name
      active. */
  lemma HeaderGuardMarkerRun(ms: seq<Mutator>, mutation: seq<MutatorValue>, g: Directive, body: seq<Directive>,
                             rest: seq<Directive>, n: string)
    requires |mutation| == |ms| && forall k :: 0 <= k < |ms| ==> MacroName(ms[k].name)
    requires g.If? && g.cond.Some? && EvalCond(g.cond.value, HeaderEnv(ms, mutation)) == Some(true)
    requires Balanced(body) && body != [] && body[0] == Marker(n)
    ensures var r := Run(ClassifyAll(MutatorDefines(ms, mutation)) + ([g] + body + [EndIf] + rest), InitialScan);
      r.Ok? ==> n in r.value
  {
    HeaderGuardTrueRun(ms, mutation, g, body, rest);
    MarkerFirstActive(n, body, rest, ScanState(HeaderEnv(ms, mutation), [], {}));
  }

  /** In the same source shape, a guard that the variant's mutator values make true
      activates an input whose marker is the first line of its balanced body. */
  lemma GuardedMarkerActive(ms: seq<Mutator>, mutation: seq<MutatorValue>, guard: string,
                            body: seq<string>, rest: seq<string>, ins: seq<Input>, i: nat)
    requires |mutation| == |ms| && forall k :: 0 <= k < |ms| ==> MacroName(ms[k].name)
    requires '\n' !in guard
    requires forall k :: 0 <= k < |body| ==> '\n' !in body[k]
    requires forall k :: 0 <= k < |rest| ==> '\n' !in rest[k]
    requires Classify(guard).If? && Classify(guard).cond.Some?
    requires EvalCond(Classify(guard).cond.value, HeaderEnv(ms, mutation)) == Some(true)
    requires Balanced(ClassifyAll(body))
    requires i < |ins| <= MAX_SHADER_PROGRAM_INPUT_VARIABLES
    requires body != [] && Classify(body[0]) == Marker(ins[i].name)
    ensures var r := AnalyzeSource(Join(MutatorDefines(ms, mutation) + [guard] + body + ["#endif"] + rest, '\n'), ins);
      r.Ok? ==> i < |r.value| && r.value[i]
  {
    var source := Join(MutatorDefines(ms, mutation) + [guard] + body + ["#endif"] + rest, '\n');
    GuardedSourceDirectives(ms, mutation, guard, body, rest);
    HeaderGuardMarkerRun(ms, mutation, Classify(guard), ClassifyAll(body), ClassifyAll(rest), ins[i].name);
    ReachedNameActive(source, ins, i);
  }
}

=== FILE: includes.dfy ===
/** Properties of the whole read of a program through its includes: a file under
    `#pragma once` is read once, and include chains are cut at depth 8. */
module Includes {
  import opened Common
  import opened Text
  import opened Pragmas
  import opened Parser

  // ---------------------------------------------------------------------------
  // `#pragma once`

  /** A line that is exactly `#pragma once` (a trailing comment aside). */
  predicate IsPragmaOnce(line: string)
  {
    StripComments(Tokens(line)) == ["#pragma", "once"]
  }

  /** Once the lines from `i` on are read without failure, a `#pragma once` among them
      has put the file into the set of files parsed under `#pragma once`. */
  lemma {:induction false} LinesStepMarksOnce(files: map<string, string>, s: ParserState, lines: seq<string>,
                                              i: nat, once: bool, name: string, depth: nat, k: nat)
    requires depth <= MAX_INCLUDE_DEPTH && i <= k < |lines| && IsPragmaOnce(lines[k])
    ensures var r := LinesStep(files, s, lines, i, once, name, depth);
      r.status.Success? ==> name in r.state.onceFiles
    decreases |lines| - i
  {
    var (o, once') := LineStep(files, s, lines[i], name, i + 1, once, depth);
    LinesStepAdvance(files, s, o.state, lines, lines[i], i + 1, once, once', o.status, name, depth);
    if o.status.Success? {
      if i == k {
        assert name in o.state.onceFiles;
        LinesStepExtends(files, o.state, lines, i + 1, once', name, depth);
      } else {
        LinesStepMarksOnce(files, o.state, lines, i + 1, once', name, depth, k);
      }
    }
  }

  /** A `#pragma once` line: the first in a file marks it, a second is an error. */
  lemma PragmaOnceLineStep(files: map<string, string>, s: ParserState, line: string, name: string, lineNo: nat,
                           once: bool, depth: nat)
    requires depth <= MAX_INCLUDE_DEPTH && IsPragmaOnce(line)
    ensures var r := LineStep(files, s, line, name, lineNo, once, depth);
      once ==> r == (Outcome(Failed(DuplicatePragmaOnce, name, lineNo), s), true)
    ensures var r := LineStep(files, s, line, name, lineNo, once, depth);
      !once ==> r == (Outcome(Success, MarkOnce(s, name)), true)
  {
    var ts := StripComments(Tokens(line));
    assert ts[0] == "#pragma" && ts[1] == "once" && |ts| == 2;
  }

  /** Once a file's `#pragma once` was met, a later `#pragma once` line in it means the
      file is not read without failure. */
  lemma {:induction false} OnceThenSecondFails(files: map<string, string>, s: ParserState, lines: seq<string>,
                                               i: nat, name: string, depth: nat, k: nat)
    requires depth <= MAX_INCLUDE_DEPTH && i <= k < |lines| && IsPragmaOnce(lines[k])
    ensures !LinesStep(files, s, lines, i, true, name, depth).status.Success?
    decreases |lines| - i
  {
    var (o, once') := LineStep(files, s, lines[i], name, i + 1, true, depth);
    LinesStepAdvance(files, s, o.state, lines, lines[i], i + 1, true, once', o.status, name, depth);
    if i == k {
      PragmaOnceLineStep(files, s, lines[i], name, i + 1, true, depth);
    } else if o.status.Success? {
      assert once';
      OnceThenSecondFails(files, o.state, lines, i + 1, name, depth, k);
    }
  }

  /** Two `#pragma once` lines in the lines still to read: reading them fails. */
  lemma {:induction false} TwoPragmaOnceFails(files: map<string, string>, s: ParserState, lines: seq<string>,
                                              i: nat, once: bool, name: string, depth: nat, k1: nat, k2: nat)
    requires depth <= MAX_INCLUDE_DEPTH && i <= k1 < k2 < |lines|
    requires IsPragmaOnce(lines[k1]) && IsPragmaOnce(lines[k2])
    ensures !LinesStep(files, s, lines, i, once, name, depth).status.Success?
    decreases |lines| - i
  {
    var (o, once') := LineStep(files, s, lines[i], name, i + 1, once, depth);
    LinesStepAdvance(files, s, o.state, lines, lines[i], i + 1, once, once', o.status, name, depth);
    if i == k1 {
      PragmaOnceLineStep(files, s, lines[i], name, i + 1, once, depth);
      if !once {
        OnceThenSecondFails(files, o.state, lines, i + 1, name, depth, k2);
      }
    } else if o.status.Success? {
      TwoPragmaOnceFails(files, o.state, lines, i + 1, once', name, depth, k1, k2);
    }
  }

  /** A file that is read (not skipped under an earlier `#pragma once`) and holds two
      `#pragma once` lines does not parse. */
  lemma FileTwoPragmaOnceFails(files: map<string, string>, s: ParserState, name: string, depth: nat, k1: nat, k2: nat)
    requires depth <= MAX_INCLUDE_DEPTH && name in files && name !in s.onceFiles
    requires k1 < k2 < |SplitLines(files[name])|
    requires IsPragmaOnce(SplitLines(files[name])[k1]) && IsPragmaOnce(SplitLines(files[name])[k2])
    ensures !FileStep(files, s, name, depth).status.Success?
  {
    FileStepEnters(files, s, name, depth);
    TwoPragmaOnceFails(files, s, SplitLines(files[name]), 0, false, name, depth, k1, k2);
  }

  /** A file with a `#pragma once` line contributes once: after it was read without
      failure, including it again, at any depth, reads nothing and changes nothing. */
  lemma OnceFileReadOnce(files: map<string, string>, s: ParserState, name: string, depth: nat, depth': nat, k: nat)
    requires depth <= MAX_INCLUDE_DEPTH && depth' <= MAX_INCLUDE_DEPTH
    requires name in files && k < |SplitLines(files[name])| && IsPragmaOnce(SplitLines(files[name])[k])
    ensures var r := FileStep(files, s, name, depth);
      r.status.Success? ==> FileStep(files, r.state, name, depth') == Outcome(Success, r.state)
  {
    if name !in s.onceFiles {
      FileStepEnters(files, s, name, depth);
      LinesStepMarksOnce(files, s, SplitLines(files[name]), 0, false, name, depth, k);
    }
  }

  // ---------------------------------------------------------------------------
  // Include depth

  /** A file name that can be written between quotes on an `#include` line. */
  predicate IncludableName(n: string)
  {
    |n| > 0 && NoBlanks(n) && '\n' !in n
  }

  /** The line `#include "n"`. */
  function IncludeLine(n: string): string
  {
    Join(["#include", "\"" + n + "\""], ' ')
  }

  /** `#include "n"` is one line, whose tokens are the directive and the quoted name, and
      whose target is `n`. */
  lemma IncludeLineReads(n: string)
    requires IncludableName(n)
    ensures SplitLines(IncludeLine(n)) == [IncludeLine(n)]
    ensures StripComments(Tokens(IncludeLine(n))) == ["#include", "\"" + n + "\""]
    ensures IncludeTarget(["\"" + n + "\""]) == Some(n)
  {
    var q := "\"" + n + "\"";
    assert forall i :: 1 <= i < |q| - 1 ==> q[i] == n[i - 1];
    assert IsToken("#include") && IsToken(q);
    TokensOfJoin(["#include", q]);
    assert StripComments([q]) == [q];
    var line := IncludeLine(n);
    assert line == "#include" + [' '] + q;
    assert '\n' !in line by {
      assert forall i :: 9 <= i < |line| ==> line[i] == q[i - 9];
    }
    assert Join([line], '\n') == line;
    SplitJoinLines([line]);
    var v := IncludeTarget([q]).value;
    assert q == "\"" + v + "\"" || q == "<" + v + ">";
    assert v == q[1..|q| - 1] == n;
  }

  /** Files `names[0]`, `names[1]`, ... where each holds just the line including the
      next, and the last is empty. */
  predicate IncludeChain(files: map<string, string>, names: seq<string>)
  {
    && |names| > 0
    && (forall j :: 0 <= j < |names| ==> names[j] in files && IncludableName(names[j]))
    && (forall j :: 0 <= j < |names| - 1 ==> files[names[j]] == IncludeLine(names[j + 1]))
    && files[names[|names| - 1]] == ""
  }

  /** Reading file `names[k]` of a chain at depth `depth` reads the rest of the chain one
      level deeper per file: it succeeds exactly when the last file is at most at depth 8,
      and otherwise the file at depth 8 fails on its `#include` line. */
  lemma {:induction false} IncludeChainDepth(files: map<string, string>, names: seq<string>, k: nat,
                                             s: ParserState, depth: nat)
    requires IncludeChain(files, names) && k < |names| && depth <= MAX_INCLUDE_DEPTH
    requires forall j :: k <= j < |names| ==> names[j] !in s.onceFiles
    ensures FileStep(files, s, names[k], depth) ==
      if depth + (|names| - 1 - k) <= MAX_INCLUDE_DEPTH then Outcome(Success, WithLine(s, ""))
      else Outcome(Failed(IncludeTooDeep, names[k + (MAX_INCLUDE_DEPTH - depth)], 1), s)
    decreases |names| - k
  {
    var name := names[k];
    FileStepEnters(files, s, name, depth);
    if k == |names| - 1 {
      assert SplitLines(files[name]) == [""];
      var (o, once') := LineStep(files, s, "", name, 1, false, depth);
      assert Tokens("") == [];
      assert o == Outcome(Success, WithLine(s, ""));
      LinesStepAdvance(files, s, o.state, [""], "", 1, false, once', o.status, name, depth);
      LinesStepDone(files, o.state, [""], once', name, depth);
    } else {
      var next := names[k + 1];
      var line := IncludeLine(next);
      IncludeLineReads(next);
      var q := "\"" + next + "\"";
      var (o, once') := LineStep(files, s, line, name, 1, false, depth);
      assert ["#include", q][1..] == [q];
      assert o == IncludeStep(files, s, [q], name, 1, depth);
      LinesStepAdvance(files, s, o.state, [line], line, 1, false, once', o.status, name, depth);
      LinesStepDone(files, o.state, [line], once', name, depth);
      if depth + 1 <= MAX_INCLUDE_DEPTH {
        IncludeChainDepth(files, names, k + 1, s, depth + 1);
      }
    }
  }

  /** A program whose main file starts an include chain: the parse succeeds when the chain
      is at most 8 includes deep (nine files) and fails with `IncludeTooDeep` when it is
      deeper. */
  lemma IncludeDepthLimit(files: map<string, string>, names: seq<string>)
    requires IncludeChain(files, names)
    ensures var r := ParseProgram(files, names[0]);
      && (|names| - 1 <= MAX_INCLUDE_DEPTH ==> r.status.Success?)
      && (|names| - 1 > MAX_INCLUDE_DEPTH ==> r.status == Failed(IncludeTooDeep, names[MAX_INCLUDE_DEPTH], 1))
  {
    InitialStateValid();
    IncludeChainDepth(files, names, 0, InitialState(), 0);
  }
}

=== FILE: layout.dfy ===
/** Per-variant metadata computed from the active inputs: where each uniform-block input
    sits in the block, which binding slot each texture and sampler gets, and whether the
    block fits the push-constant budget. */
module Layout {
  import opened Common
  import opened ParserModel

  /** Offset and size of an input inside the uniform block; (-1, -1) when not placed. */
  datatype BlockInfo = BlockInfo(offset: int, size: int)

  const UNSET_BLOCK: BlockInfo := BlockInfo(-1, -1)

  /** Bindings of inputs that are not active textures or samplers. */
  const UNSET_BINDING: int := -1

  /** Bytes an input of this type occupies in the block (vec3 is 12, a mat3 is three
      16-byte columns). */
  function SizeOf(t: ShaderVariableDataType): nat
  {
    match t
    case INT => 4
    case UINT => 4
    case FLOAT => 4
    case IVEC2 => 8
    case UVEC2 => 8
    case VEC2 => 8
    case IVEC3 => 12
    case UVEC3 => 12
    case VEC3 => 12
    case IVEC4 => 16
    case UVEC4 => 16
    case VEC4 => 16
    case MAT3 => 48
    case MAT4 => 64
    case _ => 0
  }

  /** Alignment of an input of this type in the block. */
  function AlignOf(t: ShaderVariableDataType): (a: nat)
    ensures a == 4 || a == 8 || a == 16
  {
    match t
    case IVEC2 => 8
    case UVEC2 => 8
    case VEC2 => 8
    case IVEC3 => 16
    case UVEC3 => 16
    case VEC3 => 16
    case IVEC4 => 16
    case UVEC4 => 16
    case VEC4 => 16
    case MAT3 => 16
    case MAT4 => 16
    case _ => 4
  }

  /** Every type that can sit in the block has a size. */
  lemma UboTypesHaveSize(input: Input)
    requires input.InUbo() && input.dataType != NONE
    ensures SizeOf(input.dataType) > 0
  {
  }

  /** The smallest multiple of `a` not below `x`. */
  function AlignUp(x: nat, a: nat): (r: nat)
    requires a == 4 || a == 8 || a == 16
    ensures r % a == 0 && x <= r < x + a
  {
    if x % a == 0 then x else x + (a - x % a)
  }

  predicate Placed(input: Input, active: bool)
  {
    active && input.InUbo()
  }

  predicate Bound(input: Input, active: bool)
  {
    active && (input.IsTexture() || input.IsSampler())
  }

  // ---------------------------------------------------------------------------
  // Uniform block

  /** Block infos of `ins` in declaration order and the block size they need: every
      active uniform-block input is placed at the next offset aligned for its type. */
  function BlockLayout(ins: seq<Input>, mask: seq<bool>): (r: (seq<BlockInfo>, nat))
    requires |ins| <= |mask|
    ensures |r.0| == |ins|
    decreases |ins|
  {
    if ins == [] then ([], 0)
    else
      var n := |ins| - 1;
      var prev := BlockLayout(ins[..n], mask);
      var input := ins[n];
      if Placed(input, mask[n]) then
        var offset := AlignUp(prev.1, AlignOf(input.dataType));
        (prev.0 + [BlockInfo(offset, SizeOf(input.dataType))], offset + SizeOf(input.dataType))
      else (prev.0 + [UNSET_BLOCK], prev.1)
  }

  /** Exactly the active uniform-block inputs are placed; each at an offset aligned for
      its type, with its type's size, inside the block. */
  lemma {:induction false} BlockLayoutPlaces(ins: seq<Input>, mask: seq<bool>, i: nat)
    requires |ins| <= |mask| && i < |ins|
    ensures var (infos, size) := BlockLayout(ins, mask);
      && (Placed(ins[i], mask[i]) ==>
            && infos[i].offset >= 0
            && infos[i].offset % AlignOf(ins[i].dataType) == 0
            && infos[i].size == SizeOf(ins[i].dataType)
            && infos[i].offset + infos[i].size <= size)
      && (!Placed(ins[i], mask[i]) ==> infos[i] == UNSET_BLOCK)
    decreases |ins|
  {
    var n := |ins| - 1;
    var prev := BlockLayout(ins[..n], mask);
    if i < n {
      assert ins[..n][i] == ins[i];
      BlockLayoutPlaces(ins[..n], mask, i);
      assert BlockLayout(ins, mask).0[i] == prev.0[i];
    }
  }

  /** Only active inputs are placed, and every placed input ends inside the block. */
  lemma BlockLayoutFits(ins: seq<Input>, mask: seq<bool>)
    requires |ins| <= |mask|
    ensures var (infos, size) := BlockLayout(ins, mask);
      forall i :: 0 <= i < |ins| && infos[i].offset >= 0 ==> mask[i] && infos[i].offset + infos[i].size <= size
  {
    forall i | 0 <= i < |ins|
      ensures var (infos, size) := BlockLayout(ins, mask);
        infos[i].offset >= 0 ==> mask[i] && infos[i].offset + infos[i].size <= size
    {
      BlockLayoutPlaces(ins, mask, i);
    }
  }

  /** Placed inputs occupy disjoint byte ranges, in declaration order. */
  lemma {:induction false} BlockLayoutDisjoint(ins: seq<Input>, mask: seq<bool>, i: nat, j: nat)
    requires |ins| <= |mask| && i < j < |ins|
    requires Placed(ins[i], mask[i]) && Placed(ins[j], mask[j])
    ensures var infos := BlockLayout(ins, mask).0;
      infos[i].offset + infos[i].size <= infos[j].offset
    decreases |ins|
  {
    var n := |ins| - 1;
    var prev := BlockLayout(ins[..n], mask);
    assert ins[..n][i] == ins[i];
    if j < n {
      assert ins[..n][j] == ins[j];
      BlockLayoutDisjoint(ins[..n], mask, i, j);
    } else {
      BlockLayoutPlaces(ins[..n], mask, i);
    }
  }

  /** The block is empty exactly when no active input lives in it. */
  lemma {:induction false} BlockSizeZero(ins: seq<Input>, mask: seq<bool>)
    requires |ins| <= |mask|
    requires forall i :: 0 <= i < |ins| ==> ins[i].dataType != NONE
    ensures BlockLayout(ins, mask).1 == 0 <==> forall i :: 0 <= i < |ins| ==> !Placed(ins[i], mask[i])
    decreases |ins|
  {
    if ins != [] {
      var n := |ins| - 1;
      assert forall i :: 0 <= i < n ==> ins[..n][i] == ins[i];
      BlockSizeZero(ins[..n], mask);
      if Placed(ins[n], mask[n]) {
        UboTypesHaveSize(ins[n]);
      }
    }
  }

  // ---------------------------------------------------------------------------
  // Texture and sampler bindings

  /** Bindings of `ins` in declaration order and how many were handed out: active
      textures and samplers get 0, 1, 2, ... in declaration order, the rest -1. */
  function Bindings(ins: seq<Input>, mask: seq<bool>): (r: (seq<int>, nat))
    requires |ins| <= |mask|
    ensures |r.0| == |ins|
    decreases |ins|
  {
    if ins == [] then ([], 0)
    else
      var n := |ins| - 1;
      var prev := Bindings(ins[..n], mask);
      if Bound(ins[n], mask[n]) then (prev.0 + [prev.1], prev.1 + 1)
      else (prev.0 + [UNSET_BINDING], prev.1)
  }

  /** A binding is assigned exactly to the active textures and samplers, and the
      assigned bindings are the range 0 .. count-1. */
  lemma {:induction false} BindingsShape(ins: seq<Input>, mask: seq<bool>)
    requires |ins| <= |mask|
    ensures var (b, count) := Bindings(ins, mask);
      && count <= |ins|
      && (forall i :: 0 <= i < |ins| ==> (b[i] >= 0 <==> Bound(ins[i], mask[i])))
      && (forall i :: 0 <= i < |ins| ==> b[i] >= 0 ==> b[i] < count)
      && (forall i :: 0 <= i < |ins| ==> b[i] < 0 ==> b[i] == UNSET_BINDING)
      && (forall k :: 0 <= k < count ==> k in b)
    decreases |ins|
  {
    if ins != [] {
      var n := |ins| - 1;
      var prev := Bindings(ins[..n], mask);
      var (b, count) := Bindings(ins, mask);
      BindingsShape(ins[..n], mask);
      assert forall i :: 0 <= i < n ==> ins[..n][i] == ins[i] && b[i] == prev.0[i];
      assert b == prev.0 + [b[n]];
    }
  }

  /** No two inputs share a binding; bindings grow with declaration order. */
  lemma {:induction false} BindingsIncreasing(ins: seq<Input>, mask: seq<bool>, i: nat, j: nat)
    requires |ins| <= |mask| && i < j < |ins|
    requires Bound(ins[i], mask[i]) && Bound(ins[j], mask[j])
    ensures Bindings(ins, mask).0[i] < Bindings(ins, mask).0[j]
    decreases |ins|
  {
    var n := |ins| - 1;
    var prev := Bindings(ins[..n], mask);
    assert ins[..n][i] == ins[i];
    BindingsShape(ins[..n], mask);
    if j < n {
      assert ins[..n][j] == ins[j];
      BindingsIncreasing(ins[..n], mask, i, j);
    }
  }

  /** A uniform-block input never receives a texture or sampler binding. */
  lemma UboInputUnbound(ins: seq<Input>, mask: seq<bool>, i: nat)
    requires |ins| <= |mask| && i < |ins| && ins[i].InUbo()
    ensures Bindings(ins, mask).0[i] == UNSET_BINDING
  {
    BindingsShape(ins, mask);
  }

  // ---------------------------------------------------------------------------
  // Push constants

  /** Whether the block goes into push constants: only when it holds something, and a
      block larger than the budget is an error. */
  function PushConstants(blockSize: nat, budget: U32): (r: Result<bool>)
    ensures r.Err? <==> blockSize > budget
    ensures r.Err? ==> r.kind == PushConstantsOverflow
    ensures r == Ok(true) <==> 0 < blockSize <= budget
  {
    if blockSize > budget then Err(PushConstantsOverflow)
    else Ok(blockSize > 0)
  }

  /** Under the 128-byte push-constant budget of the engine's shader-compiler test, two
      active 4x4 matrices fill the block exactly and go into push constants; one more
      active float overflows the budget. */
  lemma PushConstantBudgetBoundary()
    ensures var a := Input("u_mvp", 0, MAX_U32, false, MAT4);
      var b := Input("u_mvp2", 1, MAX_U32, false, MAT4);
      var c := Input("u_scale", 2, MAX_U32, false, FLOAT);
      var mask := [true, true, true];
      && BlockLayout([a, b], mask).1 == 128
      && PushConstants(BlockLayout([a, b], mask).1, 128) == Ok(true)
      && BlockLayout([a, b, c], mask).1 == 132
      && PushConstants(BlockLayout([a, b, c], mask).1, 128) == Err(PushConstantsOverflow)
  {
    var a := Input("u_mvp", 0, MAX_U32, false, MAT4);
    var b := Input("u_mvp2", 1, MAX_U32, false, MAT4);
    var c := Input("u_scale", 2, MAX_U32, false, FLOAT);
    var mask := [true, true, true];
    assert [a, b][..1] == [a] && [a, b, c][..2] == [a, b] && [a][..0] == [];
    assert BlockLayout([a], mask).1 == 64;
    assert BlockLayout([a, b], mask).1 == 128;
  }
}

=== FILE: model.dfy ===
/** The parsed model of a shader program: its mutators, its inputs and its mutation
    rewrite rules, with the invariants the parser keeps on them. */
module ParserModel {
  import opened Common

  // ---------------------------------------------------------------------------
  // Mutators

  /** A named compile-time switch, the values it may take and whether it drives instancing. */
  datatype Mutator = Mutator(name: string, values: seq<MutatorValue>, instanceCount: bool)

  predicate StrictlyIncreasing(vs: seq<int>)
  {
    forall i, j :: 0 <= i < j < |vs| ==> vs[i] < vs[j]
  }

  /** Whether `value` is one of the mutator's declared values. */
  method MutatorHasValue(mutator: Mutator, value: MutatorValue) returns (found: bool)
    ensures found <==> value in mutator.values
  {
    found := false;
    var i := 0;
    while i < |mutator.values|
      invariant 0 <= i <= |mutator.values|
      invariant found <==> value in mutator.values[..i]
    {
      if mutator.values[i] == value {
        found := true;
      }
      assert mutator.values[..i + 1] == mutator.values[..i] + [mutator.values[i]];
      i := i + 1;
    }
    assert mutator.values[..i] == mutator.values;
  }

  /** Names are unique, value lists non-empty and strictly increasing, and the one
      instance-count mutator, if any, sits at `instancedIdx` (MAX_U32 when there is none). */
  predicate MutatorsValid(ms: seq<Mutator>, instancedIdx: U32)
  {
    && (forall i, j :: 0 <= i < j < |ms| ==> ms[i].name != ms[j].name)
    && (forall i :: 0 <= i < |ms| ==> |ms[i].values| > 0 && StrictlyIncreasing(ms[i].values))
    && (instancedIdx == MAX_U32 || instancedIdx < |ms|)
    && (forall i :: 0 <= i < |ms| ==> (ms[i].instanceCount <==> i == instancedIdx))
  }

  function FindMutator(ms: seq<Mutator>, name: string): (r: Option<nat>)
    ensures r.Some? ==> r.value < |ms| && ms[r.value].name == name
    ensures r.None? ==> forall i :: 0 <= i < |ms| ==> ms[i].name != name
  {
    if ms == [] then None
    else if ms[0].name == name then Some(0)
    else match FindMutator(ms[1..], name)
      case None => None
      case Some(k) => Some(k + 1)
  }

  /** At most one mutator drives instancing. */
  lemma AtMostOneInstanceCount(ms: seq<Mutator>, instancedIdx: U32, i: nat, j: nat)
    requires MutatorsValid(ms, instancedIdx)
    requires i < |ms| && j < |ms| && ms[i].instanceCount && ms[j].instanceCount
    ensures i == j
  {
  }

  /** A mutation vector: one declared value per mutator, in declaration order. */
  predicate ValidMutation(ms: seq<Mutator>, mutation: seq<int>)
  {
    |mutation| == |ms| && forall i :: 0 <= i < |ms| ==> mutation[i] in ms[i].values
  }

  // ---------------------------------------------------------------------------
  // Inputs

  /** A declared input: `idx` is its position among the inputs, `specConstId` is
      MAX_U32 unless it was declared `const`. */
  datatype Input = Input(
    name: string,
    idx: U32,
    specConstId: U32,
    instanced: bool,
    dataType: ShaderVariableDataType)
  {
    predicate IsConstant()
    {
      specConstId != MAX_U32
    }

    /** `isConstant` called with an out-parameter for the constant id. */
    function ConstantQuery(): (r: (bool, U32))
      ensures r.1 == specConstId
      ensures r.0 <==> r.1 != MAX_U32
    {
      (IsConstant(), specConstId)
    }

    predicate IsTexture()
    {
      TEXTURE_FIRST.Ordinal() <= dataType.Ordinal() <= TEXTURE_LAST.Ordinal()
    }

    predicate IsSampler()
    {
      dataType == SAMPLER
    }

    predicate InUbo()
    {
      !IsConstant() && !IsTexture() && !IsSampler()
    }
  }

  /** The texture range of the enumeration is exactly the seven texture kinds. */
  lemma TextureRangeIsTextureKinds(input: Input)
    ensures input.IsTexture() <==>
      input.dataType in {TEXTURE_1D, TEXTURE_1D_ARRAY, TEXTURE_2D, TEXTURE_2D_ARRAY,
                         TEXTURE_3D, TEXTURE_CUBE, TEXTURE_CUBE_ARRAY}
  {
  }

  /** Textures and samplers are disjoint, and an input is in the uniform block exactly
      when it is none of spec constant, texture and sampler. */
  lemma ClassificationPartition(input: Input)
    ensures !(input.IsTexture() && input.IsSampler())
    ensures input.InUbo() <==> !(input.IsConstant() || input.IsTexture() || input.IsSampler())
    ensures input.InUbo() ==> input.dataType != SAMPLER && !(TEXTURE_FIRST.Ordinal() <= input.dataType.Ordinal() <= TEXTURE_LAST.Ordinal())
  {
  }

  /** Number of spec constants among `ins`. */
  function CountConstants(ins: seq<Input>): nat
  {
    if ins == [] then 0
    else CountConstants(ins[..|ins| - 1]) + (if ins[|ins| - 1].IsConstant() then 1 else 0)
  }

  /** Indices are the dense range 0..N-1 in declaration order, names are unique, every
      input has a type, a spec constant's id is the number of spec constants declared
      before it, spec constants are never instanced, and `specConstIdx` counts them. */
  predicate InputsValid(ins: seq<Input>, specConstIdx: U32)
  {
    && |ins| <= MAX_SHADER_PROGRAM_INPUT_VARIABLES
    && (forall i :: 0 <= i < |ins| ==> ins[i].idx == i)
    && (forall i, j :: 0 <= i < j < |ins| ==> ins[i].name != ins[j].name)
    && (forall i :: 0 <= i < |ins| ==> ins[i].dataType != NONE)
    && (forall i :: 0 <= i < |ins| ==> ins[i].IsConstant() ==> !ins[i].instanced)
    && (forall i :: 0 <= i < |ins| ==> ins[i].IsConstant() ==> ins[i].specConstId == CountConstants(ins[..i]))
    && specConstIdx == CountConstants(ins)
    && specConstIdx <= |ins|
  }

  function FindInput(ins: seq<Input>, name: string): (r: Option<nat>)
    ensures r.Some? ==> r.value < |ins| && ins[r.value].name == name
    ensures r.None? ==> forall i :: 0 <= i < |ins| ==> ins[i].name != name
  {
    if ins == [] then None
    else if ins[0].name == name then Some(0)
    else match FindInput(ins[1..], name)
      case None => None
      case Some(k) => Some(k + 1)
  }

  lemma {:induction false} CountConstantsMonotone(ins: seq<Input>, i: nat, j: nat)
    requires i < j <= |ins|
    ensures CountConstants(ins[..i]) + (if ins[i].IsConstant() then 1 else 0) <= CountConstants(ins[..j])
    decreases j
  {
    assert ins[..j][..j - 1] == ins[..j - 1];
    if j == i + 1 {
    } else {
      CountConstantsMonotone(ins, i, j - 1);
    }
  }

  lemma {:induction false} CountConstantsBound(ins: seq<Input>)
    ensures CountConstants(ins) <= |ins|
  {
    if ins != [] {
      CountConstantsBound(ins[..|ins| - 1]);
    }
  }

  /** Spec-constant ids are handed out in declaration order: distinct, increasing with
      the declaration position, and all below the parser's spec-constant counter. */
  lemma ConstantIdsSequential(ins: seq<Input>, specConstIdx: U32, i: nat, j: nat)
    requires InputsValid(ins, specConstIdx)
    requires i < j < |ins| && ins[i].IsConstant() && ins[j].IsConstant()
    ensures ins[i].specConstId < ins[j].specConstId < specConstIdx
  {
    CountConstantsMonotone(ins, i, j);
    CountConstantsMonotone(ins, j, |ins|);
    assert ins[..|ins|] == ins;
  }

  // ---------------------------------------------------------------------------
  // Mutation rewrite rules

  /** One assignment of a rule: mutator `mutatorIndex` goes from `valueFrom` to `valueTo`. */
  datatype Record = Record(mutatorIndex: U32, valueFrom: MutatorValue, valueTo: MutatorValue)

  /** `Record::operator!=`. */
  function RecordsDiffer(a: Record, b: Record): (r: bool)
    ensures r <==> a != b
  {
    !(a.mutatorIndex == b.mutatorIndex && a.valueFrom == b.valueFrom && a.valueTo == b.valueTo)
  }

  datatype MutationRewrite = MutationRewrite(records: seq<Record>)

  predicate RecordValid(r: Record, ms: seq<Mutator>)
  {
    r.mutatorIndex < |ms| && r.valueFrom in ms[r.mutatorIndex].values && r.valueTo in ms[r.mutatorIndex].values
  }

  /** A rule names declared mutators and values and lists its records in mutator
      declaration order without repeats. A rule whose records all keep their value is
      well formed: the grammar accepts it, and it matches without changing anything. */
  predicate RewriteValid(rw: MutationRewrite, ms: seq<Mutator>)
  {
    && |rw.records| > 0
    && (forall k :: 0 <= k < |rw.records| ==> RecordValid(rw.records[k], ms))
    && (forall k, l :: 0 <= k < l < |rw.records| ==> rw.records[k].mutatorIndex < rw.records[l].mutatorIndex)
  }

  predicate RewritesValid(rws: seq<MutationRewrite>, ms: seq<Mutator>)
  {
    && (forall i :: 0 <= i < |rws| ==> RewriteValid(rws[i], ms))
    && (forall i, j :: 0 <= i < j < |rws| ==> rws[i] != rws[j])
  }

  /** Declaring one more mutator keeps every existing rule valid. */
  lemma RewritesValidAfterNewMutator(rws: seq<MutationRewrite>, ms: seq<Mutator>, m: Mutator)
    requires RewritesValid(rws, ms)
    ensures RewritesValid(rws, ms + [m])
  {
    forall i | 0 <= i < |rws|
      ensures RewriteValid(rws[i], ms + [m])
    {
      forall k | 0 <= k < |rws[i].records|
        ensures RecordValid(rws[i].records[k], ms + [m])
      {
        assert RecordValid(rws[i].records[k], ms);
      }
    }
  }
}

=== FILE: parser.dfy ===
/** `ShaderProgramParser`: the line-oriented state machine that reads a shader program
    and its includes, collects mutators, inputs and rewrite rules, and then produces a
    variant per mutation. */
module Parser {
  import opened Common
  import opened Text
  import opened ParserModel
  import opened Rewriting
  import opened Pragmas
  import opened Conditions
  import opened Layout
  import opened Variants

  /** The stages in the order of the per-stage arrays. */
  const ALL_STAGES: seq<ShaderType> :=
    [Vertex, TessellationControl, TessellationEvaluation, Geometry, Fragment, Compute]

  /** The names `#pragma anki` accepts. */
  const PRAGMA_DIRECTIVES: set<string> :=
    {"mutator", "input", "start", "end", "descriptor_set", "rewrite_mutation"}

  /** A name that can be written back into a generated line and read again. */
  predicate Declarable(name: string)
  {
    IsToken(name) && !TokenIsComment(name)
  }

  lemma DirectiveTokensDeclarable(line: string)
    ensures forall t :: t in StripComments(Tokens(line)) ==> Declarable(t)
  {
    TokensShape(line);
  }

  /** Every field the parser changes while it reads a program. */
  datatype ParserState = ParserState(
    codeLines: seq<string>,
    globalsLines: seq<string>,
    uboStructLines: seq<string>,
    codeSource: string,
    globalsSource: string,
    uboSource: string,
    mutators: seq<Mutator>,
    inputs: seq<Input>,
    mutationRewrites: seq<MutationRewrite>,
    shaderTypes: set<ShaderType>,
    insideShader: bool,
    descriptorSet: U32,
    setDeclared: bool,
    instancedMutatorIdx: U32,
    specConstIdx: U32,
    foundAtLeastOneInstancedInput: bool,
    onceFiles: set<string>)

  /** The state of a parser that has read nothing. */
  function InitialState(): (s: ParserState)
    ensures !s.insideShader && s.shaderTypes == {} && s.descriptorSet == 0
    ensures s.instancedMutatorIdx == MAX_U32 && s.specConstIdx == 0
    ensures s.mutators == [] && s.inputs == [] && s.mutationRewrites == []
  {
    ParserState([], [], [], "", "", "", [], [], [], {}, false, 0, false, MAX_U32, 0, false, {})
  }

  /** What the parser keeps true between lines. */
  predicate StateValid(s: ParserState)
  {
    && MutatorsValid(s.mutators, s.instancedMutatorIdx)
    && |s.mutators| < MAX_U32
    && InputsValid(s.inputs, s.specConstIdx)
    && RewritesValid(s.mutationRewrites, s.mutators)
    && StagesCompatible(s.shaderTypes)
    && (forall i :: 0 <= i < |s.mutators| ==> Declarable(s.mutators[i].name))
    && (forall i :: 0 <= i < |s.inputs| ==> Declarable(s.inputs[i].name))
    && (s.foundAtLeastOneInstancedInput <==> exists i :: 0 <= i < |s.inputs| && s.inputs[i].instanced)
    && (!s.setDeclared ==> s.descriptorSet == 0)
  }

  lemma InitialStateValid()
    ensures StateValid(InitialState())
  {
  }

  /** Reading more lines only adds: declarations, buffered lines, stages and files. */
  predicate Extends(a: ParserState, b: ParserState)
  {
    && a.mutators <= b.mutators
    && a.inputs <= b.inputs
    && a.mutationRewrites <= b.mutationRewrites
    && a.codeLines <= b.codeLines
    && a.globalsLines <= b.globalsLines
    && a.uboStructLines <= b.uboStructLines
    && a.shaderTypes <= b.shaderTypes
    && a.onceFiles <= b.onceFiles
  }

  lemma PrefixTransitive<T>(a: seq<T>, b: seq<T>, c: seq<T>)
    requires a <= b && b <= c
    ensures a <= c
  {
    assert c[..|a|] == c[..|b|][..|a|];
  }

  lemma ExtendsTransitive(a: ParserState, b: ParserState, c: ParserState)
    requires Extends(a, b) && Extends(b, c)
    ensures Extends(a, c)
  {
    PrefixTransitive(a.mutators, b.mutators, c.mutators);
    PrefixTransitive(a.inputs, b.inputs, c.inputs);
    PrefixTransitive(a.mutationRewrites, b.mutationRewrites, c.mutationRewrites);
    PrefixTransitive(a.codeLines, b.codeLines, c.codeLines);
    PrefixTransitive(a.globalsLines, b.globalsLines, c.globalsLines);
    PrefixTransitive(a.uboStructLines, b.uboStructLines, c.uboStructLines);
  }

  // ---------------------------------------------------------------------------
  // State transitions, one per kind of line

  /** A line of program text goes to the code of the current stage, or to the globals
      outside one. */
  function WithLine(s: ParserState, line: string): (r: ParserState)
    ensures Extends(s, r) && (StateValid(s) ==> StateValid(r))
  {
    if s.insideShader then s.(codeLines := s.codeLines + [line])
    else s.(globalsLines := s.globalsLines + [line])
  }

  function DeclareMutator(s: ParserState, m: Mutator): ParserState
    requires |s.mutators| < MAX_U32
  {
    s.(mutators := s.mutators + [m],
       instancedMutatorIdx := InstancedIdxAfter(s.instancedMutatorIdx, m, |s.mutators|))
  }

  /** An accepted `mutator` directive keeps the parser state valid. */
  lemma MutatorStepKeepsValid(s: ParserState, args: seq<string>)
    requires StateValid(s) && |s.mutators| + 1 < MAX_U32
    requires forall t :: t in args ==> Declarable(t)
    requires MutatorDirective(args, s.mutators, s.instancedMutatorIdx).Ok?
    ensures var s' := DeclareMutator(s, MutatorDirective(args, s.mutators, s.instancedMutatorIdx).value);
      StateValid(s') && Extends(s, s')
  {
    var m := MutatorDirective(args, s.mutators, s.instancedMutatorIdx).value;
    var s' := DeclareMutator(s, m);
    RewritesValidAfterNewMutator(s.mutationRewrites, s.mutators, m);
    assert m.name in args;
    forall i | 0 <= i < |s'.mutators|
      ensures Declarable(s'.mutators[i].name)
    {
      if i < |s.mutators| {
        assert s'.mutators[i] == s.mutators[i];
      }
    }
  }

  /** The line declaring a uniform-block member. */
  function StructMemberLine(input: Input): string
  {
    DataTypeName(input.dataType) + " " + input.name + ";"
  }

  /** The input joins the declared inputs; a specialization constant takes the next
      constant id. */
  function AddInput(s: ParserState, input: Input): ParserState
    requires s.specConstIdx < MAX_U32
  {
    s.(inputs := s.inputs + [input],
       specConstIdx := s.specConstIdx + (if input.IsConstant() then 1 else 0),
       foundAtLeastOneInstancedInput := s.foundAtLeastOneInstancedInput || input.instanced)
  }

  /** A uniform-block input adds its member to the block's struct. */
  function WithMember(s: ParserState, input: Input): (r: ParserState)
    ensures Extends(s, r) && (StateValid(s) ==> StateValid(r))
  {
    if input.InUbo() then s.(uboStructLines := s.uboStructLines + [StructMemberLine(input)]) else s
  }

  /** An input is recorded, its member goes to the block's struct when it lives in the
      uniform block, and its marker to the current buffer. */
  function DeclareInput(s: ParserState, input: Input): ParserState
    requires s.specConstIdx < MAX_U32
  {
    WithLine(WithMember(AddInput(s, input), input), MarkerLine(input.name))
  }

  /** Recording an input that keeps the input list valid keeps the parser state valid. */
  lemma AddInputKeepsValid(s: ParserState, input: Input)
    requires StateValid(s) && s.specConstIdx < MAX_U32 && Declarable(input.name)
    requires InputsValid(s.inputs + [input], s.specConstIdx + (if input.IsConstant() then 1 else 0))
    ensures StateValid(AddInput(s, input)) && Extends(s, AddInput(s, input))
  {
    var s' := AddInput(s, input);
    assert s'.inputs == s.inputs + [input];
    forall i | 0 <= i < |s'.inputs|
      ensures Declarable(s'.inputs[i].name)
    {
      if i < |s.inputs| {
        assert s'.inputs[i] == s.inputs[i];
      }
    }
    if s'.foundAtLeastOneInstancedInput {
      if input.instanced {
        assert s'.inputs[|s.inputs|].instanced;
      } else {
        var i :| 0 <= i < |s.inputs| && s.inputs[i].instanced;
        assert s'.inputs[i].instanced;
      }
    } else {
      forall i | 0 <= i < |s'.inputs|
        ensures !s'.inputs[i].instanced
      {
        if i < |s.inputs| {
          assert s'.inputs[i] == s.inputs[i];
        }
      }
    }
  }

  /** An accepted `input` directive keeps the parser state valid. */
  lemma InputStepKeepsValid(s: ParserState, args: seq<string>)
    requires StateValid(s)
    requires forall t :: t in args ==> Declarable(t)
    requires InputDirective(args, s.inputs, s.specConstIdx).Ok?
    ensures s.specConstIdx < MAX_U32
    ensures var s' := DeclareInput(s, InputDirective(args, s.inputs, s.specConstIdx).value);
      StateValid(s') && Extends(s, s')
  {
    var input := InputDirective(args, s.inputs, s.specConstIdx).value;
    assert input.name in args;
    AddInputKeepsValid(s, input);
    var s1 := AddInput(s, input);
    var s2 := WithMember(s1, input);
    ExtendsTransitive(s, s1, s2);
    ExtendsTransitive(s, s2, WithLine(s2, MarkerLine(input.name)));
  }

  function EnterStage(s: ParserState, t: ShaderType): ParserState
  {
    s.(insideShader := true,
       shaderTypes := s.shaderTypes + {t},
       codeLines := s.codeLines + ["#ifdef " + StageMacro(t)])
  }

  function LeaveStage(s: ParserState): ParserState
  {
    s.(insideShader := false, codeLines := s.codeLines + ["#endif"])
  }

  function DeclareDescriptorSet(s: ParserState, index: U32): ParserState
  {
    s.(descriptorSet := index, setDeclared := true)
  }

  function DeclareRewrite(s: ParserState, rw: MutationRewrite): ParserState
  {
    s.(mutationRewrites := s.mutationRewrites + [rw])
  }

  function MarkOnce(s: ParserState, file: string): ParserState
  {
    s.(onceFiles := s.onceFiles + {file})
  }

  /** After the last line: each buffer becomes one source text. */
  function Finish(s: ParserState): (r: ParserState)
    ensures StateValid(s) ==> StateValid(r)
  {
    s.(codeSource := Join(s.codeLines, '\n'),
       globalsSource := Join(s.globalsLines, '\n'),
       uboSource := Join(s.uboStructLines, '\n'))
  }


  // ---------------------------------------------------------------------------
  // The whole parse as a function of the file system

  /** The status of a step of the parse and the parser state after it. */
  datatype Outcome = Outcome(status: Status, state: ParserState)

  /** A `mutator` directive; refused outright once the mutator count is at its limit. */
  function MutatorOutcome(s: ParserState, args: seq<string>, file: string, lineNo: nat): (r: Outcome)
    requires StateValid(s)
    requires forall t :: t in args ==> Declarable(t)
    ensures StateValid(r.state) && Extends(s, r.state)
    ensures r.status.Failed? ==> r.state == s && r.status.file == file && r.status.line == lineNo
  {
    if |s.mutators| + 1 >= MAX_U32 then Outcome(Failed(MalformedPragma, file, lineNo), s)
    else match MutatorDirective(args, s.mutators, s.instancedMutatorIdx)
      case Err(e) => Outcome(Failed(e, file, lineNo), s)
      case Ok(m) =>
        MutatorStepKeepsValid(s, args);
        Outcome(Success, DeclareMutator(s, m))
  }

  /** An `input` directive. */
  function InputOutcome(s: ParserState, args: seq<string>, file: string, lineNo: nat): (r: Outcome)
    requires StateValid(s)
    requires forall t :: t in args ==> Declarable(t)
    ensures StateValid(r.state) && Extends(s, r.state)
    ensures r.status.Failed? ==> r.state == s && r.status.file == file && r.status.line == lineNo
  {
    match InputDirective(args, s.inputs, s.specConstIdx)
    case Err(e) => Outcome(Failed(e, file, lineNo), s)
    case Ok(input) =>
      InputStepKeepsValid(s, args);
      Outcome(Success, DeclareInput(s, input))
  }

  /** A `start`, `end` or `descriptor_set` directive. */
  function StageOutcome(s: ParserState, name: string, args: seq<string>, file: string, lineNo: nat): (r: Outcome)
    requires StateValid(s)
    requires name == "start" || name == "end" || name == "descriptor_set"
    ensures StateValid(r.state) && Extends(s, r.state)
    ensures r.status.Failed? ==> r.state == s && r.status.file == file && r.status.line == lineNo
  {
    if name == "start" then
      match StartDirective(args, s.insideShader, s.shaderTypes)
      case Err(e) => Outcome(Failed(e, file, lineNo), s)
      case Ok(t) => Outcome(Success, EnterStage(s, t))
    else if name == "end" then
      if !s.insideShader then Outcome(Failed(StageNestingError, file, lineNo), s)
      else if args != [] then Outcome(Failed(MalformedPragma, file, lineNo), s)
      else Outcome(Success, LeaveStage(s))
    else
      match DescriptorSetDirective(args, s.descriptorSet, s.setDeclared)
      case Err(e) => Outcome(Failed(e, file, lineNo), s)
      case Ok(index) => Outcome(Success, DeclareDescriptorSet(s, index))
  }

  /** A `rewrite_mutation` directive. */
  function RewriteOutcome(s: ParserState, args: seq<string>, file: string, lineNo: nat): (r: Outcome)
    requires StateValid(s)
    ensures StateValid(r.state) && Extends(s, r.state)
    ensures r.status.Failed? ==> r.state == s && r.status.file == file && r.status.line == lineNo
  {
    match RewriteDirective(args, s.mutators, s.mutationRewrites)
    case Err(e) => Outcome(Failed(e, file, lineNo), s)
    case Ok(rw) => Outcome(Success, DeclareRewrite(s, rw))
  }

  /** One `#pragma anki` directive (`ts` starts at its name): the named directive's check
      decides, and a directive that is refused leaves the state as it was. */
  function AnkiStep(s: ParserState, ts: seq<string>, file: string, lineNo: nat): (r: Outcome)
    requires StateValid(s)
    requires forall t :: t in ts ==> Declarable(t)
    ensures StateValid(r.state) && Extends(s, r.state)
    ensures r.status.Failed? ==> r.state == s && r.status.file == file && r.status.line == lineNo
    ensures ts == [] || ts[0] !in PRAGMA_DIRECTIVES ==> r == Outcome(Failed(MalformedPragma, file, lineNo), s)
  {
    if ts == [] then Outcome(Failed(MalformedPragma, file, lineNo), s)
    else
      var args := ts[1..];
      assert forall t :: t in args ==> t in ts;
      if ts[0] == "mutator" then MutatorOutcome(s, args, file, lineNo)
      else if ts[0] == "input" then InputOutcome(s, args, file, lineNo)
      else if ts[0] == "start" || ts[0] == "end" || ts[0] == "descriptor_set" then
        StageOutcome(s, ts[0], args, file, lineNo)
      else if ts[0] == "rewrite_mutation" then RewriteOutcome(s, args, file, lineNo)
      else Outcome(Failed(MalformedPragma, file, lineNo), s)
  }

  /** `AnkiStep` by directive name. */
  lemma AnkiStepByName(s: ParserState, ts: seq<string>, file: string, lineNo: nat)
    requires StateValid(s)
    requires forall t :: t in ts ==> Declarable(t)
    ensures ts != [] && ts[0] == "mutator" ==> AnkiStep(s, ts, file, lineNo) == MutatorOutcome(s, ts[1..], file, lineNo)
    ensures ts != [] && ts[0] == "input" ==> AnkiStep(s, ts, file, lineNo) == InputOutcome(s, ts[1..], file, lineNo)
    ensures ts != [] && ts[0] in {"start", "end", "descriptor_set"} ==>
      AnkiStep(s, ts, file, lineNo) == StageOutcome(s, ts[0], ts[1..], file, lineNo)
    ensures ts != [] && ts[0] == "rewrite_mutation" ==>
      AnkiStep(s, ts, file, lineNo) == RewriteOutcome(s, ts[1..], file, lineNo)
  {
  }

  /** One line of a file, with the file's `#pragma once` flag before and after it. */
  function LineStep(files: map<string, string>, s: ParserState, line: string, file: string, lineNo: nat,
                    once: bool, depth: nat): (r: (Outcome, bool))
    requires depth <= MAX_INCLUDE_DEPTH
    decreases MAX_INCLUDE_DEPTH - depth, 1, 0
  {
    var ts := StripComments(Tokens(line));
    DirectiveTokensDeclarable(line);
    if |ts| > 0 && ts[0] == "#include" then (IncludeStep(files, s, ts[1..], file, lineNo, depth), once)
    else if |ts| >= 2 && ts[0] == "#pragma" && ts[1] == "once" then
      if |ts| != 2 then (Outcome(Failed(MalformedPragma, file, lineNo), s), once)
      else if once then (Outcome(Failed(DuplicatePragmaOnce, file, lineNo), s), once)
      else (Outcome(Success, MarkOnce(s, file)), true)
    else if |ts| >= 2 && ts[0] == "#pragma" && ts[1] == "anki" then
      assert forall t :: t in ts[2..] ==> t in ts;
      // Every state a parse reaches keeps the parser's invariant (`LineStepKeepsValid`),
      // so the refusal of an invalid state is never taken by a parse.
      (if StateValid(s) then AnkiStep(s, ts[2..], file, lineNo) else Outcome(Failed(MalformedPragma, file, lineNo), s), once)
    else (Outcome(Success, WithLine(s, line)), once)
  }

  /** An `#include` line: the named file is read one level deeper. */
  function IncludeStep(files: map<string, string>, s: ParserState, args: seq<string>, file: string, lineNo: nat,
                       depth: nat): (r: Outcome)
    requires depth <= MAX_INCLUDE_DEPTH
    decreases MAX_INCLUDE_DEPTH - depth, 0, 0
  {
    match IncludeTarget(args)
    case None => Outcome(Failed(MalformedPragma, file, lineNo), s)
    case Some(target) =>
      if depth + 1 > MAX_INCLUDE_DEPTH then Outcome(Failed(IncludeTooDeep, file, lineNo), s)
      else if target !in files then Outcome(Failed(IncludeNotFound, file, lineNo), s)
      else FileStep(files, s, target, depth + 1)
  }

  /** A whole file: skipped when its `#pragma once` was met before, otherwise its lines in
      order, stopping at the first that fails. */
  function FileStep(files: map<string, string>, s: ParserState, name: string, depth: nat): (r: Outcome)
    requires depth <= MAX_INCLUDE_DEPTH
    decreases MAX_INCLUDE_DEPTH - depth, 3, 0
  {
    if name in s.onceFiles then Outcome(Success, s)
    else if name !in files then Outcome(Failed(IncludeNotFound, name, 0), s)
    else LinesStep(files, s, SplitLines(files[name]), 0, false, name, depth)
  }

  /** The lines of file `name` from line `i` on (line numbers count from 1). */
  function LinesStep(files: map<string, string>, s: ParserState, lines: seq<string>, i: nat, once: bool,
                     name: string, depth: nat): (r: Outcome)
    requires depth <= MAX_INCLUDE_DEPTH && i <= |lines|
    decreases MAX_INCLUDE_DEPTH - depth, 2, |lines| - i
  {
    if i == |lines| then Outcome(Success, s)
    else
      var (o, once') := LineStep(files, s, lines[i], name, i + 1, once, depth);
      if o.status.Failed? then o
      else LinesStep(files, o.state, lines, i + 1, once', name, depth)
  }

  /** One line of `LinesStep`, for the loop that reads a file: a failing line ends the
      file with its outcome, any other line leaves the rest of the file to read. */
  lemma LinesStepAdvance(files: map<string, string>, s: ParserState, s': ParserState, lines: seq<string>,
                         line: string, lineNo: nat, once: bool, once': bool, st: Status, name: string, depth: nat)
    requires depth <= MAX_INCLUDE_DEPTH && 0 < lineNo <= |lines| && lines[lineNo - 1] == line
    requires (Outcome(st, s'), once') == LineStep(files, s, line, name, lineNo, once, depth)
    ensures st.Failed? ==> LinesStep(files, s, lines, lineNo - 1, once, name, depth) == Outcome(st, s')
    ensures !st.Failed? ==>
      LinesStep(files, s, lines, lineNo - 1, once, name, depth) == LinesStep(files, s', lines, lineNo, once', name, depth)
  {
  }

  /** A file that is read, neither skipped nor missing, is its lines from the first. */
  lemma FileStepEnters(files: map<string, string>, s: ParserState, name: string, depth: nat)
    requires depth <= MAX_INCLUDE_DEPTH && name !in s.onceFiles && name in files
    ensures FileStep(files, s, name, depth) == LinesStep(files, s, SplitLines(files[name]), 0, false, name, depth)
  {
  }

  /** Past the last line nothing is left to read. */
  lemma LinesStepDone(files: map<string, string>, s: ParserState, lines: seq<string>, once: bool, name: string,
                      depth: nat)
    requires depth <= MAX_INCLUDE_DEPTH
    ensures LinesStep(files, s, lines, |lines|, once, name, depth) == Outcome(Success, s)
  {
  }

  /** Reading a line only adds to the parser state: declarations, buffered lines, stages
      and `#pragma once` files are kept. */
  lemma {:induction false} LineStepExtends(files: map<string, string>, s: ParserState, line: string, file: string,
                                           lineNo: nat, once: bool, depth: nat)
    requires depth <= MAX_INCLUDE_DEPTH
    ensures Extends(s, LineStep(files, s, line, file, lineNo, once, depth).0.state)
    decreases MAX_INCLUDE_DEPTH - depth, 1, 0
  {
    var ts := StripComments(Tokens(line));
    var r := LineStep(files, s, line, file, lineNo, once, depth).0;
    if |ts| > 0 && ts[0] == "#include" {
      IncludeStepExtends(files, s, ts[1..], file, lineNo, depth);
    } else {
      DirectiveTokensDeclarable(line);
      assert |ts| >= 2 ==> forall t :: t in ts[2..] ==> t in ts;
      assert || r.state == s || r.state == MarkOnce(s, file) || r.state == WithLine(s, line)
             || (StateValid(s) && |ts| >= 2 && r == AnkiStep(s, ts[2..], file, lineNo));
    }
  }

  /** Reading an included file only adds to the parser state. */
  lemma {:induction false} IncludeStepExtends(files: map<string, string>, s: ParserState, args: seq<string>, file: string,
                                              lineNo: nat, depth: nat)
    requires depth <= MAX_INCLUDE_DEPTH
    ensures Extends(s, IncludeStep(files, s, args, file, lineNo, depth).state)
    decreases MAX_INCLUDE_DEPTH - depth, 0, 0
  {
    match IncludeTarget(args)
    case None =>
    case Some(target) =>
      if depth + 1 <= MAX_INCLUDE_DEPTH && target in files {
        FileStepExtends(files, s, target, depth + 1);
      }
  }

  /** Reading a file only adds to the parser state. */
  lemma {:induction false} FileStepExtends(files: map<string, string>, s: ParserState, name: string, depth: nat)
    requires depth <= MAX_INCLUDE_DEPTH
    ensures Extends(s, FileStep(files, s, name, depth).state)
    decreases MAX_INCLUDE_DEPTH - depth, 3, 0
  {
    if name !in s.onceFiles && name in files {
      LinesStepExtends(files, s, SplitLines(files[name]), 0, false, name, depth);
    }
  }

  lemma {:induction false} LinesStepExtends(files: map<string, string>, s: ParserState, lines: seq<string>, i: nat,
                                            once: bool, name: string, depth: nat)
    requires depth <= MAX_INCLUDE_DEPTH && i <= |lines|
    ensures Extends(s, LinesStep(files, s, lines, i, once, name, depth).state)
    decreases MAX_INCLUDE_DEPTH - depth, 2, |lines| - i
  {
    if i < |lines| {
      var (o, once') := LineStep(files, s, lines[i], name, i + 1, once, depth);
      LineStepExtends(files, s, lines[i], name, i + 1, once, depth);
      if !o.status.Failed? {
        LinesStepExtends(files, o.state, lines, i + 1, once', name, depth);
        ExtendsTransitive(s, o.state, LinesStep(files, o.state, lines, i + 1, once', name, depth).state);
      }
    }
  }

  /** Reading a line keeps the parser's invariant, so the fallback for an invalid state in
      `LineStep` is never taken by a parse that starts from a valid state. */
  lemma {:induction false} LineStepKeepsValid(files: map<string, string>, s: ParserState, line: string, file: string,
                                              lineNo: nat, once: bool, depth: nat)
    requires depth <= MAX_INCLUDE_DEPTH && StateValid(s)
    ensures StateValid(LineStep(files, s, line, file, lineNo, once, depth).0.state)
    decreases MAX_INCLUDE_DEPTH - depth, 1, 0
  {
    var ts := StripComments(Tokens(line));
    if |ts| > 0 && ts[0] == "#include" {
      IncludeStepKeepsValid(files, s, ts[1..], file, lineNo, depth);
    }
  }

  /** Reading an included file keeps the parser's invariant. */
  lemma {:induction false} IncludeStepKeepsValid(files: map<string, string>, s: ParserState, args: seq<string>,
                                                 file: string, lineNo: nat, depth: nat)
    requires depth <= MAX_INCLUDE_DEPTH && StateValid(s)
    ensures StateValid(IncludeStep(files, s, args, file, lineNo, depth).state)
    decreases MAX_INCLUDE_DEPTH - depth, 0, 0
  {
    match IncludeTarget(args)
    case None =>
    case Some(target) =>
      if depth + 1 <= MAX_INCLUDE_DEPTH && target in files {
        FileStepKeepsValid(files, s, target, depth + 1);
      }
  }

  /** Reading a file, includes included, keeps the parser's invariant. */
  lemma {:induction false} FileStepKeepsValid(files: map<string, string>, s: ParserState, name: string, depth: nat)
    requires depth <= MAX_INCLUDE_DEPTH && StateValid(s)
    ensures StateValid(FileStep(files, s, name, depth).state)
    decreases MAX_INCLUDE_DEPTH - depth, 3, 0
  {
    if name !in s.onceFiles && name in files {
      LinesStepKeepsValid(files, s, SplitLines(files[name]), 0, false, name, depth);
    }
  }

  lemma {:induction false} LinesStepKeepsValid(files: map<string, string>, s: ParserState, lines: seq<string>, i: nat,
                                               once: bool, name: string, depth: nat)
    requires depth <= MAX_INCLUDE_DEPTH && i <= |lines| && StateValid(s)
    ensures StateValid(LinesStep(files, s, lines, i, once, name, depth).state)
    decreases MAX_INCLUDE_DEPTH - depth, 2, |lines| - i
  {
    if i < |lines| {
      var (o, once') := LineStep(files, s, lines[i], name, i + 1, once, depth);
      LineStepKeepsValid(files, s, lines[i], name, i + 1, once, depth);
      if !o.status.Failed? {
        LinesStepKeepsValid(files, o.state, lines, i + 1, once', name, depth);
      }
    }
  }

  /** A whole program: its main file and includes, then the checks only the complete
      program allows, then the buffers joined into sources. */
  function ParseProgram(files: map<string, string>, fname: string): (r: Outcome)
    ensures StateValid(r.state)
    ensures r.status.Success? ==>
      && !r.state.insideShader
      && (r.state.foundAtLeastOneInstancedInput <==> r.state.instancedMutatorIdx != MAX_U32)
  {
    InitialStateValid();
    FileStepKeepsValid(files, InitialState(), fname, 0);
    var o := FileStep(files, InitialState(), fname, 0);
    if o.status.Failed? then o
    else if o.state.insideShader then Outcome(Failed(StageNestingError, fname, 0), o.state)
    else if o.state.foundAtLeastOneInstancedInput != (o.state.instancedMutatorIdx != MAX_U32) then
      Outcome(Failed(InstancedInputWithoutMutator, fname, 0), o.state)
    else Outcome(Success, Finish(o.state))
  }

  /** The `#define` lines that give every mutator its value in one variant. */
  function MutatorDefines(ms: seq<Mutator>, mutation: seq<MutatorValue>): (r: seq<string>)
    requires |mutation| == |ms|
    ensures |r| == |ms| && forall i :: 0 <= i < |ms| ==> r[i] == DefineLine(ms[i].name, mutation[i])
  {
    seq(|ms|, i requires 0 <= i < |ms| => DefineLine(ms[i].name, mutation[i]))
  }

  /** Union of two active-input masks. */
  function Or(a: seq<bool>, b: seq<bool>): (r: seq<bool>)
    requires |a| == |b|
    ensures |r| == |a| && forall i :: 0 <= i < |a| ==> (r[i] <==> a[i] || b[i])
  {
    seq(|a|, i requires 0 <= i < |a| => a[i] || b[i])
  }

  function NoInputs(): seq<bool> { seq(MAX_SHADER_PROGRAM_INPUT_VARIABLES, _ => false) }

  /** One stage's analysis: an error, or a mask with one bit per possible input. */
  predicate WellSized(r: Result<seq<bool>>)
  {
    r.Ok? ==> |r.value| == MAX_SHADER_PROGRAM_INPUT_VARIABLES
  }

  /** The stages' analyses combined in stage order: the first error, or the union of the
      masks. */
  function CombineResults(rs: seq<Result<seq<bool>>>): (r: Result<seq<bool>>)
    requires forall k :: 0 <= k < |rs| ==> WellSized(rs[k])
    ensures WellSized(r)
  {
    if rs == [] then Ok(NoInputs())
    else
      assert WellSized(rs[|rs| - 1]);
      match CombineResults(rs[..|rs| - 1])
      case Err(e) => Err(e)
      case Ok(m) =>
        match rs[|rs| - 1]
        case Err(e) => Err(e)
        case Ok(m2) => Ok(Or(m, m2))
  }

  /** The analyses of the given sources, in order. */
  function Analyses(srcs: seq<string>, ins: seq<Input>): (rs: seq<Result<seq<bool>>>)
    ensures |rs| == |srcs|
    ensures forall k :: 0 <= k < |srcs| ==> rs[k] == AnalyzeSource(srcs[k], ins) && WellSized(rs[k])
  {
    seq(|srcs|, k requires 0 <= k < |srcs| => AnalyzeSource(srcs[k], ins))
  }

  /** The active-input mask of a variant: the union over the sources of its stages. */
  function CombineMasks(srcs: seq<string>, ins: seq<Input>): (r: Result<seq<bool>>)
    ensures r.Ok? ==> |r.value| == MAX_SHADER_PROGRAM_INPUT_VARIABLES
  {
    CombineResults(Analyses(srcs, ins))
  }

  /** Every result that went into a combined mask is a mask. */
  lemma {:induction false} CombineResultsOkAt(rs: seq<Result<seq<bool>>>, k: nat)
    requires forall j :: 0 <= j < |rs| ==> WellSized(rs[j])
    requires CombineResults(rs).Ok? && k < |rs|
    ensures rs[k].Ok?
  {
    var n := |rs| - 1;
    if k < n {
      CombineResultsOkAt(rs[..n], k);
      assert rs[..n][k] == rs[k];
    }
  }

  /** A combination that fails fails with the error of the first result that is one. */
  lemma {:induction false} CombineResultsFirstError(rs: seq<Result<seq<bool>>>)
    requires forall j :: 0 <= j < |rs| ==> WellSized(rs[j])
    ensures CombineResults(rs).Err? ==>
      exists k :: 0 <= k < |rs| && rs[k].Err? && CombineResults(rs).kind == rs[k].kind &&
        (forall j :: 0 <= j < k ==> rs[j].Ok?)
  {
    if rs != [] {
      var n := |rs| - 1;
      var pre := rs[..n];
      assert forall j :: 0 <= j < n ==> pre[j] == rs[j];
      if CombineResults(pre).Err? {
        CombineResultsFirstError(pre);
        var k :| 0 <= k < n && pre[k].Err? && CombineResults(pre).kind == pre[k].kind &&
          (forall j :: 0 <= j < k ==> pre[j].Ok?);
        assert rs[k].Err?;
      } else {
        forall j | 0 <= j < n
          ensures rs[j].Ok?
        {
          CombineResultsOkAt(pre, j);
        }
      }
    }
  }

  /** A bit is set in a combined mask exactly when it is set in one of the masks. */
  lemma {:induction false} CombineResultsUnion(rs: seq<Result<seq<bool>>>, i: nat)
    requires forall j :: 0 <= j < |rs| ==> WellSized(rs[j])
    requires CombineResults(rs).Ok? && i < MAX_SHADER_PROGRAM_INPUT_VARIABLES
    ensures CombineResults(rs).value[i] <==> exists k :: 0 <= k < |rs| && rs[k].Ok? && rs[k].value[i]
  {
    if rs == [] {
      assert !NoInputs()[i];
    } else {
      var n := |rs| - 1;
      var pre := rs[..n];
      CombineResultsUnion(pre, i);
      assert CombineResults(rs).value[i] == (CombineResults(pre).value[i] || rs[n].value[i]);
      if CombineResults(pre).value[i] {
        var k :| 0 <= k < n && pre[k].Ok? && pre[k].value[i];
        assert rs[k] == pre[k];
      } else if !rs[n].value[i] {
        forall k | 0 <= k < |rs| && rs[k].Ok?
          ensures !rs[k].value[i]
        {
          if k < n {
            assert rs[k] == pre[k];
          }
        }
      }
    }
  }

  /** The variant's mask exists exactly when every stage's source is analysed without
      error. */
  lemma CombineMasksOk(srcs: seq<string>, ins: seq<Input>)
    ensures CombineMasks(srcs, ins).Ok? <==> forall k :: 0 <= k < |srcs| ==> AnalyzeSource(srcs[k], ins).Ok?
  {
    var rs := Analyses(srcs, ins);
    if CombineMasks(srcs, ins).Ok? {
      forall k | 0 <= k < |srcs|
        ensures AnalyzeSource(srcs[k], ins).Ok?
      {
        CombineResultsOkAt(rs, k);
      }
    } else {
      CombineResultsFirstError(rs);
    }
  }

  /** When a stage fails, the variant's mask fails with the error of the first stage that
      fails. */
  lemma CombineMasksFirstError(srcs: seq<string>, ins: seq<Input>)
    ensures CombineMasks(srcs, ins).Err? ==>
      exists k :: 0 <= k < |srcs| && AnalyzeSource(srcs[k], ins).Err? &&
        CombineMasks(srcs, ins).kind == AnalyzeSource(srcs[k], ins).kind &&
        (forall j :: 0 <= j < k ==> AnalyzeSource(srcs[j], ins).Ok?)
  {
    CombineResultsFirstError(Analyses(srcs, ins));
  }

  /** Input `i` is active in the variant exactly when it is active in some stage. */
  lemma CombineMasksUnion(srcs: seq<string>, ins: seq<Input>, i: nat)
    requires CombineMasks(srcs, ins).Ok? && i < MAX_SHADER_PROGRAM_INPUT_VARIABLES
    ensures CombineMasks(srcs, ins).value[i] <==>
      exists k :: 0 <= k < |srcs| && AnalyzeSource(srcs[k], ins).Ok? && AnalyzeSource(srcs[k], ins).value[i]
  {
    var rs := Analyses(srcs, ins);
    CombineResultsUnion(rs, i);
    if CombineMasks(srcs, ins).value[i] {
      var k :| 0 <= k < |rs| && rs[k].Ok? && rs[k].value[i];
      assert AnalyzeSource(srcs[k], ins) == rs[k];
    }
  }

  /** Only declared inputs are ever active, and an input is active only where the source
      of some stage reaches its marker. */
  lemma CombineMasksSound(srcs: seq<string>, ins: seq<Input>, i: nat)
    requires CombineMasks(srcs, ins).Ok? && i < MAX_SHADER_PROGRAM_INPUT_VARIABLES
    requires CombineMasks(srcs, ins).value[i]
    ensures i < |ins|
    ensures exists k :: 0 <= k < |srcs| && Marker(ins[i].name) in ClassifyAll(SplitLines(srcs[k]))
  {
    CombineMasksUnion(srcs, ins, i);
    var k :| 0 <= k < |srcs| && AnalyzeSource(srcs[k], ins).Ok? && AnalyzeSource(srcs[k], ins).value[i];
    AnalyzeSourceSound(srcs[k], ins, i);
  }

  // ---------------------------------------------------------------------------
  // Variant sources

  /** The source of stage `t` for one mutation: the mutator defines, the stage's macro,
      the globals, the uniform-block members and the code of all stages. */
  function StageSource(s: ParserState, t: ShaderType, mutation: seq<MutatorValue>): string
    requires |mutation| == |s.mutators|
  {
    Join(MutatorDefines(s.mutators, mutation) + [DefineLine(StageMacro(t), 1), s.globalsSource, s.uboSource, s.codeSource], '\n')
  }

  /** The sources, in stage order, of those of the first `n` stages that the program has. */
  function PresentSources(s: ParserState, n: nat, mutation: seq<MutatorValue>): seq<string>
    requires n <= |ALL_STAGES| && |mutation| == |s.mutators|
  {
    if n == 0 then []
    else
      var prev := PresentSources(s, n - 1, mutation);
      var t := ALL_STAGES[n - 1];
      if t in s.shaderTypes then prev + [StageSource(s, t, mutation)] else prev
  }

  lemma CombineMasksStep(srcs: seq<string>, src: string, ins: seq<Input>)
    ensures CombineMasks(srcs + [src], ins) ==
      match CombineMasks(srcs, ins)
      case Err(e) => Err(e)
      case Ok(m) =>
        match AnalyzeSource(src, ins)
        case Err(e) => Err(e)
        case Ok(m2) => Ok(Or(m, m2))
  {
    var rs := Analyses(srcs + [src], ins);
    assert rs[..|srcs|] == Analyses(srcs, ins);
    assert rs[|srcs|] == AnalyzeSource(src, ins);
  }

  /** The active inputs of a variant. */
  function VariantMask(s: ParserState, mutation: seq<MutatorValue>): Result<seq<bool>>
    requires |mutation| == |s.mutators|
  {
    CombineMasks(PresentSources(s, |ALL_STAGES|, mutation), s.inputs)
  }

  lemma RulesWithinMutators(s: ParserState)
    requires StateValid(s)
    ensures RulesWithin(s.mutationRewrites, |s.mutators|)
  {
    forall i | 0 <= i < |s.mutationRewrites|
      ensures RecordsWithin(s.mutationRewrites[i].records, |s.mutators|)
    {
      assert RewriteValid(s.mutationRewrites[i], s.mutators);
    }
  }

  // ---------------------------------------------------------------------------
  // Rewriting a mutation in place

  method RuleMatches(rw: MutationRewrite, mutation: array<MutatorValue>) returns (matches: bool)
    requires RecordsWithin(rw.records, mutation.Length)
    ensures matches <==> Matches(rw, mutation[..])
  {
    matches := true;
    var k := 0;
    while k < |rw.records|
      invariant 0 <= k <= |rw.records|
      invariant matches <==> forall l :: 0 <= l < k ==> mutation[rw.records[l].mutatorIndex] == rw.records[l].valueFrom
    {
      if mutation[rw.records[k].mutatorIndex] != rw.records[k].valueFrom {
        matches := false;
      }
      k := k + 1;
    }
  }

  /** Tries the rules in declaration order and applies the first that matches. */
  method ApplyFirstRuleInPlace(rws: seq<MutationRewrite>, mutation: array<MutatorValue>) returns (rewritten: bool)
    modifies mutation
    requires RulesWithin(rws, mutation.Length)
    ensures (mutation[..], rewritten) == ApplyFirstRule(rws, old(mutation[..]))
  {
    ghost var m0 := mutation[..];
    var i := 0;
    while i < |rws|
      invariant 0 <= i <= |rws|
      invariant mutation[..] == m0
      invariant ApplyFirstRule(rws[i..], m0) == ApplyFirstRule(rws, m0)
    {
      var rw := rws[i];
      assert rws[i..][0] == rw;
      var matches := RuleMatches(rw, mutation);
      if matches {
        ApplyRecordsInPlace(rw.records, mutation);
        return true;
      }
      assert rws[i..][1..] == rws[i + 1..];
      i := i + 1;
    }
    return false;
  }

  method ApplyRecordsInPlace(records: seq<Record>, mutation: array<MutatorValue>)
    modifies mutation
    requires RecordsWithin(records, mutation.Length)
    ensures mutation[..] == ApplyRecords(records, old(mutation[..]))
  {
    var k := 0;
    while k < |records|
      invariant 0 <= k <= |records|
      invariant ApplyRecords(records[k..], mutation[..]) == ApplyRecords(records, old(mutation[..]))
    {
      assert records[k..][1..] == records[k + 1..];
      mutation[records[k].mutatorIndex] := records[k].valueTo;
      k := k + 1;
    }
  }

  /** What a variant holds for stage `t`: its source, or nothing when the program has no
      such stage. */
  function StageSlot(state: ParserState, t: ShaderType, mutation: seq<MutatorValue>): string
    requires |mutation| == |state.mutators|
  {
    if t in state.shaderTypes then StageSource(state, t, mutation) else ""
  }

  /** The source of every stage, empty for a stage the program lacks. */
  method StageSources(state: ParserState, mutation: seq<MutatorValue>) returns (sources: seq<string>)
    requires |mutation| == |state.mutators|
    ensures |sources| == SHADER_TYPE_COUNT
    ensures forall j :: 0 <= j < SHADER_TYPE_COUNT ==> sources[j] == StageSlot(state, ALL_STAGES[j], mutation)
  {
    sources := [];
    var s := 0;
    while s < |ALL_STAGES|
      invariant 0 <= s <= |ALL_STAGES|
      invariant |sources| == s
      invariant forall j :: 0 <= j < s ==> sources[j] == StageSlot(state, ALL_STAGES[j], mutation)
    {
      var t := ALL_STAGES[s];
      var src := if t in state.shaderTypes then StageSource(state, t, mutation) else "";
      sources := sources + [src];
      s := s + 1;
    }
  }

  /** The union of the active inputs over the stages the program has; after a failed
      stage the others are not analysed. */
  method StageMasks(state: ParserState, mutation: seq<MutatorValue>, sources: seq<string>) returns (mask: Result<seq<bool>>)
    requires |mutation| == |state.mutators|
    requires |sources| == SHADER_TYPE_COUNT
    requires forall j :: 0 <= j < SHADER_TYPE_COUNT ==> sources[j] == StageSlot(state, ALL_STAGES[j], mutation)
    ensures mask == VariantMask(state, mutation)
  {
    mask := Ok(NoInputs());
    ghost var present: seq<string> := [];
    var s := 0;
    while s < |ALL_STAGES|
      invariant 0 <= s <= |ALL_STAGES|
      invariant present == PresentSources(state, s, mutation)
      invariant mask == CombineMasks(present, state.inputs)
    {
      var t := ALL_STAGES[s];
      if t in state.shaderTypes {
        assert present + [sources[s]] == PresentSources(state, s + 1, mutation) by {
          assert sources[s] == StageSlot(state, ALL_STAGES[s], mutation);
        }
        CombineMasksStep(present, sources[s], state.inputs);
        present := present + [sources[s]];
        if mask.Ok? {
          var stageMask := FindActiveInputVars(sources[s], state.inputs);
          mask := if stageMask.Err? then Err(stageMask.kind) else Ok(Or(mask.value, stageMask.value));
        }
      }
      s := s + 1;
    }
  }

  /** Uniform-block placement of the inputs, in declaration order. */
  method PlaceInputs(ins: seq<Input>, mask: seq<bool>) returns (infos: seq<BlockInfo>, size: nat)
    requires |ins| <= |mask|
    ensures (infos, size) == BlockLayout(ins, mask)
  {
    infos, size := [], 0;
    var i := 0;
    while i < |ins|
      invariant 0 <= i <= |ins|
      invariant (infos, size) == BlockLayout(ins[..i], mask)
    {
      assert ins[..i + 1][..i] == ins[..i];
      var input := ins[i];
      if Placed(input, mask[i]) {
        var offset := AlignUp(size, AlignOf(input.dataType));
        infos := infos + [BlockInfo(offset, SizeOf(input.dataType))];
        size := offset + SizeOf(input.dataType);
      } else {
        infos := infos + [UNSET_BLOCK];
      }
      i := i + 1;
    }
    assert ins[..i] == ins;
  }

  /** Texture and sampler bindings of the inputs, in declaration order. */
  method BindInputs(ins: seq<Input>, mask: seq<bool>) returns (binds: seq<int>, count: nat)
    requires |ins| <= |mask|
    ensures (binds, count) == Bindings(ins, mask)
  {
    binds, count := [], 0;
    var i := 0;
    while i < |ins|
      invariant 0 <= i <= |ins|
      invariant (binds, count) == Bindings(ins[..i], mask)
    {
      assert ins[..i + 1][..i] == ins[..i];
      if Bound(ins[i], mask[i]) {
        binds := binds + [count];
        count := count + 1;
      } else {
        binds := binds + [UNSET_BINDING];
      }
      i := i + 1;
    }
    assert ins[..i] == ins;
  }

  class ShaderProgramParser {
    const fname: string
    /** The file system as seen by the parser: file name to text. */
    const files: map<string, string>
    const pushConstSize: U32

    var codeLines: seq<string>
    var globalsLines: seq<string>
    var uboStructLines: seq<string>
    var codeSource: string
    var globalsSource: string
    var uboSource: string
    var mutators: seq<Mutator>
    var inputs: seq<Input>
    var mutationRewrites: seq<MutationRewrite>
    var shaderTypes: set<ShaderType>
    var insideShader: bool
    var descriptorSet: U32
    var setDeclared: bool
    var instancedMutatorIdx: U32
    var specConstIdx: U32
    var foundAtLeastOneInstancedInput: bool
    var onceFiles: set<string>

    function Snapshot(): ParserState
      reads this
    {
      ParserState(codeLines, globalsLines, uboStructLines, codeSource, globalsSource, uboSource,
        mutators, inputs, mutationRewrites, shaderTypes, insideShader, descriptorSet, setDeclared,
        instancedMutatorIdx, specConstIdx, foundAtLeastOneInstancedInput, onceFiles)
    }

    ghost predicate Valid()
      reads this
    {
      StateValid(Snapshot())
    }

    constructor (fname: string, files: map<string, string>, pushConstSize: U32)
      ensures Snapshot() == InitialState() && Valid()
      ensures this.fname == fname && this.files == files && this.pushConstSize == pushConstSize
    {
      this.fname := fname;
      this.files := files;
      this.pushConstSize := pushConstSize;
      codeLines := [];
      globalsLines := [];
      uboStructLines := [];
      codeSource := "";
      globalsSource := "";
      uboSource := "";
      mutators := [];
      inputs := [];
      mutationRewrites := [];
      shaderTypes := {};
      insideShader := false;
      descriptorSet := 0;
      setDeclared := false;
      instancedMutatorIdx := MAX_U32;
      specConstIdx := 0;
      foundAtLeastOneInstancedInput := false;
      onceFiles := {};
    }

    /** Appends a line to the code of the current stage, or to the globals outside one. */
    method PushLine(line: string)
      modifies this
      ensures Snapshot() == WithLine(old(Snapshot()), line)
    {
      if insideShader {
        codeLines := codeLines + [line];
      } else {
        globalsLines := globalsLines + [line];
      }
    }

    method RecordInput(input: Input)
      modifies this
      requires specConstIdx < MAX_U32
      ensures Snapshot() == AddInput(old(Snapshot()), input)
    {
      inputs := inputs + [input];
      specConstIdx := specConstIdx + (if input.IsConstant() then 1 else 0);
      foundAtLeastOneInstancedInput := foundAtLeastOneInstancedInput || input.instanced;
    }

    method PushStructMember(input: Input)
      modifies this
      ensures Snapshot() == WithMember(old(Snapshot()), input)
    {
      if input.InUbo() {
        uboStructLines := uboStructLines + [StructMemberLine(input)];
      }
    }

    method AppendMutator(m: Mutator)
      modifies this
      requires |mutators| < MAX_U32
      ensures Snapshot() == DeclareMutator(old(Snapshot()), m)
    {
      instancedMutatorIdx := InstancedIdxAfter(instancedMutatorIdx, m, |mutators|);
      mutators := mutators + [m];
    }

    method OpenStage(t: ShaderType)
      modifies this
      ensures Snapshot() == EnterStage(old(Snapshot()), t)
    {
      insideShader := true;
      shaderTypes := shaderTypes + {t};
      codeLines := codeLines + ["#ifdef " + StageMacro(t)];
    }

    method CloseStage()
      modifies this
      ensures Snapshot() == LeaveStage(old(Snapshot()))
    {
      insideShader := false;
      codeLines := codeLines + ["#endif"];
    }

    method SetDescriptorSet(index: U32)
      modifies this
      ensures Snapshot() == DeclareDescriptorSet(old(Snapshot()), index)
    {
      descriptorSet := index;
      setDeclared := true;
    }

    method AppendRewrite(rw: MutationRewrite)
      modifies this
      ensures Snapshot() == DeclareRewrite(old(Snapshot()), rw)
    {
      mutationRewrites := mutationRewrites + [rw];
    }

    method AddOnceFile(file: string)
      modifies this
      ensures Snapshot() == MarkOnce(old(Snapshot()), file)
    {
      onceFiles := onceFiles + {file};
    }

    method JoinSources()
      modifies this
      ensures Snapshot() == Finish(old(Snapshot()))
    {
      codeSource := Join(codeLines, '\n');
      globalsSource := Join(globalsLines, '\n');
      uboSource := Join(uboStructLines, '\n');
    }

    // -------------------------------------------------------------------------
    // Directive handlers

    method ParsePragmaMutator(args: seq<string>, file: string, lineNo: nat) returns (st: Status)
      modifies this
      requires Valid()
      requires forall t :: t in args ==> Declarable(t)
      ensures Valid() && Extends(old(Snapshot()), Snapshot())
      ensures old(|mutators|) + 1 >= MAX_U32 ==> st == Failed(MalformedPragma, file, lineNo) && Snapshot() == old(Snapshot())
      ensures old(|mutators|) + 1 < MAX_U32 ==>
        var r := MutatorDirective(args, old(mutators), old(instancedMutatorIdx));
        if r.Err? then st == Failed(r.kind, file, lineNo) && Snapshot() == old(Snapshot())
        else st == Success && Snapshot() == DeclareMutator(old(Snapshot()), r.value)
    {
      if |mutators| + 1 >= MAX_U32 {
        return Failed(MalformedPragma, file, lineNo);
      }
      var r := MutatorDirective(args, mutators, instancedMutatorIdx);
      if r.Err? {
        return Failed(r.kind, file, lineNo);
      }
      MutatorStepKeepsValid(Snapshot(), args);
      AppendMutator(r.value);
      st := Success;
    }

    method ParsePragmaInput(args: seq<string>, file: string, lineNo: nat) returns (st: Status)
      modifies this
      requires Valid()
      requires forall t :: t in args ==> Declarable(t)
      ensures Valid() && Extends(old(Snapshot()), Snapshot())
      ensures var r := InputDirective(args, old(inputs), old(specConstIdx));
        if r.Err? then st == Failed(r.kind, file, lineNo) && Snapshot() == old(Snapshot())
        else old(specConstIdx) < MAX_U32 && st == Success && Snapshot() == DeclareInput(old(Snapshot()), r.value)
    {
      var r := InputDirective(args, inputs, specConstIdx);
      if r.Err? {
        return Failed(r.kind, file, lineNo);
      }
      InputStepKeepsValid(Snapshot(), args);
      RecordInput(r.value);
      PushStructMember(r.value);
      PushLine(MarkerLine(r.value.name));
      st := Success;
    }

    method ParsePragmaStart(args: seq<string>, file: string, lineNo: nat) returns (st: Status)
      modifies this
      requires Valid()
      ensures Valid() && Extends(old(Snapshot()), Snapshot())
      ensures var r := StartDirective(args, old(insideShader), old(shaderTypes));
        if r.Err? then st == Failed(r.kind, file, lineNo) && Snapshot() == old(Snapshot())
        else st == Success && Snapshot() == EnterStage(old(Snapshot()), r.value)
    {
      var r := StartDirective(args, insideShader, shaderTypes);
      if r.Err? {
        return Failed(r.kind, file, lineNo);
      }
      OpenStage(r.value);
      st := Success;
    }

    method ParsePragmaEnd(args: seq<string>, file: string, lineNo: nat) returns (st: Status)
      modifies this
      requires Valid()
      ensures Valid() && Extends(old(Snapshot()), Snapshot())
      ensures !old(insideShader) ==> st == Failed(StageNestingError, file, lineNo) && Snapshot() == old(Snapshot())
      ensures old(insideShader) && args != [] ==> st == Failed(MalformedPragma, file, lineNo) && Snapshot() == old(Snapshot())
      ensures old(insideShader) && args == [] ==> st == Success && Snapshot() == LeaveStage(old(Snapshot()))
    {
      if !insideShader {
        return Failed(StageNestingError, file, lineNo);
      }
      if args != [] {
        return Failed(MalformedPragma, file, lineNo);
      }
      CloseStage();
      st := Success;
    }

    method ParsePragmaDescriptorSet(args: seq<string>, file: string, lineNo: nat) returns (st: Status)
      modifies this
      requires Valid()
      ensures Valid() && Extends(old(Snapshot()), Snapshot())
      ensures var r := DescriptorSetDirective(args, old(descriptorSet), old(setDeclared));
        if r.Err? then st == Failed(r.kind, file, lineNo) && Snapshot() == old(Snapshot())
        else st == Success && Snapshot() == DeclareDescriptorSet(old(Snapshot()), r.value)
    {
      var r := DescriptorSetDirective(args, descriptorSet, setDeclared);
      if r.Err? {
        return Failed(r.kind, file, lineNo);
      }
      SetDescriptorSet(r.value);
      st := Success;
    }

    method ParsePragmaRewriteMutation(args: seq<string>, file: string, lineNo: nat) returns (st: Status)
      modifies this
      requires Valid()
      ensures Valid() && Extends(old(Snapshot()), Snapshot())
      ensures var r := RewriteDirective(args, old(mutators), old(mutationRewrites));
        if r.Err? then st == Failed(r.kind, file, lineNo) && Snapshot() == old(Snapshot())
        else st == Success && Snapshot() == DeclareRewrite(old(Snapshot()), r.value)
    {
      var r := RewriteDirective(args, mutators, mutationRewrites);
      if r.Err? {
        return Failed(r.kind, file, lineNo);
      }
      AppendRewrite(r.value);
      st := Success;
    }

    // -------------------------------------------------------------------------
    // Files, lines and includes

    /** Reads one file; a file whose `#pragma once` was already met is skipped. */
    method ParseFile(name: string, depth: nat) returns (st: Status)
      modifies this
      requires Valid() && depth <= MAX_INCLUDE_DEPTH
      ensures Valid()
      ensures Outcome(st, Snapshot()) == FileStep(files, old(Snapshot()), name, depth)
      decreases MAX_INCLUDE_DEPTH - depth, 2
    {
      if name in onceFiles {
        return Success;
      }
      if name !in files {
        return Failed(IncludeNotFound, name, 0);
      }
      var lines := SplitLines(files[name]);
      FileStepEnters(files, Snapshot(), name, depth);
      var foundPragmaOnce := false;
      var i := 0;
      while i < |lines|
        invariant 0 <= i <= |lines|
        invariant Valid()
        invariant LinesStep(files, Snapshot(), lines, i, foundPragmaOnce, name, depth)
          == FileStep(files, old(Snapshot()), name, depth)
      {
        st, foundPragmaOnce := ParseLine(lines[i], name, i + 1, foundPragmaOnce, depth, lines);
        if st.Failed? {
          return;
        }
        i := i + 1;
      }
      LinesStepDone(files, Snapshot(), lines, foundPragmaOnce, name, depth);
      st := Success;
    }

    /** Reads one line: an include, a `#pragma once`, an `anki` directive, or a plain line
        that goes to the current buffer. Tokens from a comment on are ignored. */
    method ParseLine(line: string, file: string, lineNo: nat, foundPragmaOnce: bool, depth: nat,
                     ghost lines: seq<string>)
      returns (st: Status, foundPragmaOnce': bool)
      modifies this
      requires Valid() && depth <= MAX_INCLUDE_DEPTH
      requires 0 < lineNo <= |lines| && lines[lineNo - 1] == line
      ensures Valid()
      ensures st.Failed? ==>
        LinesStep(files, old(Snapshot()), lines, lineNo - 1, foundPragmaOnce, file, depth) == Outcome(st, Snapshot())
      ensures !st.Failed? ==>
        LinesStep(files, old(Snapshot()), lines, lineNo - 1, foundPragmaOnce, file, depth)
          == LinesStep(files, Snapshot(), lines, lineNo, foundPragmaOnce', file, depth)
      decreases MAX_INCLUDE_DEPTH - depth, 1
    {
      ghost var s0 := Snapshot();
      foundPragmaOnce' := foundPragmaOnce;
      var tokens := TokenizeLine(line);
      var ts := StripComments(tokens);
      DirectiveTokensDeclarable(line);
      if |ts| > 0 && ts[0] == "#include" {
        st := ParseInclude(ts[1..], file, lineNo, depth);
      } else if |ts| >= 2 && ts[0] == "#pragma" && ts[1] == "once" {
        if |ts| != 2 {
          st := Failed(MalformedPragma, file, lineNo);
        } else if foundPragmaOnce {
          st := Failed(DuplicatePragmaOnce, file, lineNo);
        } else {
          foundPragmaOnce' := true;
          AddOnceFile(file);
          st := Success;
        }
      } else if |ts| >= 2 && ts[0] == "#pragma" && ts[1] == "anki" {
        assert forall t :: t in ts[2..] ==> t in ts;
        st := ParsePragmaAnki(ts[2..], file, lineNo);
      } else {
        PushLine(line);
        st := Success;
      }
      LinesStepAdvance(files, s0, Snapshot(), lines, line, lineNo, foundPragmaOnce, foundPragmaOnce', st, file, depth);
    }

    /** The directives about stages: `start`, `end` and `descriptor_set`. */
    method ParseStagePragma(name: string, args: seq<string>, file: string, lineNo: nat) returns (st: Status)
      modifies this
      requires Valid()
      requires name == "start" || name == "end" || name == "descriptor_set"
      requires forall t :: t in args ==> Declarable(t)
      ensures Valid()
      ensures Outcome(st, Snapshot()) == StageOutcome(old(Snapshot()), name, args, file, lineNo)
    {
      if name == "start" {
        st := ParsePragmaStart(args, file, lineNo);
      } else if name == "end" {
        st := ParsePragmaEnd(args, file, lineNo);
      } else {
        st := ParsePragmaDescriptorSet(args, file, lineNo);
      }
    }

    /** `#pragma anki <directive> <args>`: dispatches on the directive's name; a missing or
        unknown name is a malformed pragma. */
    method ParsePragmaAnki(ts: seq<string>, file: string, lineNo: nat) returns (st: Status)
      modifies this
      requires Valid()
      requires forall t :: t in ts ==> Declarable(t)
      ensures Valid() && Extends(old(Snapshot()), Snapshot())
      ensures (ts == [] || ts[0] !in PRAGMA_DIRECTIVES) ==>
        st == Failed(MalformedPragma, file, lineNo) && Snapshot() == old(Snapshot())
      ensures ts != [] && ts[0] == "mutator" ==>
        Outcome(st, Snapshot()) == MutatorOutcome(old(Snapshot()), ts[1..], file, lineNo)
      ensures ts != [] && ts[0] == "input" ==>
        Outcome(st, Snapshot()) == InputOutcome(old(Snapshot()), ts[1..], file, lineNo)
      ensures ts != [] && ts[0] in {"start", "end", "descriptor_set"} ==>
        Outcome(st, Snapshot()) == StageOutcome(old(Snapshot()), ts[0], ts[1..], file, lineNo)
      ensures ts != [] && ts[0] == "rewrite_mutation" ==>
        Outcome(st, Snapshot()) == RewriteOutcome(old(Snapshot()), ts[1..], file, lineNo)
      ensures Outcome(st, Snapshot()) == AnkiStep(old(Snapshot()), ts, file, lineNo)
    {
      AnkiStepByName(Snapshot(), ts, file, lineNo);
      if ts == [] {
        return Failed(MalformedPragma, file, lineNo);
      }
      var args := ts[1..];
      assert forall t :: t in args ==> t in ts;
      if ts[0] == "mutator" {
        st := ParsePragmaMutator(args, file, lineNo);
      } else if ts[0] == "input" {
        st := ParsePragmaInput(args, file, lineNo);
      } else if ts[0] == "start" || ts[0] == "end" || ts[0] == "descriptor_set" {
        st := ParseStagePragma(ts[0], args, file, lineNo);
      } else if ts[0] == "rewrite_mutation" {
        st := ParsePragmaRewriteMutation(args, file, lineNo);
      } else {
        st := Failed(MalformedPragma, file, lineNo);
      }
    }

    /** `#include`: the named file is read in place, one level deeper. */
    method ParseInclude(args: seq<string>, file: string, lineNo: nat, depth: nat) returns (st: Status)
      modifies this
      requires Valid() && depth <= MAX_INCLUDE_DEPTH
      ensures Valid()
      ensures Outcome(st, Snapshot()) == IncludeStep(files, old(Snapshot()), args, file, lineNo, depth)
      decreases MAX_INCLUDE_DEPTH - depth, 0
    {
      var target := IncludeTarget(args);
      if target.None? {
        return Failed(MalformedPragma, file, lineNo);
      }
      if depth + 1 > MAX_INCLUDE_DEPTH {
        return Failed(IncludeTooDeep, file, lineNo);
      }
      if target.value !in files {
        return Failed(IncludeNotFound, file, lineNo);
      }
      st := ParseFile(target.value, depth + 1);
    }

    /** Parses the program and its includes, then checks what only the whole program can
        show: every stage was closed, and an instance-count mutator exists exactly when
        some input is instanced. */
    method Parse() returns (st: Status)
      modifies this
      requires Valid() && Snapshot() == InitialState()
      ensures Valid()
      ensures st.Success? ==>
        && !insideShader
        && (foundAtLeastOneInstancedInput <==> instancedMutatorIdx != MAX_U32)
        && codeSource == Join(codeLines, '\n')
        && globalsSource == Join(globalsLines, '\n')
        && uboSource == Join(uboStructLines, '\n')
      ensures Outcome(st, Snapshot()) == ParseProgram(files, fname)
    {
      st := ParseFile(fname, 0);
      if st.Failed? {
        return;
      }
      if insideShader {
        return Failed(StageNestingError, fname, 0);
      }
      if foundAtLeastOneInstancedInput != (instancedMutatorIdx != MAX_U32) {
        return Failed(InstancedInputWithoutMutator, fname, 0);
      }
      JoinSources();
    }

    // -------------------------------------------------------------------------
    // Mutations and variants

    /** Applies the first rule whose every record matches, in place. */
    method RewriteMutation(mutation: array<MutatorValue>) returns (rewritten: bool)
      modifies mutation
      requires Valid() && mutation.Length == |mutators|
      ensures RulesWithin(mutationRewrites, mutation.Length)
      ensures (mutation[..], rewritten) == ApplyFirstRule(mutationRewrites, old(mutation[..]))
    {
      RulesWithinMutators(Snapshot());
      rewritten := ApplyFirstRuleInPlace(mutationRewrites, mutation);
    }

    /** Whether every value of the mutation is one its mutator declares. */
    method CheckMutation(mutation: seq<MutatorValue>) returns (ok: bool)
      ensures ok <==> ValidMutation(mutators, mutation)
    {
      if |mutation| != |mutators| {
        return false;
      }
      var v := 0;
      while v < |mutators|
        invariant 0 <= v <= |mutators|
        invariant forall j :: 0 <= j < v ==> mutation[j] in mutators[j].values
      {
        var found := MutatorHasValue(mutators[v], mutation[v]);
        if !found {
          return false;
        }
        v := v + 1;
      }
      return true;
    }

    /** `generateVariant`: validates the mutation, finds the active inputs of every
        stage, lays out the uniform block, numbers the bindings and decides on push
        constants. On failure the variant is left as it was. */
    method GenerateVariant(mutation: seq<MutatorValue>, variant: ShaderProgramParserVariant) returns (r: Result<()>)
      modifies variant
      requires Valid()
      ensures !ValidMutation(mutators, mutation) ==> r == Err(InvalidMutation)
      ensures r.Err? ==> unchanged(variant)
      ensures ValidMutation(mutators, mutation) ==>
        && (r.Ok? <==>
              && VariantMask(Snapshot(), mutation).Ok?
              && PushConstants(BlockLayout(inputs, VariantMask(Snapshot(), mutation).value).1, pushConstSize).Ok?)
      ensures r.Ok? ==>
        && ValidMutation(mutators, mutation)
        && VariantMask(Snapshot(), mutation).Ok?
        && var mask := VariantMask(Snapshot(), mutation).value;
        && variant.Valid()
        && variant.activeInputVarsMask == mask
        && variant.blockInfos == BlockLayout(inputs, mask).0
        && variant.uniBlockSize == BlockLayout(inputs, mask).1
        && variant.bindings == Bindings(inputs, mask).0
        && variant.usesPushConstants == PushConstants(BlockLayout(inputs, mask).1, pushConstSize).value
        && forall j :: 0 <= j < SHADER_TYPE_COUNT ==> variant.sources[j] == StageSlot(Snapshot(), ALL_STAGES[j], mutation)
    {
      var ok := CheckMutation(mutation);
      if !ok {
        return Err(InvalidMutation);
      }
      var sources := StageSources(Snapshot(), mutation);
      var masks := StageMasks(Snapshot(), mutation, sources);
      if masks.Err? {
        return Err(masks.kind);
      }
      var mask := masks.value;
      var infos, size := PlaceInputs(inputs, mask);
      var binds, count := BindInputs(inputs, mask);
      var push := PushConstants(size, pushConstSize);
      if push.Err? {
        return Err(push.kind);
      }
      BindingsShape(inputs, mask);
      BlockLayoutFits(inputs, mask);
      variant.Fill(sources, mask, infos, binds, size, push.value);
      return Ok(());
    }
  }
}

=== FILE: pragmas.dfy ===
/** The decision each directive handler makes from its tokens and the parsed model so far:
    what it declares, or why the line is rejected. The parser class applies these. */
module Pragmas {
  import opened Common
  import opened Text
  import opened ParserModel

  // ---------------------------------------------------------------------------
  // #include {"path" | <path>}

  /** The file named by the argument of `#include`. */
  function IncludeTarget(args: seq<string>): (r: Option<string>)
    ensures r.Some? ==> |r.value| > 0 && |args| == 1
    ensures r.Some? ==> args[0] == "\"" + r.value + "\"" || args[0] == "<" + r.value + ">"
    ensures |args| == 1 && |args[0]| > 2 && args[0][0] == '"' && args[0][|args[0]| - 1] == '"' ==> r.Some?
    ensures |args| == 1 && |args[0]| > 2 && args[0][0] == '<' && args[0][|args[0]| - 1] == '>' ==> r.Some?
  {
    if |args| != 1 || |args[0]| <= 2 then None
    else
      var t := args[0];
      var inner := t[1..|t| - 1];
      assert t == [t[0]] + inner + [t[|t| - 1]];
      if (t[0] == '"' && t[|t| - 1] == '"') || (t[0] == '<' && t[|t| - 1] == '>') then Some(inner)
      else None
  }

  // ---------------------------------------------------------------------------
  // #pragma anki mutator [instanced] NAME VALUE0 [VALUE1 ...]

  predicate InMutatorRange(v: int)
  {
    MIN_MUTATOR_VALUE <= v <= MAX_MUTATOR_VALUE
  }

  /** Reads each token as a signed 32-bit value. */
  function ParseValues(tokens: seq<string>): (r: Option<seq<MutatorValue>>)
    ensures r.Some? <==> forall k :: 0 <= k < |tokens| ==> ParseInt(tokens[k]).Some? && InMutatorRange(ParseInt(tokens[k]).value)
    ensures r.Some? ==> |r.value| == |tokens| && forall k :: 0 <= k < |tokens| ==> ParseInt(tokens[k]) == Some(r.value[k])
  {
    if tokens == [] then Some([])
    else match ParseInt(tokens[0])
      case None => None
      case Some(v) =>
        if !InMutatorRange(v) then None
        else match ParseValues(tokens[1..])
          case None => None
          case Some(vs) => Some([v] + vs)
  }

  /** The instanced-mutator index after declaring `m` as mutator number `count`. */
  function InstancedIdxAfter(instancedIdx: U32, m: Mutator, count: nat): U32
    requires count < MAX_U32
  {
    if m.instanceCount then count else instancedIdx
  }

  /** The mutator a `mutator` directive declares. */
  function MutatorDirective(args: seq<string>, ms: seq<Mutator>, instancedIdx: U32): (r: Result<Mutator>)
    requires MutatorsValid(ms, instancedIdx) && |ms| < MAX_U32
    ensures
      var instanced := |args| > 0 && args[0] == "instanced";
      var rest := if instanced then args[1..] else args;
      && (|rest| == 0 ==> r == Err(MalformedPragma))
      && (|rest| == 1 ==> r == Err(InvalidMutatorValues))
      && (|rest| >= 2 && FindMutator(ms, rest[0]).Some? ==> r == Err(DuplicateMutatorName))
      && (instanced && instancedIdx != MAX_U32 && |rest| >= 2 && FindMutator(ms, rest[0]).None? ==> r == Err(InstancedMutatorRedeclared))
      && (r.Ok? <==>
            |rest| >= 2 && FindMutator(ms, rest[0]).None? && !(instanced && instancedIdx != MAX_U32)
            && ParseValues(rest[1..]).Some? && StrictlyIncreasing(ParseValues(rest[1..]).value))
      && (r.Ok? ==>
            && r.value.name == rest[0]
            && r.value.instanceCount == instanced
            && r.value.values == ParseValues(rest[1..]).value
            && MutatorsValid(ms + [r.value], InstancedIdxAfter(instancedIdx, r.value, |ms|)))
  {
    var instanced := |args| > 0 && args[0] == "instanced";
    var rest := if instanced then args[1..] else args;
    if |rest| == 0 then Err(MalformedPragma)
    else if |rest| == 1 then Err(InvalidMutatorValues)
    else if FindMutator(ms, rest[0]).Some? then Err(DuplicateMutatorName)
    else if instanced && instancedIdx != MAX_U32 then Err(InstancedMutatorRedeclared)
    else match ParseValues(rest[1..])
      case None => Err(InvalidMutatorValues)
      case Some(values) =>
        if !StrictlyIncreasing(values) then Err(InvalidMutatorValues)
        else Ok(Mutator(rest[0], values, instanced))
  }

  // ---------------------------------------------------------------------------
  // #pragma anki input [const | instanced] TYPE NAME

  /** The input an `input` directive declares as input number `|ins|`. */
  function InputDirective(args: seq<string>, ins: seq<Input>, specConstIdx: U32): (r: Result<Input>)
    requires InputsValid(ins, specConstIdx)
    ensures |args| < 2 || |args| > 4 ==> r == Err(MalformedPragma)
    ensures |args| == 4 && ((args[0] == "const" && args[1] == "instanced") || (args[0] == "instanced" && args[1] == "const"))
      ==> r == Err(ConflictingInputQualifiers)
    ensures r.Ok? ==>
      && 2 <= |args| <= 3
      && (|args| == 3 ==> args[0] == "const" || args[0] == "instanced")
      && DataTypeFromName(args[|args| - 2]) == Some(r.value.dataType)
      && r.value.name == args[|args| - 1]
      && FindInput(ins, r.value.name).None?
      && |ins| < MAX_SHADER_PROGRAM_INPUT_VARIABLES
      && r.value.idx == |ins|
      && (r.value.IsConstant() <==> |args| == 3 && args[0] == "const")
      && (r.value.instanced <==> |args| == 3 && args[0] == "instanced")
      && InputsValid(ins + [r.value], specConstIdx + (if r.value.IsConstant() then 1 else 0))
    ensures
      && 2 <= |args| <= 3
      && (|args| == 3 ==> args[0] == "const" || args[0] == "instanced")
      && DataTypeFromName(args[|args| - 2]).Some?
      && FindInput(ins, args[|args| - 1]).None?
      && |ins| < MAX_SHADER_PROGRAM_INPUT_VARIABLES
      ==> r.Ok?
  {
    if |args| < 2 || |args| > 4 then Err(MalformedPragma)
    else if |args| == 4 then
      (if (args[0] == "const" && args[1] == "instanced") || (args[0] == "instanced" && args[1] == "const")
       then Err(ConflictingInputQualifiers) else Err(MalformedPragma))
    else if |args| == 3 && args[0] != "const" && args[0] != "instanced" then Err(MalformedPragma)
    else
      var isConst := |args| == 3 && args[0] == "const";
      var isInstanced := |args| == 3 && args[0] == "instanced";
      var typeName := args[|args| - 2];
      var name := args[|args| - 1];
      match DataTypeFromName(typeName)
      case None => Err(UnknownDataType)
      case Some(dataType) =>
        if FindInput(ins, name).Some? then Err(DuplicateInputName)
        else if |ins| >= MAX_SHADER_PROGRAM_INPUT_VARIABLES then Err(TooManyInputs)
        else
          CountConstantsBound(ins);
          var input := Input(name, |ins|, if isConst then specConstIdx else MAX_U32, isInstanced, dataType);
          AppendInputKeepsValid(ins, specConstIdx, input);
          Ok(input)
  }

  /** On a well-formed line, an unknown type, a name already declared and a full input
      table are each rejected, with that error and in that order of precedence. */
  lemma InputDirectiveRejects(args: seq<string>, ins: seq<Input>, specConstIdx: U32)
    requires InputsValid(ins, specConstIdx)
    requires 2 <= |args| <= 3 && (|args| == 3 ==> args[0] == "const" || args[0] == "instanced")
    ensures var r := InputDirective(args, ins, specConstIdx);
      && (DataTypeFromName(args[|args| - 2]).None? ==> r == Err(UnknownDataType))
      && (DataTypeFromName(args[|args| - 2]).Some? && FindInput(ins, args[|args| - 1]).Some? ==> r == Err(DuplicateInputName))
      && ((DataTypeFromName(args[|args| - 2]).Some? && FindInput(ins, args[|args| - 1]).None?
           && |ins| == MAX_SHADER_PROGRAM_INPUT_VARIABLES) ==> r == Err(TooManyInputs))
  {
  }

  lemma AppendInputKeepsValid(ins: seq<Input>, specConstIdx: U32, input: Input)
    requires InputsValid(ins, specConstIdx)
    requires |ins| < MAX_SHADER_PROGRAM_INPUT_VARIABLES
    requires input.idx == |ins| && input.dataType != NONE
    requires FindInput(ins, input.name).None?
    requires input.IsConstant() ==> input.specConstId == specConstIdx && !input.instanced
    ensures InputsValid(ins + [input], specConstIdx + (if input.IsConstant() then 1 else 0))
  {
    var ins' := ins + [input];
    assert ins'[..|ins|] == ins;
    AppendKeepsIndices(ins, input);
    AppendKeepsNamesUnique(ins, input);
    AppendKeepsConstantIds(ins, specConstIdx, input);
  }

  lemma AppendKeepsIndices(ins: seq<Input>, input: Input)
    requires forall i :: 0 <= i < |ins| ==> ins[i].idx == i
    requires input.idx == |ins|
    ensures forall i :: 0 <= i < |ins + [input]| ==> (ins + [input])[i].idx == i
  {
  }

  lemma AppendKeepsNamesUnique(ins: seq<Input>, input: Input)
    requires forall i, j :: 0 <= i < j < |ins| ==> ins[i].name != ins[j].name
    requires forall i :: 0 <= i < |ins| ==> ins[i].name != input.name
    ensures var ins' := ins + [input];
      forall i, j :: 0 <= i < j < |ins'| ==> ins'[i].name != ins'[j].name
  {
  }

  lemma AppendKeepsConstantIds(ins: seq<Input>, specConstIdx: U32, input: Input)
    requires forall i :: 0 <= i < |ins| ==> ins[i].IsConstant() ==> ins[i].specConstId == CountConstants(ins[..i])
    requires specConstIdx == CountConstants(ins)
    requires input.IsConstant() ==> input.specConstId == specConstIdx
    ensures var ins' := ins + [input];
      && (forall i :: 0 <= i < |ins'| ==> ins'[i].IsConstant() ==> ins'[i].specConstId == CountConstants(ins'[..i]))
      && CountConstants(ins') == specConstIdx + (if input.IsConstant() then 1 else 0)
  {
    var ins' := ins + [input];
    assert ins'[..|ins|] == ins;
    forall i | 0 <= i < |ins'| && ins'[i].IsConstant()
      ensures ins'[i].specConstId == CountConstants(ins'[..i])
    {
      if i < |ins| {
        assert ins'[i] == ins[i] && ins'[..i] == ins[..i];
      }
    }
  }

  // ---------------------------------------------------------------------------
  // #pragma anki start {vert | tessc | tesse | geom | frag | comp}

  /** A compute stage never shares a file with a graphics stage. */
  predicate StagesCompatible(types: set<ShaderType>)
  {
    Compute in types ==> types == {Compute}
  }

  /** The stage a `start` directive opens. */
  function StartDirective(args: seq<string>, insideShader: bool, types: set<ShaderType>): (r: Result<ShaderType>)
    requires StagesCompatible(types)
    ensures insideShader ==> r == Err(StageNestingError)
    ensures r.Ok? ==> !insideShader && args == [ShaderTypeName(r.value)] && StagesCompatible(types + {r.value})
    ensures !insideShader && |args| == 1 && ShaderTypeFromName(args[0]).Some?
      && StagesCompatible(types + {ShaderTypeFromName(args[0]).value})
      ==> r == Ok(ShaderTypeFromName(args[0]).value)
  {
    if insideShader then Err(StageNestingError)
    else if |args| != 1 then Err(MalformedPragma)
    else match ShaderTypeFromName(args[0])
      case None => Err(MalformedPragma)
      case Some(t) =>
        ShaderTypeNameRoundTrip(t, args[0]);
        if !StagesCompatible(types + {t}) then Err(StageNestingError) else Ok(t)
  }

  // ---------------------------------------------------------------------------
  // #pragma anki descriptor_set <number>

  /** The descriptor set a `descriptor_set` directive selects. */
  function DescriptorSetDirective(args: seq<string>, current: U32, declared: bool): (r: Result<U32>)
    ensures r.Ok? ==> |args| == 1 && ParseInt(args[0]) == Some(r.value as int)
    ensures r.Ok? && declared ==> r.value == current
    ensures |args| == 1 && ParseInt(args[0]).Some? && 0 <= ParseInt(args[0]).value <= MAX_U32
      ==> (r.Ok? <==> !declared || ParseInt(args[0]).value == current)
    ensures declared && r.Err? && |args| == 1 && ParseInt(args[0]).Some? && 0 <= ParseInt(args[0]).value <= MAX_U32
      ==> r.kind == DescriptorSetRedeclared
  {
    if |args| != 1 then Err(MalformedPragma)
    else match ParseInt(args[0])
      case None => Err(MalformedPragma)
      case Some(v) =>
        if v < 0 || v > MAX_U32 then Err(MalformedPragma)
        else if declared && v != current then Err(DescriptorSetRedeclared)
        else Ok(v)
  }

  // ---------------------------------------------------------------------------
  // #pragma anki rewrite_mutation NAME_A V0 NAME_B V1 ... to NAME_A V2 NAME_B V3 ...

  /** Position of the first `to` token. */
  function FindTo(args: seq<string>): (r: Option<nat>)
    ensures r.Some? ==> r.value < |args| && args[r.value] == "to" && "to" !in args[..r.value]
    ensures r.None? ==> "to" !in args
  {
    if args == [] then None
    else if args[0] == "to" then Some(0)
    else match FindTo(args[1..])
      case None => None
      case Some(k) =>
        assert args[..k + 1] == [args[0]] + args[1..][..k];
        Some(k + 1)
  }

  /** One `NAME VALUE` pair of a rule, with the name resolved to a mutator index. */
  datatype Assignment = Assignment(mutator: nat, value: MutatorValue)

  function Mutators(as_: seq<Assignment>): set<nat>
  {
    set a | a in as_ :: a.mutator
  }

  /** Reads `NAME VALUE` pairs; every name must be a declared mutator, every value one of
      its values, and no mutator may repeat. */
  function ParseAssignments(tokens: seq<string>, ms: seq<Mutator>): (r: Result<seq<Assignment>>)
    ensures r.Ok? ==> |tokens| == 2 * |r.value|
    ensures r.Err? ==> r.kind == MalformedRewriteRule
    decreases |tokens|
  {
    if tokens == [] then Ok([])
    else if |tokens| == 1 then Err(MalformedRewriteRule)
    else
      match FindMutator(ms, tokens[0])
      case None => Err(MalformedRewriteRule)
      case Some(i) =>
        match ParseInt(tokens[1])
        case None => Err(MalformedRewriteRule)
        case Some(v) =>
          if v !in ms[i].values then Err(MalformedRewriteRule)
          else match ParseAssignments(tokens[2..], ms)
            case Err(e) => Err(e)
            case Ok(rest) =>
              if i in Mutators(rest) then Err(MalformedRewriteRule)
              else Ok([Assignment(i, v)] + rest)
  }

  /** Assignment `j` comes from tokens `2j` and `2j+1`: a declared mutator's name and one of
      its values; no mutator is assigned twice. */
  lemma ParseAssignmentsMeaning(tokens: seq<string>, ms: seq<Mutator>)
    requires ParseAssignments(tokens, ms).Ok?
    ensures var as_ := ParseAssignments(tokens, ms).value;
      forall j :: 0 <= j < |as_| ==>
        && as_[j].mutator < |ms|
        && ms[as_[j].mutator].name == tokens[2 * j]
        && ParseInt(tokens[2 * j + 1]) == Some(as_[j].value as int)
        && as_[j].value in ms[as_[j].mutator].values
    ensures var as_ := ParseAssignments(tokens, ms).value;
      forall j, k :: 0 <= j < k < |as_| ==> as_[j].mutator != as_[k].mutator
  {
    ParseAssignmentsPairs(tokens, ms);
    ParseAssignmentsDistinct(tokens, ms);
  }

  /** One step of `ParseAssignments`: the first pair and the rest. */
  lemma ParseAssignmentsHead(tokens: seq<string>, ms: seq<Mutator>)
    requires ParseAssignments(tokens, ms).Ok? && tokens != []
    ensures |tokens| >= 2 && ParseAssignments(tokens[2..], ms).Ok?
    ensures var as_ := ParseAssignments(tokens, ms).value;
      && |as_| > 0
      && as_[1..] == ParseAssignments(tokens[2..], ms).value
      && as_[0].mutator < |ms| && ms[as_[0].mutator].name == tokens[0]
      && ParseInt(tokens[1]) == Some(as_[0].value as int)
      && as_[0].value in ms[as_[0].mutator].values
      && as_[0].mutator !in Mutators(as_[1..])
  {
  }

  lemma ParseAssignmentsPairs(tokens: seq<string>, ms: seq<Mutator>)
    requires ParseAssignments(tokens, ms).Ok?
    ensures var as_ := ParseAssignments(tokens, ms).value;
      forall j :: 0 <= j < |as_| ==>
        && as_[j].mutator < |ms|
        && ms[as_[j].mutator].name == tokens[2 * j]
        && ParseInt(tokens[2 * j + 1]) == Some(as_[j].value as int)
        && as_[j].value in ms[as_[j].mutator].values
  {
    forall j | 0 <= j < |ParseAssignments(tokens, ms).value|
      ensures var as_ := ParseAssignments(tokens, ms).value;
        && as_[j].mutator < |ms|
        && ms[as_[j].mutator].name == tokens[2 * j]
        && ParseInt(tokens[2 * j + 1]) == Some(as_[j].value as int)
        && as_[j].value in ms[as_[j].mutator].values
    {
      ParseAssignmentsPair(tokens, ms, j);
    }
  }

  /** Assignment `j` comes from tokens `2j` and `2j+1`. */
  lemma {:induction false} ParseAssignmentsPair(tokens: seq<string>, ms: seq<Mutator>, j: nat)
    requires ParseAssignments(tokens, ms).Ok? && j < |ParseAssignments(tokens, ms).value|
    ensures var a := ParseAssignments(tokens, ms).value[j];
      && a.mutator < |ms|
      && ms[a.mutator].name == tokens[2 * j]
      && ParseInt(tokens[2 * j + 1]) == Some(a.value as int)
      && a.value in ms[a.mutator].values
    decreases j
  {
    ParseAssignmentsHead(tokens, ms);
    if j > 0 {
      var as_ := ParseAssignments(tokens, ms).value;
      ParseAssignmentsPair(tokens[2..], ms, j - 1);
      assert as_[j] == as_[1..][j - 1];
      assert tokens[2 * j] == tokens[2..][2 * (j - 1)] && tokens[2 * j + 1] == tokens[2..][2 * (j - 1) + 1];
    }
  }

  lemma {:induction false} ParseAssignmentsDistinct(tokens: seq<string>, ms: seq<Mutator>)
    requires ParseAssignments(tokens, ms).Ok?
    ensures var as_ := ParseAssignments(tokens, ms).value;
      forall j, k :: 0 <= j < k < |as_| ==> as_[j].mutator != as_[k].mutator
    decreases |tokens|
  {
    if tokens != [] {
      ParseAssignmentsHead(tokens, ms);
      var as_ := ParseAssignments(tokens, ms).value;
      var rest := as_[1..];
      ParseAssignmentsDistinct(tokens[2..], ms);
      forall j, k | 0 <= j < k < |as_|
        ensures as_[j].mutator != as_[k].mutator
      {
        assert as_[k] == rest[k - 1] && as_[k] in rest;
        if j > 0 {
          assert as_[j] == rest[j - 1];
        }
      }
    }
  }

  /** The value a side of a rule gives to mutator `i`. */
  function Lookup(as_: seq<Assignment>, i: nat): (r: Option<MutatorValue>)
    ensures r.Some? ==> Assignment(i, r.value) in as_
    ensures r.None? ==> i !in Mutators(as_)
  {
    if as_ == [] then None
    else if as_[0].mutator == i then Some(as_[0].value)
    else Lookup(as_[1..], i)
  }

  /** Records for the mutators `lo..hi-1` named on both sides, in mutator declaration order. */
  function BuildRecords(from: seq<Assignment>, to: seq<Assignment>, lo: nat, hi: nat): (r: seq<Record>)
    requires Mutators(from) == Mutators(to)
    requires hi <= MAX_U32
    ensures forall k :: 0 <= k < |r| ==> lo <= r[k].mutatorIndex < hi
    ensures forall k :: 0 <= k < |r| ==>
      Assignment(r[k].mutatorIndex, r[k].valueFrom) in from && Assignment(r[k].mutatorIndex, r[k].valueTo) in to
    ensures forall k, l :: 0 <= k < l < |r| ==> r[k].mutatorIndex < r[l].mutatorIndex
    decreases hi - lo
  {
    if lo >= hi then []
    else
      var tail := BuildRecords(from, to, lo + 1, hi);
      match (Lookup(from, lo), Lookup(to, lo))
      case (Some(a), Some(b)) =>
        var r := [Record(lo, a, b)] + tail;
        assert forall k :: 1 <= k < |r| ==> r[k] == tail[k - 1];
        r
      case _ => tail
  }

  /** `records` holds a record for mutator `i`. */
  predicate HasRecordFor(records: seq<Record>, i: nat)
  {
    exists k :: 0 <= k < |records| && records[k].mutatorIndex == i
  }

  /** Every mutator the rule names gets a record. */
  lemma {:induction false} BuildRecordsCovers(from: seq<Assignment>, to: seq<Assignment>, lo: nat, hi: nat, i: nat)
    requires Mutators(from) == Mutators(to)
    requires hi <= MAX_U32
    requires lo <= i < hi && i in Mutators(from)
    ensures HasRecordFor(BuildRecords(from, to, lo, hi), i)
    decreases hi - lo
  {
    var r := BuildRecords(from, to, lo, hi);
    var tail := BuildRecords(from, to, lo + 1, hi);
    if i == lo {
      assert Lookup(from, lo).Some? && Lookup(to, lo).Some?;
      assert r[0].mutatorIndex == lo;
    } else {
      BuildRecordsCovers(from, to, lo + 1, hi, i);
      var k :| 0 <= k < |tail| && tail[k].mutatorIndex == i;
      if Lookup(from, lo).Some? && Lookup(to, lo).Some? {
        assert r == [Record(lo, Lookup(from, lo).value, Lookup(to, lo).value)] + tail;
        assert r[k + 1].mutatorIndex == i;
      } else {
        assert r == tail;
      }
    }
  }

  /** Two record lists are equal exactly when no pair of corresponding records differs. */
  function SameRecords(a: seq<Record>, b: seq<Record>): (r: bool)
    ensures r <==> a == b
  {
    |a| == |b| && forall k :: 0 <= k < |a| ==> !RecordsDiffer(a[k], b[k])
  }

  function RuleDeclared(rws: seq<MutationRewrite>, records: seq<Record>): (r: bool)
    ensures r <==> exists i :: 0 <= i < |rws| && rws[i].records == records
  {
    exists i :: 0 <= i < |rws| && SameRecords(rws[i].records, records)
  }

  /** The rule a `rewrite_mutation` directive declares. */
  function RewriteDirective(args: seq<string>, ms: seq<Mutator>, rws: seq<MutationRewrite>): (r: Result<MutationRewrite>)
    requires |ms| <= MAX_U32
    requires RewritesValid(rws, ms)
    ensures FindTo(args).None? ==> r.Err?
    ensures r.Ok? ==> r.value !in rws && RewritesValid(rws + [r.value], ms)
    ensures r.Err? ==> r.kind == MalformedRewriteRule
  {
    match FindTo(args)
    case None => Err(MalformedRewriteRule)
    case Some(p) =>
      match ParseAssignments(args[..p], ms)
      case Err(e) => Err(e)
      case Ok(from) =>
        match ParseAssignments(args[p + 1..], ms)
        case Err(e) => Err(e)
        case Ok(to) =>
          if from == [] || Mutators(from) != Mutators(to) then Err(MalformedRewriteRule)
          else
            var records := BuildRecords(from, to, 0, |ms|);
            if RuleDeclared(rws, records) then Err(MalformedRewriteRule)
            else
              ParseAssignmentsMeaning(args[..p], ms);
              ParseAssignmentsMeaning(args[p + 1..], ms);
              BuiltRuleValid(from, to, ms);
              NewRuleKeepsValid(rws, MutationRewrite(records), ms);
              Ok(MutationRewrite(records))
  }

  /** Once `to` is found and both sides parse, the rule is accepted exactly when its left
      side is not empty, both sides name the same mutators and no rule with the same
      records was declared before. */
  lemma RewriteDirectiveAccepts(args: seq<string>, ms: seq<Mutator>, rws: seq<MutationRewrite>)
    requires |ms| <= MAX_U32
    requires RewritesValid(rws, ms)
    requires FindTo(args).Some?
    requires ParseAssignments(args[..FindTo(args).value], ms).Ok?
    requires ParseAssignments(args[FindTo(args).value + 1..], ms).Ok?
    ensures
      var p := FindTo(args).value;
      var from := ParseAssignments(args[..p], ms).value;
      var to := ParseAssignments(args[p + 1..], ms).value;
      RewriteDirective(args, ms, rws).Ok? <==>
        from != [] && Mutators(from) == Mutators(to) && !RuleDeclared(rws, BuildRecords(from, to, 0, |ms|))
  {
  }

  /** The records built from both sides of a rule are valid, ordered and not empty. */
  lemma BuiltRuleValid(from: seq<Assignment>, to: seq<Assignment>, ms: seq<Mutator>)
    requires |ms| <= MAX_U32
    requires from != [] && Mutators(from) == Mutators(to)
    requires forall j :: 0 <= j < |from| ==> from[j].mutator < |ms| && from[j].value in ms[from[j].mutator].values
    requires forall j :: 0 <= j < |to| ==> to[j].mutator < |ms| && to[j].value in ms[to[j].mutator].values
    ensures var records := BuildRecords(from, to, 0, |ms|);
      && |records| > 0
      && forall k :: 0 <= k < |records| ==> RecordValid(records[k], ms)
  {
    var records := BuildRecords(from, to, 0, |ms|);
    assert from[0] in from;
    BuildRecordsCovers(from, to, 0, |ms|, from[0].mutator);
    forall k | 0 <= k < |records|
      ensures RecordValid(records[k], ms)
    {
      var a := Assignment(records[k].mutatorIndex, records[k].valueFrom);
      var b := Assignment(records[k].mutatorIndex, records[k].valueTo);
      var i :| 0 <= i < |from| && from[i] == a;
      var j :| 0 <= j < |to| && to[j] == b;
    }
  }

  lemma NewRuleKeepsValid(rws: seq<MutationRewrite>, rw: MutationRewrite, ms: seq<Mutator>)
    requires RewritesValid(rws, ms) && RewriteValid(rw, ms) && rw !in rws
    ensures RewritesValid(rws + [rw], ms)
  {
    var rws' := rws + [rw];
    forall i, j | 0 <= i < j < |rws'|
      ensures rws'[i] != rws'[j]
    {
      if j == |rws| {
        assert rws'[i] in rws;
      }
    }
  }

  /** What a declared rule says: every record pairs a value from the left of `to` with a
      value from the right for the same mutator, and every mutator named gets a record. */
  lemma RewriteDirectiveMeaning(args: seq<string>, ms: seq<Mutator>, rws: seq<MutationRewrite>)
    requires |ms| <= MAX_U32
    requires RewritesValid(rws, ms)
    requires RewriteDirective(args, ms, rws).Ok?
    ensures FindTo(args).Some?
    ensures var p := FindTo(args).value;
      ParseAssignments(args[..p], ms).Ok? && ParseAssignments(args[p + 1..], ms).Ok?
    ensures
      var records := RewriteDirective(args, ms, rws).value.records;
      var p := FindTo(args).value;
      var from := ParseAssignments(args[..p], ms).value;
      var to := ParseAssignments(args[p + 1..], ms).value;
      && Mutators(from) == Mutators(to)
      && (forall k :: 0 <= k < |records| ==>
            && Assignment(records[k].mutatorIndex, records[k].valueFrom) in from
            && Assignment(records[k].mutatorIndex, records[k].valueTo) in to)
      && (forall i :: i in Mutators(from) ==> HasRecordFor(records, i))
  {
    var p := FindTo(args).value;
    var from := ParseAssignments(args[..p], ms).value;
    var to := ParseAssignments(args[p + 1..], ms).value;
    ParseAssignmentsMeaning(args[..p], ms);
    forall i | i in Mutators(from)
      ensures HasRecordFor(BuildRecords(from, to, 0, |ms|), i)
    {
      var a :| a in from && a.mutator == i;
      BuildRecordsCovers(from, to, 0, |ms|, i);
    }
  }
}

=== FILE: rewrite.dfy ===
/** What `rewriteMutation` computes: the first rule whose from-values all match the
    mutation vector replaces them by its to-values. */
module Rewriting {
  import opened Common
  import opened ParserModel

  predicate RecordsWithin(records: seq<Record>, n: nat)
  {
    forall k :: 0 <= k < |records| ==> records[k].mutatorIndex < n
  }

  predicate RulesWithin(rws: seq<MutationRewrite>, n: nat)
  {
    forall i :: 0 <= i < |rws| ==> RecordsWithin(rws[i].records, n)
  }

  /** A rule applies when every record's position holds the record's from-value. */
  predicate Matches(rw: MutationRewrite, mutation: seq<MutatorValue>)
    requires RecordsWithin(rw.records, |mutation|)
  {
    forall k :: 0 <= k < |rw.records| ==> mutation[rw.records[k].mutatorIndex] == rw.records[k].valueFrom
  }

  /** Writes each record's to-value at its position, first record first. */
  function ApplyRecords(records: seq<Record>, mutation: seq<MutatorValue>): (r: seq<MutatorValue>)
    requires RecordsWithin(records, |mutation|)
    ensures |r| == |mutation|
  {
    if records == [] then mutation
    else ApplyRecords(records[1..], mutation[records[0].mutatorIndex := records[0].valueTo])
  }

  /** The rules tried in declaration order; the first match is applied and reported. */
  function ApplyFirstRule(rws: seq<MutationRewrite>, mutation: seq<MutatorValue>): (r: (seq<MutatorValue>, bool))
    requires RulesWithin(rws, |mutation|)
    ensures |r.0| == |mutation|
    ensures !r.1 ==> r.0 == mutation
  {
    if rws == [] then (mutation, false)
    else if Matches(rws[0], mutation) then (ApplyRecords(rws[0].records, mutation), true)
    else ApplyFirstRule(rws[1..], mutation)
  }

  predicate DistinctPositions(records: seq<Record>)
  {
    forall k, l :: 0 <= k < l < |records| ==> records[k].mutatorIndex != records[l].mutatorIndex
  }

  /** Applying a rule sets each of its positions to the to-value and leaves every
      other position alone. */
  lemma {:induction false} ApplyRecordsAt(records: seq<Record>, mutation: seq<MutatorValue>)
    requires RecordsWithin(records, |mutation|) && DistinctPositions(records)
    ensures forall k :: 0 <= k < |records| ==>
      ApplyRecords(records, mutation)[records[k].mutatorIndex] == records[k].valueTo
    ensures forall p :: 0 <= p < |mutation| && (forall k :: 0 <= k < |records| ==> records[k].mutatorIndex != p) ==>
      ApplyRecords(records, mutation)[p] == mutation[p]
  {
    if records != [] {
      var m' := mutation[records[0].mutatorIndex := records[0].valueTo];
      ApplyRecordsAt(records[1..], m');
      var r := ApplyRecords(records, mutation);
      assert r == ApplyRecords(records[1..], m');
      forall k | 0 <= k < |records|
        ensures r[records[k].mutatorIndex] == records[k].valueTo
      {
        if k > 0 {
          assert records[1..][k - 1] == records[k];
        } else {
          forall l | 0 <= l < |records[1..]|
            ensures records[1..][l].mutatorIndex != records[0].mutatorIndex
          {
            assert records[1..][l] == records[l + 1];
          }
        }
      }
      forall p | 0 <= p < |mutation| && (forall k :: 0 <= k < |records| ==> records[k].mutatorIndex != p)
        ensures r[p] == mutation[p]
      {
        forall l | 0 <= l < |records[1..]|
          ensures records[1..][l].mutatorIndex != p
        {
          assert records[1..][l] == records[l + 1];
        }
      }
    }
  }

  /** The result is the first matching rule applied, or the input unchanged with
      "not rewritten" when no rule matches. */
  lemma {:induction false} FirstMatchingRuleApplies(rws: seq<MutationRewrite>, mutation: seq<MutatorValue>)
    requires RulesWithin(rws, |mutation|)
    ensures ApplyFirstRule(rws, mutation).1 <==> exists i :: 0 <= i < |rws| && Matches(rws[i], mutation)
    ensures !ApplyFirstRule(rws, mutation).1 ==> ApplyFirstRule(rws, mutation).0 == mutation
    ensures ApplyFirstRule(rws, mutation).1 ==>
      exists i :: 0 <= i < |rws| && Matches(rws[i], mutation)
        && (forall j :: 0 <= j < i ==> !Matches(rws[j], mutation))
        && ApplyFirstRule(rws, mutation).0 == ApplyRecords(rws[i].records, mutation)
  {
    if rws != [] && !Matches(rws[0], mutation) {
      var tail := rws[1..];
      assert forall i :: 0 <= i < |tail| ==> tail[i] == rws[i + 1];
      FirstMatchingRuleApplies(tail, mutation);
      if ApplyFirstRule(rws, mutation).1 {
        var i :| 0 <= i < |tail| && Matches(tail[i], mutation)
          && (forall j :: 0 <= j < i ==> !Matches(tail[j], mutation))
          && ApplyFirstRule(tail, mutation).0 == ApplyRecords(tail[i].records, mutation);
        assert forall j :: 0 <= j < i + 1 ==> !Matches(rws[j], mutation) by {
          forall j | 0 <= j < i + 1
            ensures !Matches(rws[j], mutation)
          {
            if j > 0 {
              assert rws[j] == tail[j - 1];
            }
          }
        }
      } else {
        forall i | 0 <= i < |rws|
          ensures !Matches(rws[i], mutation)
        {
          if i > 0 {
            assert rws[i] == tail[i - 1];
          }
        }
      }
    }
  }

  lemma {:induction false} ApplyRecordsKeepsValid(records: seq<Record>, ms: seq<Mutator>, mutation: seq<MutatorValue>)
    requires ValidMutation(ms, mutation)
    requires forall k :: 0 <= k < |records| ==> RecordValid(records[k], ms)
    ensures RecordsWithin(records, |mutation|)
    ensures ValidMutation(ms, ApplyRecords(records, mutation))
  {
    if records != [] {
      var m' := mutation[records[0].mutatorIndex := records[0].valueTo];
      assert ValidMutation(ms, m');
      assert forall k :: 0 <= k < |records[1..]| ==> records[1..][k] == records[k + 1];
      ApplyRecordsKeepsValid(records[1..], ms, m');
    }
  }

  /** Rewriting keeps a valid mutation valid: same length, every value declared. */
  lemma {:induction false} RewriteKeepsMutationValid(rws: seq<MutationRewrite>, ms: seq<Mutator>, mutation: seq<MutatorValue>)
    requires RewritesValid(rws, ms) && ValidMutation(ms, mutation)
    ensures RulesWithin(rws, |mutation|)
    ensures ValidMutation(ms, ApplyFirstRule(rws, mutation).0)
  {
    forall i | 0 <= i < |rws|
      ensures RecordsWithin(rws[i].records, |mutation|)
    {
      assert RewriteValid(rws[i], ms);
    }
    FirstMatchingRuleApplies(rws, mutation);
    if ApplyFirstRule(rws, mutation).1 {
      var i :| 0 <= i < |rws| && Matches(rws[i], mutation)
        && ApplyFirstRule(rws, mutation).0 == ApplyRecords(rws[i].records, mutation);
      assert RewriteValid(rws[i], ms);
      ApplyRecordsKeepsValid(rws[i].records, ms, mutation);
    }
  }

  /** Some record of the rule moves its mutator to a different value. */
  predicate ChangesAValue(rw: MutationRewrite)
  {
    exists k :: 0 <= k < |rw.records| && rw.records[k].valueFrom != rw.records[k].valueTo
  }

  /** A changed vector is always reported as rewritten. A rewritten vector changed exactly
      when the rule applied (the first that matches) changes a value: a rule whose records
      all keep their values matches, reports "rewritten" and leaves the vector as it was. */
  lemma ChangedOnlyWhenRewritten(rws: seq<MutationRewrite>, ms: seq<Mutator>, mutation: seq<MutatorValue>)
    requires RewritesValid(rws, ms) && |mutation| == |ms|
    ensures RulesWithin(rws, |mutation|)
    ensures ApplyFirstRule(rws, mutation).0 != mutation ==> ApplyFirstRule(rws, mutation).1
    ensures ApplyFirstRule(rws, mutation).1 ==>
      exists i :: 0 <= i < |rws| && Matches(rws[i], mutation)
        && (forall j :: 0 <= j < i ==> !Matches(rws[j], mutation))
        && (ApplyFirstRule(rws, mutation).0 != mutation <==> ChangesAValue(rws[i]))
  {
    forall i | 0 <= i < |rws|
      ensures RecordsWithin(rws[i].records, |mutation|)
    {
      assert RewriteValid(rws[i], ms);
    }
    FirstMatchingRuleApplies(rws, mutation);
    if ApplyFirstRule(rws, mutation).1 {
      var i :| 0 <= i < |rws| && Matches(rws[i], mutation)
        && (forall j :: 0 <= j < i ==> !Matches(rws[j], mutation))
        && ApplyFirstRule(rws, mutation).0 == ApplyRecords(rws[i].records, mutation);
      ApplyRuleChanges(rws[i], ms, mutation);
    }
  }

  /** A matching rule changes the vector exactly when one of its records changes a value. */
  lemma ApplyRuleChanges(rw: MutationRewrite, ms: seq<Mutator>, mutation: seq<MutatorValue>)
    requires RewriteValid(rw, ms) && |mutation| == |ms|
    requires RecordsWithin(rw.records, |mutation|) && Matches(rw, mutation)
    ensures ApplyRecords(rw.records, mutation) != mutation <==> ChangesAValue(rw)
  {
    var records := rw.records;
    var after := ApplyRecords(records, mutation);
    ApplyRecordsAt(records, mutation);
    if ChangesAValue(rw) {
      var k :| 0 <= k < |records| && records[k].valueFrom != records[k].valueTo;
      assert after[records[k].mutatorIndex] != mutation[records[k].mutatorIndex];
    } else {
      forall p | 0 <= p < |mutation|
        ensures after[p] == mutation[p]
      {
        if k :| 0 <= k < |records| && records[k].mutatorIndex == p {
          assert records[k].valueFrom == records[k].valueTo;
        }
      }
      assert after == mutation;
    }
  }

  /** The vectors a set of mutation vectors is rewritten to. */
  function RewriteImage(rws: seq<MutationRewrite>, n: nat, space: set<seq<MutatorValue>>): set<seq<MutatorValue>>
    requires RulesWithin(rws, n)
    requires forall m :: m in space ==> |m| == n
  {
    set m | m in space :: ApplyFirstRule(rws, m).0
  }

  /** The set of rewritten vectors is never larger than the set it came from, so
      rewriting can only shrink the number of distinct variants. */
  lemma {:induction false} RewriteImageNoLarger(rws: seq<MutationRewrite>, n: nat, space: set<seq<MutatorValue>>)
    requires RulesWithin(rws, n)
    requires forall m :: m in space ==> |m| == n
    ensures |RewriteImage(rws, n, space)| <= |space|
    decreases |space|
  {
    if space != {} {
      var x :| x in space;
      var rest := space - {x};
      RewriteImageNoLarger(rws, n, rest);
      var restImage := RewriteImage(rws, n, rest);
      var y := ApplyFirstRule(rws, x).0;
      assert RewriteImage(rws, n, space) == restImage + {y};
      assert |rest| == |space| - 1;
      if y !in restImage {
        assert |restImage + {y}| == |restImage| + 1;
      } else {
        assert restImage + {y} == restImage;
      }
    }
  }

  // ---------------------------------------------------------------------------
  // The rules of the shader compiler test: LOD {0,1,2}, PASS {0,1,2,3}, DIFFUSE_TEX {0,1}.

  function TestMutators(): seq<Mutator>
  {
    [Mutator("LOD", [0, 1, 2], false),
     Mutator("PASS", [0, 1, 2, 3], false),
     Mutator("DIFFUSE_TEX", [0, 1], false)]
  }

  function TestRules(): seq<MutationRewrite>
  {
    [MutationRewrite([Record(1, 1, 1), Record(2, 1, 0)]),
     MutationRewrite([Record(1, 2, 2), Record(2, 1, 0)]),
     MutationRewrite([Record(1, 3, 2), Record(2, 1, 0)])]
  }

  /** A two-record rule over distinct, ordered mutators is well formed. */
  lemma TwoRecordRuleValid(rw: MutationRewrite, ms: seq<Mutator>)
    requires |rw.records| == 2
    requires RecordValid(rw.records[0], ms) && RecordValid(rw.records[1], ms)
    requires rw.records[0].mutatorIndex < rw.records[1].mutatorIndex
    ensures RewriteValid(rw, ms)
  {
  }

  lemma ThreeRulesValid(rws: seq<MutationRewrite>, ms: seq<Mutator>)
    requires |rws| == 3
    requires RewriteValid(rws[0], ms) && RewriteValid(rws[1], ms) && RewriteValid(rws[2], ms)
    requires rws[0] != rws[1] && rws[0] != rws[2] && rws[1] != rws[2]
    ensures RewritesValid(rws, ms)
  {
  }

  /** The test's rules are well formed against the test's mutators. */
  lemma TestRulesValid()
    ensures RewritesValid(TestRules(), TestMutators())
  {
    var rws := TestRules();
    var ms := TestMutators();
    assert ms[1].values == [0, 1, 2, 3] && ms[2].values == [0, 1];
    TwoRecordRuleValid(rws[0], ms);
    TwoRecordRuleValid(rws[1], ms);
    TwoRecordRuleValid(rws[2], ms);
    assert rws[0].records[0] != rws[1].records[0];
    assert rws[0].records[0] != rws[2].records[0];
    assert rws[1].records[0] != rws[2].records[0];
    ThreeRulesValid(rws, ms);
  }

  /** (PASS 3, DIFFUSE_TEX 1) becomes (PASS 2, DIFFUSE_TEX 0) whatever the LOD. */
  lemma TestRulesCollapseDiffuse(lod: MutatorValue)
    ensures ApplyFirstRule(TestRules(), [lod, 3, 1]) == ([lod, 2, 0], true)
  {
    var rws := TestRules();
    var m: seq<MutatorValue> := [lod, 3, 1];
    assert !Matches(rws[0], m) by {
      assert m[rws[0].records[0].mutatorIndex] != rws[0].records[0].valueFrom;
    }
    assert !Matches(rws[1], m) by {
      assert m[rws[1].records[0].mutatorIndex] != rws[1].records[0].valueFrom;
    }
    assert Matches(rws[2], m);
    var tail := rws[1..][1..];
    assert tail == [rws[2]];
    var recs := rws[2].records;
    assert recs[1..][1..] == [];
    assert m[1 := 2] == [lod, 2, 1] && [lod, 2, 1][2 := 0] == [lod, 2, 0];
    assert ApplyRecords(recs[1..], [lod, 2, 1]) == ApplyRecords(recs[1..][1..], [lod, 2, 0]);
    assert ApplyRecords(recs, m) == ApplyRecords(recs[1..], [lod, 2, 1]);
    assert ApplyFirstRule(tail, m) == (ApplyRecords(recs, m), true);
    assert ApplyFirstRule(rws[1..], m) == ApplyFirstRule(tail, m);
  }

  /** The rewritten vector (PASS 2, DIFFUSE_TEX 0) is a fixed point: no rule matches. */
  lemma TestRulesFixedPoint(lod: MutatorValue)
    ensures ApplyFirstRule(TestRules(), [lod, 2, 0]) == ([lod, 2, 0], false)
  {
    var rws := TestRules();
    var m: seq<MutatorValue> := [lod, 2, 0];
    assert !Matches(rws[0], m) by {
      assert m[rws[0].records[0].mutatorIndex] != rws[0].records[0].valueFrom;
    }
    assert !Matches(rws[1], m) by {
      assert m[rws[1].records[1].mutatorIndex] != rws[1].records[1].valueFrom;
    }
    assert !Matches(rws[2], m) by {
      assert m[rws[2].records[0].mutatorIndex] != rws[2].records[0].valueFrom;
    }
    var t1 := rws[1..];
    var t2 := t1[1..];
    assert t2[1..] == [] && t1[0] == rws[1] && t2[0] == rws[2];
    assert ApplyFirstRule(t2, m) == ApplyFirstRule(t2[1..], m);
    assert ApplyFirstRule(t1, m) == ApplyFirstRule(t2, m);
  }
}

=== FILE: text.dfy ===
/** Line-level text handling of the parser: the tokenizer, comment tokens,
    decimal numbers and the split of a file into lines. */
module Text {
  import opened Common

  predicate IsBlank(c: char)
  {
    c == ' ' || c == '\t'
  }

  predicate NoBlanks(s: string)
  {
    forall i :: 0 <= i < |s| ==> !IsBlank(s[i])
  }

  /** What the tokenizer produces: a non-empty run of non-blank characters. */
  predicate IsToken(t: string)
  {
    |t| > 0 && NoBlanks(t)
  }

  /** Joins `parts` with one `sep` character between neighbours. */
  function Join(parts: seq<string>, sep: char): string
  {
    if parts == [] then []
    else if |parts| == 1 then parts[0]
    else parts[0] + [sep] + Join(parts[1..], sep)
  }

  /** Concatenation without separators. */
  function Concat(parts: seq<string>): string
  {
    if parts == [] then [] else parts[0] + Concat(parts[1..])
  }

  /** The characters of `s` that are not blanks, in order. */
  function RemoveBlanks(s: string): string
  {
    if s == [] then []
    else (if IsBlank(s[0]) then [] else [s[0]]) + RemoveBlanks(s[1..])
  }

  // ---------------------------------------------------------------------------
  // Tokenizer

  function Flush(cur: string): seq<string>
  {
    if cur == [] then [] else [cur]
  }

  /** Splits `rest` at blanks, `cur` being the part of a token already read. */
  function ScanTokens(rest: string, cur: string): seq<string>
    decreases |rest|
  {
    if rest == [] then Flush(cur)
    else if IsBlank(rest[0]) then Flush(cur) + ScanTokens(rest[1..], [])
    else ScanTokens(rest[1..], cur + [rest[0]])
  }

  /** The whitespace-separated tokens of a line (tabs count as spaces). */
  function Tokens(line: string): seq<string>
  {
    ScanTokens(line, [])
  }

  /** The parser's line tokenizer. */
  method TokenizeLine(line: string) returns (tokens: seq<string>)
    ensures tokens == Tokens(line)
  {
    tokens := [];
    var cur: string := [];
    var i := 0;
    while i < |line|
      invariant 0 <= i <= |line|
      invariant tokens + ScanTokens(line[i..], cur) == Tokens(line)
    {
      assert line[i..][1..] == line[i + 1..];
      if IsBlank(line[i]) {
        if cur != [] {
          tokens := tokens + [cur];
          cur := [];
        }
      } else {
        cur := cur + [line[i]];
      }
      i := i + 1;
    }
    if cur != [] {
      tokens := tokens + [cur];
    }
  }

  lemma {:induction false} ConcatAppend(a: seq<string>, b: seq<string>)
    ensures Concat(a + b) == Concat(a) + Concat(b)
  {
    if a != [] {
      assert (a + b)[0] == a[0] && (a + b)[1..] == a[1..] + b;
      ConcatAppend(a[1..], b);
      calc {
        Concat(a + b);
        a[0] + Concat(a[1..] + b);
        a[0] + (Concat(a[1..]) + Concat(b));
        (a[0] + Concat(a[1..])) + Concat(b);
      }
    } else {
      assert a + b == b;
    }
  }

  lemma {:induction false} ScanTokensShape(rest: string, cur: string)
    requires NoBlanks(cur)
    ensures forall t :: t in ScanTokens(rest, cur) ==> IsToken(t)
    ensures Concat(ScanTokens(rest, cur)) == cur + RemoveBlanks(rest)
    decreases |rest|
  {
    if rest == [] {
    } else if IsBlank(rest[0]) {
      ScanTokensShape(rest[1..], []);
      ConcatAppend(Flush(cur), ScanTokens(rest[1..], []));
    } else {
      ScanTokensShape(rest[1..], cur + [rest[0]]);
      assert cur + [rest[0]] + RemoveBlanks(rest[1..]) == cur + RemoveBlanks(rest);
    }
  }

  /** Every token is non-empty and blank-free, and the tokens hold exactly the
      non-blank characters of the line, in order. */
  lemma TokensShape(line: string)
    ensures forall t :: t in Tokens(line) ==> IsToken(t)
    ensures Concat(Tokens(line)) == RemoveBlanks(line)
  {
    ScanTokensShape(line, []);
  }

  lemma {:induction false} ScanTokensWord(w: string, r: string, cur: string)
    requires NoBlanks(w)
    ensures ScanTokens(w + r, cur) == ScanTokens(r, cur + w)
    decreases |w|
  {
    if w == [] {
      assert w + r == r && cur + w == cur;
    } else {
      assert (w + r)[1..] == w[1..] + r;
      ScanTokensWord(w[1..], r, cur + [w[0]]);
      assert cur + [w[0]] + w[1..] == cur + w;
    }
  }

  /** Tokenizing tokens joined by single spaces gives the tokens back. */
  lemma {:induction false} TokensOfJoin(ts: seq<string>)
    requires forall t :: t in ts ==> IsToken(t)
    ensures Tokens(Join(ts, ' ')) == ts
  {
    if ts == [] {
    } else if |ts| == 1 {
      assert ts[0] in ts && ts[0] + [] == ts[0] && [] + ts[0] == ts[0];
      ScanTokensWord(ts[0], [], []);
      assert ts == [ts[0]];
    } else {
      var rest := [' '] + Join(ts[1..], ' ');
      assert Join(ts, ' ') == ts[0] + rest;
      assert ts[0] in ts;
      ScanTokensWord(ts[0], rest, []);
      assert rest[1..] == Join(ts[1..], ' ');
      assert forall t :: t in ts[1..] ==> t in ts;
      TokensOfJoin(ts[1..]);
      assert [] + ts[0] == ts[0];
      assert ScanTokens(rest, ts[0]) == [ts[0]] + ScanTokens(rest[1..], []);
      assert ts == [ts[0]] + ts[1..];
    }
  }

  // ---------------------------------------------------------------------------
  // Comments

  /** A token opens a line or block comment. */
  function TokenIsComment(token: string): (r: bool)
    ensures r <==> ("//" <= token || "/*" <= token)
  {
    |token| >= 2 && token[0] == '/' && (token[1] == '/' || token[1] == '*')
  }

  /** The tokens before the first comment token. */
  function StripComments(tokens: seq<string>): (r: seq<string>)
    ensures r <= tokens
    ensures forall t :: t in r ==> !TokenIsComment(t)
    ensures |r| < |tokens| ==> TokenIsComment(tokens[|r|])
  {
    if tokens == [] then []
    else if TokenIsComment(tokens[0]) then []
    else [tokens[0]] + StripComments(tokens[1..])
  }

  // ---------------------------------------------------------------------------
  // Decimal numbers

  predicate IsDigit(c: char)
  {
    '0' <= c <= '9'
  }

  predicate AllDigits(s: string)
  {
    forall i :: 0 <= i < |s| ==> IsDigit(s[i])
  }

  function DigitsValue(s: string): nat
    requires AllDigits(s)
    decreases |s|
  {
    if s == [] then 0
    else 10 * DigitsValue(s[..|s| - 1]) + ((s[|s| - 1] as int) - ('0' as int))
  }

  /** A decimal integer with an optional leading minus sign. */
  function ParseInt(s: string): Option<int>
  {
    if |s| > 0 && AllDigits(s) then Some(DigitsValue(s) as int)
    else if |s| > 1 && s[0] == '-' && AllDigits(s[1..]) then Some(-(DigitsValue(s[1..]) as int))
    else None
  }

  function DigitChar(d: nat): char
    requires d < 10
  {
    (('0' as int) + d) as char
  }

  function FormatNat(n: nat): (s: string)
    ensures |s| > 0 && AllDigits(s)
    decreases n
  {
    if n < 10 then [DigitChar(n)] else FormatNat(n / 10) + [DigitChar(n % 10)]
  }

  function FormatInt(n: int): string
  {
    if n < 0 then "-" + FormatNat(-n) else FormatNat(n)
  }

  /** A character that is neither the separator nor in any part is not in the join. */
  lemma {:induction false} JoinAvoids(parts: seq<string>, sep: char, c: char)
    requires c != sep && forall p :: p in parts ==> c !in p
    ensures c !in Join(parts, sep)
  {
    if |parts| > 1 {
      assert parts[0] in parts;
      JoinAvoids(parts[1..], sep, c);
    } else if |parts| == 1 {
      assert parts[0] in parts;
    }
  }

  /** A number is written without a line break. */
  lemma FormatIntOneLine(n: int)
    ensures '\n' !in FormatInt(n)
  {
    var d := FormatNat(if n < 0 then -n else n);
    assert forall i :: 0 <= i < |d| ==> d[i] != '\n';
  }

  lemma {:induction false} FormatNatValue(n: nat)
    ensures DigitsValue(FormatNat(n)) == n
    decreases n
  {
    if n >= 10 {
      var s := FormatNat(n);
      assert s[..|s| - 1] == FormatNat(n / 10);
      FormatNatValue(n / 10);
    }
  }

  /** Printing an integer and reading it back gives the integer. */
  lemma ParseFormatRoundTrip(n: int)
    ensures ParseInt(FormatInt(n)) == Some(n)
  {
    if n < 0 {
      var s := FormatInt(n);
      assert s[1..] == FormatNat(-n);
      assert !IsDigit(s[0]);
      FormatNatValue(-n);
    } else {
      FormatNatValue(n);
    }
  }

  // ---------------------------------------------------------------------------
  // Lines

  /** Splits `rest` at newlines, `cur` being the part of a line already read. */
  function ScanLines(rest: string, cur: string): (r: seq<string>)
    ensures |r| > 0
    decreases |rest|
  {
    if rest == [] then [cur]
    else if rest[0] == '\n' then [cur] + ScanLines(rest[1..], [])
    else ScanLines(rest[1..], cur + [rest[0]])
  }

  /** The lines of a file's text. */
  function SplitLines(text: string): seq<string>
  {
    ScanLines(text, [])
  }

  lemma {:induction false} ScanLinesJoin(rest: string, cur: string)
    ensures Join(ScanLines(rest, cur), '\n') == cur + rest
    decreases |rest|
  {
    if rest == [] {
    } else if rest[0] == '\n' {
      ScanLinesJoin(rest[1..], []);
      assert rest == ['\n'] + rest[1..];
    } else {
      ScanLinesJoin(rest[1..], cur + [rest[0]]);
      assert cur + [rest[0]] + rest[1..] == cur + rest;
    }
  }

  lemma {:induction false} ScanLinesWord(w: string, r: string, cur: string)
    requires '\n' !in w
    ensures ScanLines(w + r, cur) == ScanLines(r, cur + w)
    decreases |w|
  {
    if w == [] {
      assert w + r == r && cur + w == cur;
    } else {
      assert (w + r)[1..] == w[1..] + r;
      ScanLinesWord(w[1..], r, cur + [w[0]]);
      assert cur + [w[0]] + w[1..] == cur + w;
    }
  }

  /** Lines without newlines, joined by newlines, split back into the same lines. */
  lemma {:induction false} SplitJoinLines(lines: seq<string>)
    requires lines != []
    requires forall l :: l in lines ==> '\n' !in l
    ensures SplitLines(Join(lines, '\n')) == lines
  {
    assert lines[0] in lines;
    if |lines| == 1 {
      ScanLinesWord(lines[0], [], []);
      assert [] + lines[0] == lines[0] && lines[0] + [] == lines[0];
    } else {
      var rest := ['\n'] + Join(lines[1..], '\n');
      assert Join(lines, '\n') == lines[0] + rest;
      ScanLinesWord(lines[0], rest, []);
      assert rest[1..] == Join(lines[1..], '\n');
      assert forall l :: l in lines[1..] ==> l in lines;
      SplitJoinLines(lines[1..]);
      assert [] + lines[0] == lines[0];
      assert lines == [lines[0]] + lines[1..];
    }
  }

  /** Re-joining the lines with newlines gives the text back. */
  lemma SplitLinesJoin(text: string)
    ensures Join(SplitLines(text), '\n') == text
  {
    ScanLinesJoin(text, []);
  }
}

=== FILE: variant.dfy ===
/** `ShaderProgramParserVariant`: what one mutation of a program produces, filled in by
    the parser's variant generation and read through guarded accessors. */
module Variants {
  import opened Common
  import opened ParserModel
  import opened Layout

  /** Only active inputs hold a binding or a place in the block, and every place lies
      inside the block. */
  predicate InfosWithin(infos: seq<BlockInfo>, bindings: seq<int>, mask: seq<bool>, size: int)
    requires |infos| == |bindings| <= |mask|
  {
    && (forall i :: 0 <= i < |bindings| && bindings[i] >= 0 ==> mask[i])
    && (forall i :: 0 <= i < |infos| && infos[i].offset >= 0 ==>
          mask[i] && infos[i].offset + infos[i].size <= size)
  }

  class ShaderProgramParserVariant {
    /** One source text per shader stage, indexed by `ShaderTypeIndex`. */
    var sources: seq<string>
    /** Per input (by `Input.idx`): its place in the uniform block. */
    var blockInfos: seq<BlockInfo>
    /** Per input (by `Input.idx`): its binding slot, -1 when it has none. */
    var bindings: seq<int>
    var uniBlockSize: U32
    var usesPushConstants: bool
    var activeInputVarsMask: seq<bool>

    ghost predicate Valid()
      reads this
    {
      && |sources| == SHADER_TYPE_COUNT
      && |activeInputVarsMask| == MAX_SHADER_PROGRAM_INPUT_VARIABLES
      && |blockInfos| == |bindings| <= MAX_SHADER_PROGRAM_INPUT_VARIABLES
      && (forall i :: 0 <= i < |bindings| ==> bindings[i] < MAX_SHADER_PROGRAM_INPUT_VARIABLES)
      && InfosWithin(blockInfos, bindings, activeInputVarsMask, uniBlockSize)
      && (usesPushConstants ==> uniBlockSize > 0)
    }

    /** A fresh variant: no sources, an empty block, no push constants and no active input. */
    constructor ()
      ensures Valid()
      ensures sources == seq(SHADER_TYPE_COUNT, _ => "")
      ensures blockInfos == [] && bindings == []
      ensures uniBlockSize == 0 && !usesPushConstants
      ensures forall i :: 0 <= i < |activeInputVarsMask| ==> !activeInputVarsMask[i]
    {
      sources := seq(SHADER_TYPE_COUNT, _ => "");
      blockInfos := [];
      bindings := [];
      uniBlockSize := 0;
      usesPushConstants := false;
      activeInputVarsMask := seq(MAX_SHADER_PROGRAM_INPUT_VARIABLES, _ => false);
    }

    /** Stores what one variant generation computed. */
    method Fill(sources: seq<string>, mask: seq<bool>, infos: seq<BlockInfo>, bindings: seq<int>, size: U32, push: bool)
      modifies this
      requires |sources| == SHADER_TYPE_COUNT && |mask| == MAX_SHADER_PROGRAM_INPUT_VARIABLES
      requires |infos| == |bindings| <= MAX_SHADER_PROGRAM_INPUT_VARIABLES
      requires forall i :: 0 <= i < |bindings| ==> bindings[i] < MAX_SHADER_PROGRAM_INPUT_VARIABLES
      requires InfosWithin(infos, bindings, mask, size as int) && (push ==> size > 0)
      ensures Valid()
      ensures this.sources == sources && activeInputVarsMask == mask
      ensures blockInfos == infos && this.bindings == bindings
      ensures uniBlockSize == size && usesPushConstants == push
    {
      this.sources := sources;
      activeInputVarsMask := mask;
      blockInfos := infos;
      this.bindings := bindings;
      uniBlockSize := size;
      usesPushConstants := push;
    }

    function GetSource(t: ShaderType): (r: string)
      reads this
      requires Valid()
      ensures r == sources[ShaderTypeIndex(t)]
    {
      sources[ShaderTypeIndex(t)]
    }

    /** Bit `idx` of the active-input mask: an input that is not active has neither a
        binding nor a place in the block. */
    function IsInputActive(input: Input): (r: bool)
      reads this
      requires Valid()
      requires input.idx < MAX_SHADER_PROGRAM_INPUT_VARIABLES
      ensures !r && input.idx < |bindings| ==> bindings[input.idx] < 0 && blockInfos[input.idx].offset < 0
    {
      activeInputVarsMask[input.idx]
    }

    /** Defined only for an active input that lives in the uniform block. */
    function GetBlockInfo(input: Input): (r: BlockInfo)
      reads this
      requires Valid()
      requires input.idx < |blockInfos|
      requires input.InUbo() && IsInputActive(input)
      ensures r == blockInfos[input.idx]
    {
      blockInfos[input.idx]
    }

    /** Defined only for a texture or sampler whose binding was assigned; the stored
        16-bit slot is then non-negative and converts to the unsigned result unchanged. */
    function GetBinding(input: Input): (r: U32)
      reads this
      requires Valid()
      requires input.idx < |bindings|
      requires (input.IsSampler() || input.IsTexture()) && bindings[input.idx] >= 0
      ensures r as int == bindings[input.idx] && r >= 0
    {
      bindings[input.idx]
    }

    /** The block size: every placed input ends inside it. */
    function GetBlockSize(): (r: U32)
      reads this
      requires Valid()
      ensures forall i :: 0 <= i < |blockInfos| && blockInfos[i].offset >= 0 ==>
        blockInfos[i].offset + blockInfos[i].size <= r as int
    {
      uniBlockSize
    }

    /** Push constants are used only for a block that holds something. */
    function UsesPushConstants(): (r: bool)
      reads this
      requires Valid()
      ensures r ==> GetBlockSize() > 0
    {
      usesPushConstants
    }
  }
}
